=== FILE: README.md ===
# AirportApp store and workflow guards in Dafny

AirportApp is a single-page airport operations demo. One in-memory store holds seven
slots. These are the signed-in user, the users, the flights, the passengers, the bag-event
log (newest first), the message log (newest first) and the toasts. Each staff page puts a
chain of field checks and workflow rules in front of the store's operations:

- airline check-in, gate boarding and departure;
- ground bag loading and bag updates;
- passenger bag tracking and gate information;
- the admin's passenger, staff, flight and message pages;
- sign-in and password reset.

Every add, update and remove call of the store succeeds; only `login` and
`resetPassword` can refuse. Every cross-entity rule lives in the pages.

This project models that core:

- **Validators** (`validation.dfy`). The seven format validators are predicates over
  strings. They are defined by a small regular-expression matcher (`regex.dfy`), and each
  one is proved equivalent to a plain description. JavaScript `trim`, `\s`, `.` and case
  mapping are written out in `text.dfy`. Whitespace is the ECMAScript set; case mapping is
  ASCII only.
- **Entities and the store** (`entities.dfy`, `app_context.dfy`). The entities are
  datatypes. The store is the class `AppStore`, with one `seq` field per slot. It also has
  a `saved` slot that always equals the snapshot of the six persisted slots. Every method
  states its whole new state.
- **Pages** (one module each). Each page that changes the store has:
  - its guard chain as a pure function (`Decide`, `ErrorsOf`, `LoadError`, …);
  - its whole effect on the store as a pure `Step` function;
  - its handler as a method on `AppStore` that is proved to produce exactly `Step`.

  The three read-only pages (bag tracking, gate information, departure) give their views
  and the toast their handler posts as pure functions (`Events`, `Resolve`, `Pax`,
  `OnSearch`, `OnLookup`, `OnAnnounce`, …).
- **System level** (`invariants.dfy`). Every action that changes the store's data is
  collected in `Apply`: sign-in, sign-out, password reset, check-in, boarding, loading, bag
  updates, the three admin forms, flight removal, both message pages, and dismissing a toast.
  The read-only pages and the flight Details button only post a toast and are not actions
  of `Apply`. The lemmas cover any sequence of actions:
  - uniqueness of passenger ids, tickets, luggage ids and usernames is preserved;
  - boarded implies checked in;
  - flags are never cleared;
  - the bag log only grows at its head.
- **Demo journey** (`demo_journey.dfy`). The seeded passenger checks in, is turned away at
  the wrong gate, boards, and has the bag loaded.

Ids and clock readings are parameters. `uid` and `new Date()` are not modelled, and each
store method requires its new id to be unused. Reading and writing browser storage is
modelled as a function of an optional, already parsed snapshot.

## Model

| member | source | states |
|---|---|---|
| Validation.UsernameValidIff | frontend/src/app/utils/validation.ts:1-4 | `isUsernameValid` holds iff the string is one or more ASCII letters followed by exactly two ASCII digits |
| Validation.PasswordValidIff | frontend/src/app/utils/validation.ts:6-10 | `isPasswordValid` holds iff length ≥ 6, no line terminator (JS `.`), some ASCII letter and some digit |
| Validation.EmailValidIff | frontend/src/app/utils/validation.ts:12-15 | `isEmailValid` holds iff there is exactly one '@', not first; there is no whitespace; and after the '@' there is a '.' with a character on each side |
| Validation.PhoneValidIff | frontend/src/app/utils/validation.ts:17-19 | `isPhoneValid` holds iff the string is exactly ten ASCII digits |
| Validation.TicketValidIff | frontend/src/app/utils/validation.ts:25-27 | `isTicketValid` holds iff the string is ten ASCII digits, so it agrees with `isPhoneValid` on every input |
| Validation.AirlineFlightNoValidIff | frontend/src/app/utils/validation.ts:21-23 | `isAirlineFlightNoValid` holds iff the string is two ASCII letters (either case) followed by four digits |
| Validation.LuggageIdValidIff | frontend/src/app/utils/validation.ts:29-31 | `isLuggageIdValid` holds iff the string is exactly six ASCII digits |
| Validation.EmptyIsInvalid | frontend/src/app/utils/validation.ts:1-31 | no validator accepts the empty string, so a blank field always fails its format check |
| Validation.DigitsOnlyIff | frontend/src/app/utils/validation.ts:17-31 | a pattern of exactly n digits matches iff the string is n ASCII digits |
| Text.Trim | frontend/src/app/pages/LoginPage.tsx:17 | `.trim()` returns a contiguous slice with no whitespace at either end; the removed ends are all whitespace |
| Text.TrimIdempotent | frontend/src/app/pages/admin/AdminMessages.tsx:14-18 | trimming twice is trimming once |
| Text.BlankIffAllWhitespace | frontend/src/app/pages/admin/ManagePassengers.tsx:18 | `!s.trim()` holds iff every character of s is whitespace |
| Text.TrimKeeps | frontend/src/app/pages/ground/LoadBags.tsx:28 | a non-empty string without whitespace at either end is its own trim |
| Text.ToLower | frontend/src/app/pages/admin/ManageStaff.tsx:26 | `toLowerCase` keeps length, maps each ASCII upper-case letter to its lower-case partner (code + 32) and keeps every other character |
| Text.ToUpper | frontend/src/app/pages/admin/ManageFlights.tsx:34 | `toUpperCase` keeps length, maps each ASCII lower-case letter to its upper-case partner (code − 32) and keeps every other character |
| Seqs.Filter | frontend/src/app/pages/ground/UpdateBags.tsx:31 | `filter` keeps only matching elements, is no longer than its input and takes a sub-multiset |
| Seqs.FilterMembers | frontend/src/app/pages/admin/AdminMessages.tsx:10 | an element is in the filtered list iff it is in the list and matches |
| Seqs.FilterAppend | frontend/src/app/pages/ground/UpdateBags.tsx:31 | filtering distributes over concatenation |
| Seqs.FindFirst | frontend/src/app/pages/airline/CheckInPassenger.tsx:16 | `find` yields the first index whose element matches, or none when no element matches |
| Entities.FindUserIgnoringCase | frontend/src/app/context/AppContext.tsx:210 | the first user whose lower-cased name equals the lower-cased input; none iff no user matches |
| Entities.FindFlight | frontend/src/app/pages/passenger/GateInfo.tsx:17 | the first flight with that id; none iff no flight has the id |
| Entities.FindByTicket | frontend/src/app/pages/gate/BoardPassenger.tsx:22 | the first passenger holding the ticket; none iff no passenger holds it |
| Entities.FindByLuggage | frontend/src/app/pages/ground/LoadBags.tsx:17 | the first passenger holding the luggage id; none iff no passenger holds it |
| Entities.OwnerFlight | frontend/src/app/pages/ground/UpdateBags.tsx:18-19 | a flight iff the first holder of the luggage id exists and its flight id is listed; then it is the first flight with that id |
| Entities.FlightLabel | frontend/src/app/pages/admin/ManagePassengers.tsx:117-122 | the number of the first flight with that id when one exists, "Missing flight" for an orphan |
| Entities.UpdateById | frontend/src/app/context/AppContext.tsx:249-251 | `updatePassenger`'s map: same length and order; records with the id get the patch merged; all others are identical |
| Entities.UpdateUnknownIdIsNoOp | frontend/src/app/context/AppContext.tsx:249-251 | updating an id no passenger has changes nothing |
| Entities.UpdateOneRecord | frontend/src/app/context/AppContext.tsx:249-251 | with distinct ids, updating a passenger's id changes that one record only |
| Entities.RemoveFlightById | frontend/src/app/context/AppContext.tsx:239-242 | no flight with the id remains; every other flight remains; nothing is added; order and multiplicity are pinned by `RemoveFlightPrepend` |
| Entities.RemoveFlightPrepend | frontend/src/app/context/AppContext.tsx:239-242 | the filter keeps the survivors in order: a leading flight stays in front exactly when its id differs |
| Entities.RemoveAbsentFlightIsNoOp | frontend/src/app/context/AppContext.tsx:239-242 | removing an absent id leaves the flights exactly as they were |
| Entities.RemoveToastById | frontend/src/app/context/AppContext.tsx:207 | no toast with the id remains; every other toast remains; nothing is added; order and multiplicity are pinned by `RemoveToastPrepend` |
| Entities.RemoveToastPrepend | frontend/src/app/context/AppContext.tsx:207 | the filter keeps the remaining toasts in order: a leading toast stays in front exactly when its id differs |
| Entities.RemoveAbsentToastIsNoOp | frontend/src/app/context/AppContext.tsx:207 | removing an absent toast id is a no-op |
| AppContext.LoadInitialState | frontend/src/app/context/AppContext.tsx:94-173 | the loaded state always starts with no toasts |
| AppContext.ReloadRoundTrip | frontend/src/app/context/AppContext.tsx:94-178 | reading back what `persist` wrote restores the six persisted slots, with empty toasts |
| AppContext.LoadFillsMissingFields | frontend/src/app/context/AppContext.tsx:98-107 | a snapshot with every field missing loads as empty collections and no session |
| AppContext.SeedFacts | frontend/src/app/context/AppContext.tsx:109-173 | without a snapshot: 5 users, 2 flights, one passenger on the first flight neither checked in nor boarded, one 'created' event for 654321, no messages, no session |
| AppContext.Authenticate | frontend/src/app/context/AppContext.tsx:209-216 | succeeds iff the first case-insensitive name match has exactly the password, and then yields that user |
| AppContext.WithPassword | frontend/src/app/context/AppContext.tsx:223-232 | only the password at the index changes; length, order, ids, names and all other users stay |
| AppContext.AppStore.constructor | frontend/src/app/context/AppContext.tsx:183-195 | the store starts as the loaded state, with the persisted snapshot in sync |
| AppContext.AppStore.AddToast | frontend/src/app/context/AppContext.tsx:197-205 | prepends one toast with the new id; nothing else changes |
| AppContext.AppStore.RemoveToast | frontend/src/app/context/AppContext.tsx:207 | the toasts become `RemoveToastById` of the old ones (the others kept in order, by `RemoveToastPrepend`); nothing else changes |
| AppContext.AppStore.Login | frontend/src/app/context/AppContext.tsx:209-216 | ok iff `Authenticate` finds a user, which then becomes the session; on failure the error "Invalid username or password." and no change |
| AppContext.AppStore.Logout | frontend/src/app/context/AppContext.tsx:218-221 | clears the session and nothing else, so a second call changes nothing more |
| AppContext.AppStore.ResetPassword | frontend/src/app/context/AppContext.tsx:223-232 | ok iff a case-insensitive match exists; then only that user's password changes; otherwise "User not found." and no change |
| AppContext.AppStore.AddFlight | frontend/src/app/context/AppContext.tsx:234-237 | always ok; appends one flight with the fresh id; the earlier flights and all other slots are unchanged |
| AppContext.AppStore.RemoveFlight | frontend/src/app/context/AppContext.tsx:239-242 | the flights become `RemoveFlightById` of the old ones (the others kept in order, by `RemoveFlightPrepend`); passengers are untouched, so orphans remain |
| AppContext.AppStore.AddPassenger | frontend/src/app/context/AppContext.tsx:244-247 | always ok; appends one passenger with the fresh id, `checkedIn` and `boarded` false |
| AppContext.AppStore.UpdatePassenger | frontend/src/app/context/AppContext.tsx:249-251 | replaces the passengers by `UpdateById`; nothing else changes |
| AppContext.AppStore.AddUser | frontend/src/app/context/AppContext.tsx:253-256 | always ok; appends one user with the fresh id |
| AppContext.AppStore.AddMessage | frontend/src/app/context/AppContext.tsx:258-260 | prepends one message with the fresh id and the clock reading; the old log is the tail |
| AppContext.AppStore.AddBagEvent | frontend/src/app/context/AppContext.tsx:262-264 | prepends one event with the fresh id and the clock reading; the old log is the tail |
| Guards.TicketError | frontend/src/app/pages/airline/CheckInPassenger.tsx:10-14 | empty iff the trimmed ticket is valid; the "required" message iff the ticket is blank |
| Guards.LuggageError | frontend/src/app/pages/ground/UpdateBags.tsx:12-16 | empty iff the trimmed luggage id is valid; the "required" message iff it is blank |
| Guards.EmailMessage | frontend/src/app/pages/admin/ManagePassengers.tsx:19-20 | a message iff the trimmed email is invalid |
| Guards.PhoneMessage | frontend/src/app/pages/admin/ManagePassengers.tsx:21-22 | a message iff the trimmed phone is invalid |
| Guards.UsernameFormatMessage | frontend/src/app/pages/LoginPage.tsx:17-23 | a message iff the name is blank, or it is neither "admin" (any case) nor in the username format |
| Guards.PasswordMessage | frontend/src/app/pages/LoginPage.tsx:18-27 | a message iff the untrimmed password fails the password rule; the form's own "required" text for an empty one, the rule text otherwise (login, staff and reset forms) |
| CheckInPassenger.Decide | frontend/src/app/pages/airline/CheckInPassenger.tsx:10-27 | invalid iff the trimmed ticket is invalid; not found iff no passenger holds it; otherwise the first holder |
| CheckInPassenger.NoticeOf | frontend/src/app/pages/airline/CheckInPassenger.tsx:20-31 | success iff checked in. The titles and messages are "Invalid ticket" with the ticket error, "Passenger not found" with its fixed text, and "Checked in" with "<name> is checked in." |
| CheckInPassenger.Step | frontend/src/app/pages/airline/CheckInPassenger.tsx:19-32 | success iff found. Then only records with the found id get `checkedIn := true`, and one `received_security` event at "Check-in counter" with no gate is prepended. Otherwise only a toast is added. The flights are never consulted, so orphans check in |
| CheckInPassenger.OnCheckIn | frontend/src/app/pages/airline/CheckInPassenger.tsx:19-32 | the handler's outcome is `Decide` and its effect on the store is exactly `Step` |
| CheckInPassenger.CheckInAgain | frontend/src/app/pages/airline/CheckInPassenger.tsx:19-31 | a repeated check-in is accepted again and adds a second event |
| CheckInPassenger.DecideReadsTickets | frontend/src/app/pages/airline/CheckInPassenger.tsx:10-16 | two rosters with the same tickets in the same order get the same check-in verdict, whatever their flags |
| BoardPassenger.FlightError | frontend/src/app/pages/gate/BoardPassenger.tsx:17-20 | an error iff no gate flight is selected |
| BoardPassenger.Decide | frontend/src/app/pages/gate/BoardPassenger.tsx:11-47 | the ordered chain: field errors (ticket first), not found, not checked in, flight mismatch, else boarded; always for the first holder of the ticket |
| BoardPassenger.NoticeOf | frontend/src/app/pages/gate/BoardPassenger.tsx:27-53 | success iff boarded. Each rejected guard has its own title and text: "Fix boarding fields" with the field error, "Passenger not found", "Not checked in" and "Flight mismatch". Success is "Boarded" with "<name> has boarded." |
| BoardPassenger.GateEvent | frontend/src/app/pages/gate/BoardPassenger.tsx:24-52 | an `at_gate` event exactly when the selected flight exists, at "Gate <gate>" with the gate of the first flight with that id, carrying the given id, luggage id and timestamp |
| BoardPassenger.Boarding | frontend/src/app/pages/gate/BoardPassenger.tsx:49-52 | exactly the records with the found passenger's id get `boarded := true`, all others stay; when the selected flight exists the prepended event is exactly `GateEvent` (location "Gate <gate>", that gate, the event id and timestamp), otherwise the log is unchanged; nothing else changes |
| BoardPassenger.Step | frontend/src/app/pages/gate/BoardPassenger.tsx:26-54 | success iff boarded. Then only records with the found id get `boarded := true`, and the `GateEvent` at "Gate <gate>" for its luggage is prepended iff the flight exists. Otherwise passengers and events are unchanged |
| BoardPassenger.OnBoard | frontend/src/app/pages/gate/BoardPassenger.tsx:26-54 | the handler's outcome is `Decide` and its effect is exactly `Step` |
| BoardPassenger.MismatchChangesNothing | frontend/src/app/pages/gate/BoardPassenger.tsx:39-47 | a flight mismatch leaves `boarded` and the bag log unchanged |
| BoardPassenger.BoardAgain | frontend/src/app/pages/gate/BoardPassenger.tsx:26-53 | an already boarded passenger boards again and, with an existing flight, adds a second event |
| BoardPassenger.DecideIgnoresBoarded | frontend/src/app/pages/gate/BoardPassenger.tsx:22-47 | the boarding verdict depends only on tickets, check-in flags and flight ids, never on `boarded` |
| LoadBags.LoadError | frontend/src/app/pages/ground/LoadBags.tsx:13-21 | empty iff a flight is selected, the luggage id is valid and its first owner is on that flight; each message matches the first failing check in source order |
| LoadBags.FlightGate | frontend/src/app/pages/ground/LoadBags.tsx:11-28 | the gate of the first flight with the selected id, absent iff that flight does not exist |
| LoadBags.RampLocation | frontend/src/app/pages/ground/LoadBags.tsx:28 | the event location is already trimmed; its shape, "Ramp for Gate <gate>" or "Ramp for Gate", is given by `RampLocationShape` |
| LoadBags.Step | frontend/src/app/pages/ground/LoadBags.tsx:23-30 | passengers and flights never change. On error, only a toast. Otherwise one `loaded_plane` event is prepended with the given id and timestamp, the trimmed valid luggage id, the location `RampLocation` ("Ramp for Gate <gate>" trimmed, by `RampLocationShape`) and the flight's gate |
| LoadBags.OnLoad | frontend/src/app/pages/ground/LoadBags.tsx:23-30 | returns `LoadError` and its effect is exactly `Step` |
| LoadBags.RampLocationShape | frontend/src/app/pages/ground/LoadBags.tsx:28 | the location is "Ramp for Gate <gate>" for a gate without padding, and "Ramp for Gate" when the flight is missing |
| LoadBags.RampWithGate | frontend/src/app/pages/ground/LoadBags.tsx:28 | trimming "Ramp for Gate <gate>" keeps it whole when the gate has no padding |
| LoadBags.RampWithoutGate | frontend/src/app/pages/ground/LoadBags.tsx:28 | with no gate the trailing space is trimmed away |
| UpdateBags.EventLocation | frontend/src/app/pages/ground/UpdateBags.tsx:26 | never blank and never padded; the trimmed input when that is non-blank, "Unknown" otherwise |
| UpdateBags.OwnerGate | frontend/src/app/pages/ground/UpdateBags.tsx:18-26 | a gate iff the first holder of the luggage id exists and its flight is listed; then it is that flight's (`OwnerFlight`) gate |
| UpdateBags.History | frontend/src/app/pages/ground/UpdateBags.tsx:30-33 | at most ten events, all for the trimmed id, and exactly the first ones of the filtered log in log order |
| UpdateBags.Step | frontend/src/app/pages/ground/UpdateBags.tsx:21-28 | an invalid id adds only an error toast; a valid one prepends exactly one event with the trimmed id, location, status and owner gate, without an ownership check |
| UpdateBags.OnUpdate | frontend/src/app/pages/ground/UpdateBags.tsx:21-28 | returns the luggage error and its effect is exactly `Step` |
| UpdateBags.UpdateKeepsHistory | frontend/src/app/pages/ground/UpdateBags.tsx:26-33 | after an update the id's events are the new one followed by all earlier ones, other ids' events are unchanged, and the history starts with the new event |
| UpdateBags.PrependFilter | frontend/src/app/pages/ground/UpdateBags.tsx:31 | a prepended event joins only its own luggage id's filtered list |
| TrackBags.BeforeAsymmetric | frontend/src/app/pages/passenger/TrackBags.tsx:21 | the timestamp order `<` on strings is asymmetric |
| TrackBags.BeforeTotal | frontend/src/app/pages/passenger/TrackBags.tsx:21 | any two different timestamps are ordered one way |
| TrackBags.BeforeTransitive | frontend/src/app/pages/passenger/TrackBags.tsx:21 | the timestamp order is transitive |
| TrackBags.NotBeforeTransitive | frontend/src/app/pages/passenger/TrackBags.tsx:21 | "not earlier" is transitive, so newest-first order is consistent |
| TrackBags.Insert | frontend/src/app/pages/passenger/TrackBags.tsx:21 | insertion adds exactly the one event to the multiset |
| TrackBags.InsertKeepsOrder | frontend/src/app/pages/passenger/TrackBags.tsx:21 | inserting into a newest-first list keeps it newest first |
| TrackBags.SortNewestFirst | frontend/src/app/pages/passenger/TrackBags.tsx:21 | the sort is a permutation of its input ordered by timestamp, non-increasing |
| TrackBags.Events | frontend/src/app/pages/passenger/TrackBags.tsx:19-22 | `events` is a permutation of the events for the trimmed id (none dropped, none added), newest first |
| TrackBags.OnSearch | frontend/src/app/pages/passenger/TrackBags.tsx:24-32 | an invalid id gives the "Invalid luggage ID" error toast with the luggage error; a valid id with no events gives the "No events" info toast with its fixed text; nothing at all iff the id is valid and has events |
| TrackBags.OwnerCard | frontend/src/app/pages/passenger/TrackBags.tsx:16-55 | a card iff some passenger holds the id; it shows the first holder, and the number of the first flight with its flight id, or "Missing flight" when that flight is absent |
| GateInfo.Resolve | frontend/src/app/pages/passenger/GateInfo.tsx:10-27 | invalid iff the ticket is invalid; found only with the ticket's first holder and the first flight with its flight id; not found otherwise, orphans included |
| GateInfo.OnLookup | frontend/src/app/pages/passenger/GateInfo.tsx:19-29 | an invalid ticket gives the "Invalid ticket" error with the ticket error; an unresolved passenger or flight gives "Not found" with its fixed text; otherwise the "Gate info loaded" success toast with no message; no data changes |
| GateInfo.OrphanNotFound | frontend/src/app/pages/passenger/GateInfo.tsx:24-27 | a ticket whose holders all lost their flight gives "Not found" |
| FlightDeparture.Pax | frontend/src/app/pages/gate/FlightDeparture.tsx:10 | exactly the passengers on the selected flight; order and multiplicity are pinned by `PaxPrepend` |
| FlightDeparture.PaxPrepend | frontend/src/app/pages/gate/FlightDeparture.tsx:10 | `pax` keeps roster order: a leading passenger heads `pax` exactly when booked on the flight |
| FlightDeparture.BoardedCount | frontend/src/app/pages/gate/FlightDeparture.tsx:47 | the boarded count never exceeds the number of passengers on the flight, and is zero for an empty roster; its value is pinned by `BoardedCountPrepend` |
| FlightDeparture.BoardedCountPrepend | frontend/src/app/pages/gate/FlightDeparture.tsx:47 | the count is the number of boarded passengers on the flight: a leading passenger adds one exactly when booked on it and boarded |
| FlightDeparture.AllBoarded | frontend/src/app/pages/gate/FlightDeparture.tsx:47 | when everyone on the flight has boarded, the count equals `pax.length` |
| FlightDeparture.OnAnnounce | frontend/src/app/pages/gate/FlightDeparture.tsx:12-18 | the "Select a flight" error toast, with no message, iff no flight is selected; otherwise the "Departure status" info toast with its message; no data changes |
| AdminMessages.InboxFor | frontend/src/app/pages/admin/AdminMessages.tsx:10 | exactly the messages addressed to the role, a sub-multiset of the log |
| AdminMessages.Inbox | frontend/src/app/pages/admin/AdminMessages.tsx:10 | exactly the messages addressed to admin |
| AdminMessages.InboxForPrepend | frontend/src/app/pages/admin/AdminMessages.tsx:10 | a newly prepended message heads the inbox of its own role and leaves every other role's inbox unchanged |
| AdminMessages.Sender | frontend/src/app/pages/admin/AdminMessages.tsx:18 | the session's username, or the fallback when there is no session or its name is empty |
| AdminMessages.Step | frontend/src/app/pages/admin/AdminMessages.tsx:12-21 | a blank body adds only an error toast; otherwise one message with the trimmed, non-blank body, the chosen staff role and the sender is prepended |
| AdminMessages.OnSend | frontend/src/app/pages/admin/AdminMessages.tsx:12-21 | its effect is exactly `Step`, and the body field is cleared on success |
| AdminMessages.SentLeavesInbox | frontend/src/app/pages/admin/AdminMessages.tsx:7-10 | what the admin sends never appears in the admin's own inbox |
| AirlineMessages.Inbox | frontend/src/app/pages/airline/AirlineMessages.tsx:9 | exactly the messages addressed to airline |
| AirlineMessages.Step | frontend/src/app/pages/airline/AirlineMessages.tsx:11-20 | a blank body adds only an error toast; otherwise one message to admin with the trimmed body and the sender (fallback "airline") |
| AirlineMessages.OnSend | frontend/src/app/pages/airline/AirlineMessages.tsx:11-20 | its effect is exactly `Step`, and the body field is cleared on success |
| AirlineMessages.SentReachesAdmin | frontend/src/app/pages/airline/AirlineMessages.tsx:17 | a sent message heads the admin inbox, in front of everything that was there |
| ManagePassengers.TicketMessage | frontend/src/app/pages/admin/ManagePassengers.tsx:23-31 | a message iff the trimmed ticket is invalid or already used; "already exists" wins over the others |
| ManagePassengers.LuggageMessage | frontend/src/app/pages/admin/ManagePassengers.tsx:25-34 | a message iff the trimmed luggage id is invalid or already used; "already exists" wins |
| ManagePassengers.ErrorsOf | frontend/src/app/pages/admin/ManagePassengers.tsx:16-37 | field by field, a message iff that field's rule fails; no errors iff every rule holds |
| ManagePassengers.Step | frontend/src/app/pages/admin/ManagePassengers.tsx:39-60 | with errors, only a toast. Otherwise one passenger is appended, with trimmed fields, the selected flight and both flags false |
| ManagePassengers.OnAdd | frontend/src/app/pages/admin/ManagePassengers.tsx:39-67 | its effect is exactly `Step`; the form is cleared iff the passenger was added |
| ManagePassengers.RosterFlight | frontend/src/app/pages/admin/ManagePassengers.tsx:117-122 | the number of the first flight with the passenger's flight id when it exists; "Missing flight" when the flight is gone |
| ManageStaff.UsernameMessage | frontend/src/app/pages/admin/ManageStaff.tsx:19-28 | a message iff the name fails presence or format (unless it is "admin"), is an email, or is taken ignoring case; the later checks' messages win |
| ManageStaff.ErrorsOf | frontend/src/app/pages/admin/ManageStaff.tsx:17-36 | password, email and phone each get a message iff their rule fails; no errors at all iff every rule holds, the username's included |
| ManageStaff.Step | frontend/src/app/pages/admin/ManageStaff.tsx:38-58 | with errors, only a toast. Otherwise one user is appended: trimmed name, email and phone, the password as typed, the selected role. The name matches no earlier name ignoring case |
| ManageStaff.OnAdd | frontend/src/app/pages/admin/ManageStaff.tsx:38-58 | its effect is exactly `Step`; the form keeps only its role after a successful add |
| ManageStaff.EmailRuleOnlyChangesMessage | frontend/src/app/pages/admin/ManageStaff.tsx:20-25 | an email-shaped name already fails the format rule (the "admin" exemption included), so the email check changes only the message |
| ManageStaff.AddKeepsNamesUnique | frontend/src/app/pages/admin/ManageStaff.tsx:26-45 | adding through the form keeps usernames unique ignoring case |
| ManageFlights.FlightNoMessage | frontend/src/app/pages/admin/ManageFlights.tsx:17-18 | a message iff the trimmed number is invalid; "required" iff it is blank |
| ManageFlights.ErrorsOf | frontend/src/app/pages/admin/ManageFlights.tsx:15-24 | a message for each blank field and for a bad number; no errors iff the form is acceptable, whatever flights exist |
| ManageFlights.Step | frontend/src/app/pages/admin/ManageFlights.tsx:26-52 | with errors, only a toast; an unparsable time changes nothing; otherwise one flight with the fresh id and the ISO time is appended, its number, origin, destination and gate trimmed and upper-cased (equal to the input ignoring case). Duplicates are not checked |
| ManageFlights.UpperKeepsCase | frontend/src/app/pages/admin/ManageFlights.tsx:34-38 | upper-casing changes nothing but case |
| ManageFlights.OnAdd | frontend/src/app/pages/admin/ManageFlights.tsx:26-52 | its effect is exactly `Step`; the form is cleared iff the flight was added |
| ManageFlights.StoredFlightNoCanonical | frontend/src/app/pages/admin/ManageFlights.tsx:18-34 | a stored flight number still passes the format check and has no lower-case letter |
| ManageFlights.AddedFlightCanonical | frontend/src/app/pages/admin/ManageFlights.tsx:32-38 | the flight the form adds has a number that passes the format check and no lower-case letter in its number, origin, destination or gate |
| ManageFlights.OnRemove | frontend/src/app/pages/admin/ManageFlights.tsx:71 | removes that row's id only; the id is gone afterwards and every other slot is unchanged |
| ManageFlights.RemovedFlightShowsMissing | frontend/src/app/context/AppContext.tsx:239-242 | after a removal the flight's passengers show "Missing flight" |
| ManageFlights.DetailsNotice | frontend/src/app/pages/admin/ManageFlights.tsx:70 | an info toast "Flight details" whose message is the number, a space, the origin, an arrow and the destination |
| LoginPage.ErrorsOf | frontend/src/app/pages/LoginPage.tsx:14-30 | no errors iff the name is non-blank and is "admin" (any case) or in the username format, and the password passes the rule |
| LoginPage.Step | frontend/src/app/pages/LoginPage.tsx:32-47 | only the session and toasts change. Success iff the form is clean and `Authenticate` on the trimmed name and the untrimmed password finds a user, who becomes the session. A failed login sets no session |
| LoginPage.OnSubmit | frontend/src/app/pages/LoginPage.tsx:32-47 | its effect is exactly `Step`, and it reports whether the user signed in |
| PasswordResetPage.ConfirmMessage | frontend/src/app/pages/PasswordResetPage.tsx:17-18 | a message iff the confirmation is empty or differs from a non-empty new password |
| PasswordResetPage.ErrorsOf | frontend/src/app/pages/PasswordResetPage.tsx:12-20 | no errors iff the name is non-blank (no format check), the password passes and the confirmation equals it exactly |
| PasswordResetPage.Step | frontend/src/app/pages/PasswordResetPage.tsx:22-35 | success iff the form is clean and the trimmed name matches a user. Then only that user's password changes, to a valid one. Otherwise only a toast is added |
| PasswordResetPage.OnSubmit | frontend/src/app/pages/PasswordResetPage.tsx:22-35 | its effect is exactly `Step`, and it reports whether the password changed |
| PasswordResetPage.ResetThenLogin | frontend/src/app/pages/PasswordResetPage.tsx:28-33 | after a reset, signing in with the same name and the new password finds the same user |
| Invariants.Apply | frontend/src/app/context/AppContext.tsx:234-264 | only check-in, boarding and the passenger form touch the passengers; only check-in, boarding, loading and bag updates touch the bag log; only the reset and staff pages touch the users |
| Invariants.BoardRaises | frontend/src/app/pages/gate/BoardPassenger.tsx:49 | boarding keeps every passenger's position, id, ticket and luggage id and clears no flag |
| Invariants.CheckInRaises | frontend/src/app/pages/airline/CheckInPassenger.tsx:29 | check-in keeps every passenger's position, id, ticket and luggage id and clears no flag |
| Invariants.CheckInKeeps | frontend/src/app/pages/airline/CheckInPassenger.tsx:29-30 | check-in only raises flags and keeps the store consistent |
| Invariants.BoardKeeps | frontend/src/app/pages/gate/BoardPassenger.tsx:35-49 | boarding only raises flags and, with unique ids, keeps boarded ⇒ checked in |
| Invariants.AddPassengerKeeps | frontend/src/app/pages/admin/ManagePassengers.tsx:29-53 | the passenger form keeps ids, tickets and luggage ids unique |
| Invariants.ResetKeepsNames | frontend/src/app/context/AppContext.tsx:223-232 | a password reset keeps usernames unique |
| Invariants.ApplyKeepsConsistent | frontend/src/app/context/AppContext.tsx:234-264 | every page action keeps the store consistent, given a fresh passenger id |
| Invariants.RunKeepsConsistent | frontend/src/app/context/AppContext.tsx:234-264 | any sequence of page actions keeps the store consistent |
| Invariants.ApplyNeverClearsFlags | frontend/src/app/context/AppContext.tsx:244-251 | no action removes or moves a passenger or clears `checkedIn` or `boarded` |
| Invariants.RunNeverClearsFlags | frontend/src/app/context/AppContext.tsx:244-251 | over any sequence of actions, a checked-in or boarded passenger stays so |
| Invariants.ApplyOnlyPrependsEvents | frontend/src/app/context/AppContext.tsx:262-264 | no action edits or drops a bag event |
| Invariants.RunOnlyPrependsEvents | frontend/src/app/context/AppContext.tsx:262-264 | over any sequence of actions the old log is the tail of the new one |
| Invariants.SeedConsistent | frontend/src/app/context/AppContext.tsx:109-163 | the seeded data satisfies the invariant |
| Invariants.SeedNamesUnique | frontend/src/app/context/AppContext.tsx:113-119 | the five seeded usernames are pairwise different ignoring case |
| DemoJourney.DemoCodesValid | frontend/src/app/context/AppContext.tsx:146-163 | the seeded ticket and luggage id are well formed |
| DemoJourney.DemoCheckIn | frontend/src/app/pages/airline/CheckInPassenger.tsx:19-32 | checking in the seeded passenger sets `checkedIn` and logs `received_security` |
| DemoJourney.DemoWrongFlight | frontend/src/app/pages/gate/BoardPassenger.tsx:39-47 | boarding at the other seeded flight is a flight mismatch and changes nothing but toasts |
| DemoJourney.DemoBoard | frontend/src/app/pages/gate/BoardPassenger.tsx:49-53 | boarding at the right flight sets `boarded` and logs `at_gate` at "Gate A12" |
| DemoJourney.DemoLoad | frontend/src/app/pages/ground/LoadBags.tsx:23-30 | loading 654321 onto that flight logs `loaded_plane` at "Ramp for Gate A12" |

## Left out

- Rendering, React hooks and memoisation, CSS, and the Caps-Lock and show-password controls of the sign-in page are presentation only.
- Hash routing, role menus and the dashboard pages are navigation and display of counts. This includes `window.location.hash` after logout and after a password reset.
- Browser storage and JSON are not modelled. Loading takes an already parsed snapshot, or `None` when the slot is empty or does not parse. Saving is the `saved` slot that each store method keeps equal to the six persisted fields.
- `uid` and `new Date().toISOString()` are not modelled. Ids and timestamps are parameters, and each store method requires its new id to be unused.
- The five-second auto-dismiss timer of toasts is not modelled. A toast leaves only through an explicit `removeToast`.
- Date handling is not modelled. `new Date(departureTime).toISOString()` on the flight form is the parameter `departureIso`, where `None` stands for the thrown RangeError. The local-time display in lists is omitted.
- Unicode case mapping is not modelled. `toLowerCase`/`toUpperCase` change ASCII letters only. `trim` and `\s` use the ECMAScript whitespace set, with the space separators listed one by one.
- TrackBags.Before: compares characters by code point, while JavaScript compares UTF-16 code units. The two differ only above U+FFFF, which ISO timestamps never contain.
- Validation.IsPasswordValid: the length rule `.{6,}` counts characters (code points), while JavaScript without the `u` flag counts UTF-16 code units, so a character above U+FFFF counts once here and twice in the browser. A password such as "a1" followed by two such characters is accepted by the application and rejected by the model. The other patterns accept the same strings under either count.
- Validation.PasswordValidIff: states the rule with the same code-point length as Validation.IsPasswordValid, so it shares that difference.
- TrackBags.SortNewestFirst: the source's comparator never answers "equal", so the order of events with equal timestamps is left to the engine. The model keeps them in log order.
- Passenger patches with keys explicitly set to `undefined` are not modelled. A patch here sets each of its fields or leaves it alone.
- The `!res.ok` branches after `addFlight`, `addPassenger` and `addUser` are unreachable because those calls always succeed, so they are not modelled.
- ManageStaff's "User details" and "Removal disabled" buttons only post informational toasts, and are not modelled.
- The airline code and station fields of the staff form are collected but never stored. They are only cleared.
- AppContext.LoadInitialState: its contract states only that toasts start empty. Its other promises are the lemmas ReloadRoundTrip, LoadFillsMissingFields and SeedFacts.
- The Express server under `backend/` has no domain logic and is not part of this model.

=== FILE: admin_messages.dfy ===
/**
 * The administrator's message page: the inbox of messages addressed to the admin role,
 * and a form that sends a trimmed, non-blank message to the airline, gate or ground
 * role, signed with the session's username (or "admin" without a usable session).
 */
module AdminMessages {
  import opened Options
  import opened Text
  import opened Seqs
  import opened Entities
  import opened AppContext

  /** The roles the admin can write to. */
  type StaffRole = r: MessageRole | r.AirlineRole? || r.GateRole? || r.GroundRole? witness AirlineRole

  /** The filter `m.toRole === role`. */
  function ToRole(role: MessageRole): Message -> bool {
    (m: Message) => m.toRole == role
  }

  /** The messages addressed to `role`, in log order (newest first). */
  function InboxFor(ms: seq<Message>, role: MessageRole): (r: seq<Message>)
    ensures forall m :: m in r <==> m in ms && m.toRole == role
    ensures multiset(r) <= multiset(ms)
  {
    var r := Filter(ms, ToRole(role));
    assert forall m :: m in r <==> m in ms && m.toRole == role by {
      forall m ensures m in r <==> m in ms && m.toRole == role {
        FilterMembers(ms, ToRole(role), m);
      }
    }
    r
  }

  /** A newly prepended message joins the inbox of its own role only, at its head. */
  lemma InboxForPrepend(m: Message, ms: seq<Message>, role: MessageRole)
    ensures InboxFor([m] + ms, role) == (if m.toRole == role then [m] else []) + InboxFor(ms, role)
  {
    assert ([m] + ms)[0] == m && ([m] + ms)[1..] == ms;
  }

  /** `filtered`: the admin's inbox. */
  function Inbox(ms: seq<Message>): (r: seq<Message>)
    ensures forall m :: m in r <==> m in ms && m.toRole == AdminRole
  {
    InboxFor(ms, AdminRole)
  }

  /** `currentUser?.username || fallback`: an empty username counts as none. */
  function Sender(session: Option<User>, fallback: string): (name: string)
    ensures session.Some? && session.value.username != "" ==> name == session.value.username
    ensures session.None? || session.value.username == "" ==> name == fallback
  {
    if session.Some? && session.value.username != "" then session.value.username else fallback
  }

  /** The whole effect of pressing "Send". */
  function Step(s: AppState, toRole: StaffRole, body: string, messageId: string, now: string, toastId: string): (t: AppState)
    ensures t.currentUser == s.currentUser && t.users == s.users && t.flights == s.flights
    ensures t.passengers == s.passengers && t.bagEvents == s.bagEvents
    ensures |t.toasts| == |s.toasts| + 1 && t.toasts[1..] == s.toasts && t.toasts[0].id == toastId
    ensures IsBlank(body) ==> t.messages == s.messages && t.toasts[0].kind == Error
    ensures !IsBlank(body) ==>
              && |t.messages| == |s.messages| + 1 && t.messages[1..] == s.messages
              && t.messages[0].toRole == toRole && t.messages[0].body == Trim(body) && !IsBlank(t.messages[0].body)
              && t.messages[0].fromUsername == Sender(s.currentUser, "admin")
              && t.toasts[0].kind == Success
  {
    TrimIdempotent(body);
    if IsBlank(body) then
      s.(toasts := Post(s.toasts, toastId, Notice(Error, "Message required", None)))
    else
      s.(messages := [Message(messageId, Sender(s.currentUser, "admin"), toRole, Trim(body), now)] + s.messages,
         toasts := Post(s.toasts, toastId, Notice(Success, "Message sent", None)))
  }

  /** `onSend` on the store; `newBody` is the text left in the form (cleared once sent). */
  method OnSend(store: AppStore, toRole: StaffRole, body: string, messageId: string, now: string, toastId: string)
    returns (newBody: string)
    requires store.Valid()
    requires messageId !in MessageIds(store.messages) && toastId !in ToastIds(store.toasts)
    modifies store
    ensures store.Valid()
    ensures store.State() == Step(old(store.State()), toRole, body, messageId, now, toastId)
    ensures newBody == if IsBlank(body) then body else ""
  {
    if IsBlank(body) {
      store.AddToast(toastId, Notice(Error, "Message required", None));
      return body;
    }
    store.AddMessage(messageId, now, NewMessage(Sender(store.currentUser, "admin"), toRole, Trim(body)));
    store.AddToast(toastId, Notice(Success, "Message sent", None));
    newBody := "";
  }

  /** A message the admin sends never lands in the admin's own inbox. */
  lemma SentLeavesInbox(s: AppState, toRole: StaffRole, body: string, messageId: string, now: string, toastId: string)
    ensures Inbox(Step(s, toRole, body, messageId, now, toastId).messages) == Inbox(s.messages)
  {
    var t := Step(s, toRole, body, messageId, now, toastId);
    if !IsBlank(body) {
      assert t.messages == [t.messages[0]] + s.messages;
      InboxForPrepend(t.messages[0], s.messages, AdminRole);
    }
  }
}

=== FILE: airline_messages.dfy ===
/**
 * The airline agent's message page: the inbox of messages addressed to the airline
 * role, and a form that always writes to the admin role, signed with the session's
 * username (or "airline" without a usable session).
 */
module AirlineMessages {
  import opened Options
  import opened Text
  import opened Seqs
  import opened Entities
  import opened AppContext
  import AdminMessages

  /** `inbox`: the messages addressed to the airline role, in log order. */
  function Inbox(ms: seq<Message>): (r: seq<Message>)
    ensures forall m :: m in r <==> m in ms && m.toRole == AirlineRole
  {
    AdminMessages.InboxFor(ms, AirlineRole)
  }

  /** The whole effect of pressing "Send". */
  function Step(s: AppState, body: string, messageId: string, now: string, toastId: string): (t: AppState)
    ensures t.currentUser == s.currentUser && t.users == s.users && t.flights == s.flights
    ensures t.passengers == s.passengers && t.bagEvents == s.bagEvents
    ensures |t.toasts| == |s.toasts| + 1 && t.toasts[1..] == s.toasts && t.toasts[0].id == toastId
    ensures IsBlank(body) ==> t.messages == s.messages && t.toasts[0].kind == Error
    ensures !IsBlank(body) ==>
              && |t.messages| == |s.messages| + 1 && t.messages[1..] == s.messages
              && t.messages[0].toRole == AdminRole && t.messages[0].body == Trim(body) && !IsBlank(t.messages[0].body)
              && t.messages[0].fromUsername == AdminMessages.Sender(s.currentUser, "airline")
              && t.toasts[0].kind == Success
  {
    TrimIdempotent(body);
    if IsBlank(body) then
      s.(toasts := Post(s.toasts, toastId, Notice(Error, "Message required", None)))
    else
      s.(messages := [Message(messageId, AdminMessages.Sender(s.currentUser, "airline"), AdminRole, Trim(body), now)] + s.messages,
         toasts := Post(s.toasts, toastId, Notice(Success, "Sent to admin", None)))
  }

  /** `onSend` on the store; `newBody` is the text left in the form (cleared once sent). */
  method OnSend(store: AppStore, body: string, messageId: string, now: string, toastId: string)
    returns (newBody: string)
    requires store.Valid()
    requires messageId !in MessageIds(store.messages) && toastId !in ToastIds(store.toasts)
    modifies store
    ensures store.Valid()
    ensures store.State() == Step(old(store.State()), body, messageId, now, toastId)
    ensures newBody == if IsBlank(body) then body else ""
  {
    if IsBlank(body) {
      store.AddToast(toastId, Notice(Error, "Message required", None));
      return body;
    }
    store.AddMessage(messageId, now, NewMessage(AdminMessages.Sender(store.currentUser, "airline"), AdminRole, Trim(body)));
    store.AddToast(toastId, Notice(Success, "Sent to admin", None));
    newBody := "";
  }

  /** What the airline sends reaches the admin's inbox, in front. */
  lemma {:induction false} SentReachesAdmin(s: AppState, body: string, messageId: string, now: string, toastId: string)
    requires !IsBlank(body)
    ensures var t := Step(s, body, messageId, now, toastId);
            AdminMessages.Inbox(t.messages) == [t.messages[0]] + AdminMessages.Inbox(s.messages)
  {
    var t := Step(s, body, messageId, now, toastId);
    assert t.messages == [t.messages[0]] + s.messages;
    AdminMessages.InboxForPrepend(t.messages[0], s.messages, AdminRole);
  }
}

=== FILE: app_context.dfy ===
/**
 * The domain store: seven state slots that every operation replaces, the snapshot that is
 * written back after every change of the six persisted slots, and the start-up rule that
 * restores a stored snapshot or falls back to the demo seed.
 *
 * Fresh identifiers and timestamps are parameters (the source draws them from
 * `Math.random`/`Date.now`); a fresh identifier is one the collection does not hold yet.
 */
module AppContext {
  import opened Options
  import opened Text
  import opened Seqs
  import opened Entities

  /** Everything the store holds. */
  datatype AppState = AppState(
    currentUser: Option<User>,
    users: seq<User>,
    flights: seq<Flight>,
    passengers: seq<Passenger>,
    bagEvents: seq<BagEvent>,
    messages: seq<Message>,
    toasts: seq<Toast>)

  /** The six persisted slots, as `persist` writes them (toasts are never persisted). */
  datatype Snapshot = Snapshot(
    users: seq<User>,
    flights: seq<Flight>,
    passengers: seq<Passenger>,
    bagEvents: seq<BagEvent>,
    messages: seq<Message>,
    currentUser: Option<User>)

  /** A stored snapshot once parsed: any of its fields may be missing (or null). */
  datatype Parsed = Parsed(
    users: Option<seq<User>>,
    flights: Option<seq<Flight>>,
    passengers: Option<seq<Passenger>>,
    bagEvents: Option<seq<BagEvent>>,
    messages: Option<seq<Message>>,
    currentUser: Option<User>)

  /** The result the store's operations report: `{ ok: true }` or `{ ok: false, error }`. */
  datatype OpResult = Ok | Failed(error: string)

  /** The input of `addFlight`: a flight without its id. */
  datatype NewFlight = NewFlight(airlineFlightNo: string, origin: string, destination: string,
                                 departureTime: string, gate: string)

  /** The input of `addPassenger`: a passenger without id and without the two status flags. */
  datatype NewPassenger = NewPassenger(fullName: string, email: string, phone: string,
                                       ticketNumber: string, flightId: string, luggageId: string)

  /** The input of `addUser`: a user without its id. */
  datatype NewUser = NewUser(username: string, password: string, role: Role,
                             email: Option<string>, phone: Option<string>)

  /** The input of `addMessage`: a message without id and timestamp. */
  datatype NewMessage = NewMessage(fromUsername: string, toRole: MessageRole, body: string)

  /** The input of `addBagEvent`: an event without id and timestamp. */
  datatype NewBagEvent = NewBagEvent(luggageId: string, location: string, status: BagStatus,
                                     gate: Option<string>)

  /** What `persist` writes. */
  function Persist(s: AppState): Snapshot {
    Snapshot(s.users, s.flights, s.passengers, s.bagEvents, s.messages, s.currentUser)
  }

  /** A written snapshot read back: every field present. */
  function ReadBack(snap: Snapshot): Parsed {
    Parsed(Some(snap.users), Some(snap.flights), Some(snap.passengers), Some(snap.bagEvents),
           Some(snap.messages), snap.currentUser)
  }

  // ---- Start-up ----

  /** The identifiers the seed draws. */
  datatype SeedIds = SeedIds(admin: string, smith: string, johnson: string, brown: string, lee: string,
                             flight1: string, flight2: string, passenger: string, bagEvent: string)

  /** The clock readings the seed uses: now, now + 2 h and now + 4 h, as ISO strings. */
  datatype SeedClock = SeedClock(now: string, inTwoHours: string, inFourHours: string)

  /** The seeded accounts: the administrator and one agent per staff role plus a passenger. */
  function SeedUsers(ids: SeedIds): seq<User> {
    [User(ids.admin, "admin", "Admin123", AdminRole, Some("admin@aa.com"), Some("2145551234")),
     User(ids.smith, "smith01", "Pass1234", AirlineRole, Some("smith@aa.com"), Some("2145551111")),
     User(ids.johnson, "johnson02", "Pass1234", GateRole, Some("johnson@aa.com"), Some("2145552222")),
     User(ids.brown, "brown03", "Pass1234", GroundRole, Some("brown@aa.com"), Some("2145553333")),
     User(ids.lee, "lee04", "Pass1234", PassengerRole, Some("lee@aa.com"), Some("2145554444"))]
  }

  /** The seeded flights, leaving in two and in four hours. */
  function SeedFlights(ids: SeedIds, clock: SeedClock): seq<Flight> {
    [Flight(ids.flight1, "AA1234", "DFW", "LAX", clock.inTwoHours, "A12"),
     Flight(ids.flight2, "DL5678", "DFW", "JFK", clock.inFourHours, "B05")]
  }

  /** The seeded passenger, booked on the first flight. */
  function SeedPassenger(ids: SeedIds): Passenger {
    Passenger(ids.passenger, "Rahim Latreche", "rahim@smu.edu", "2145557777", "1234567890",
              ids.flight1, "654321", false, false)
  }

  /** The demo data used when nothing usable is stored. */
  function Seed(ids: SeedIds, clock: SeedClock): AppState {
    var bagEvents := [BagEvent(ids.bagEvent, "654321", clock.now, "Baggage Drop", Created, None)];
    AppState(None, SeedUsers(ids), SeedFlights(ids, clock), [SeedPassenger(ids)], bagEvents, [], [])
  }

  /** `loadInitialState`: `stored` is the parsed snapshot, or `None` when the slot is
      empty or its text does not parse. */
  function LoadInitialState(stored: Option<Parsed>, ids: SeedIds, clock: SeedClock): (s: AppState)
    ensures s.toasts == []
  {
    match stored
    case Some(p) =>
      AppState(p.currentUser, p.users.GetOr([]), p.flights.GetOr([]), p.passengers.GetOr([]),
               p.bagEvents.GetOr([]), p.messages.GetOr([]), [])
    case None => Seed(ids, clock)
  }

  /** Reloading what was written reproduces the six persisted slots; toasts start empty. */
  lemma ReloadRoundTrip(s: AppState, ids: SeedIds, clock: SeedClock)
    ensures LoadInitialState(Some(ReadBack(Persist(s))), ids, clock) == s.(toasts := [])
  {
  }

  /** A snapshot with every field missing loads as an empty store with no session. */
  lemma LoadFillsMissingFields(ids: SeedIds, clock: SeedClock)
    ensures LoadInitialState(Some(Parsed(None, None, None, None, None, None)), ids, clock)
            == AppState(None, [], [], [], [], [], [])
  {
  }

  /** Without a usable snapshot the store starts from the seed: five users, two flights,
      one passenger on the first flight who is neither checked in nor boarded, one
      'created' event for luggage 654321, no messages, no session and no toasts. */
  lemma SeedFacts(ids: SeedIds, clock: SeedClock)
    ensures var s := LoadInitialState(None, ids, clock);
            && |s.users| == 5 && |s.flights| == 2 && |s.passengers| == 1
            && s.passengers[0].flightId == s.flights[0].id
            && !s.passengers[0].checkedIn && !s.passengers[0].boarded
            && |s.bagEvents| == 1 && s.bagEvents[0].luggageId == "654321" && s.bagEvents[0].status == Created
            && s.messages == [] && s.currentUser == None && s.toasts == []
  {
  }

  // ---- Pure parts of the operations ----

  /** `login`'s lookup: the first user whose username matches case-insensitively, provided
      the password matches exactly. A later user with the same name is never tried. */
  function Authenticate(users: seq<User>, username: string, password: string): (r: Option<User>)
    ensures r.Some? <==> (FindUserIgnoringCase(users, username).Some?
                          && users[FindUserIgnoringCase(users, username).value].password == password)
    ensures r.Some? ==> r.value == users[FindUserIgnoringCase(users, username).value]
    ensures r.Some? ==> r.value in users && SameIgnoringCase(r.value.username, username) && r.value.password == password
  {
    match FindUserIgnoringCase(users, username)
    case Some(k) => if users[k].password == password then Some(users[k]) else None
    case None => None
  }

  /** `resetPassword`'s edit: only the password of the first case-insensitive match
      changes; length, order, every other user and every other field are kept. */
  function WithPassword(users: seq<User>, k: nat, newPassword: string): (r: seq<User>)
    requires k < |users|
    ensures |r| == |users| && r[k].password == newPassword
    ensures r[k] == users[k].(password := newPassword)
    ensures forall i :: 0 <= i < |users| && i != k ==> r[i] == users[i]
    ensures forall i :: 0 <= i < |users| ==> r[i].username == users[i].username && r[i].id == users[i].id
  {
    users[k := users[k].(password := newPassword)]
  }

  /** The store. Its methods replace the slots exactly as the source's setters do and
      keep the durable slot `saved` equal to the snapshot of the persisted fields. */
  class AppStore {
    var currentUser: Option<User>
    var users: seq<User>
    var flights: seq<Flight>
    var passengers: seq<Passenger>
    var bagEvents: seq<BagEvent>
    var messages: seq<Message>
    var toasts: seq<Toast>
    /** The durable key-value slot (`airportapp_state_v1`). */
    var saved: Snapshot

    function State(): AppState
      reads this
    {
      AppState(currentUser, users, flights, passengers, bagEvents, messages, toasts)
    }

    /** Write-through persistence: the slot always holds the current persisted fields. */
    ghost predicate Valid()
      reads this
    {
      saved == Persist(State())
    }

    constructor (stored: Option<Parsed>, ids: SeedIds, clock: SeedClock)
      ensures Valid() && State() == LoadInitialState(stored, ids, clock)
    {
      var s := LoadInitialState(stored, ids, clock);
      currentUser, users, flights, passengers := s.currentUser, s.users, s.flights, s.passengers;
      bagEvents, messages, toasts := s.bagEvents, s.messages, s.toasts;
      saved := Persist(s);
    }

    /** `addToast`: the new toast goes in front. */
    method AddToast(id: string, n: Notice)
      requires Valid() && id !in ToastIds(toasts)
      modifies this
      ensures Valid()
      ensures State() == old(State()).(toasts := Post(old(toasts), id, n))
    {
      toasts := Post(toasts, id, n);
    }

    /** `removeToast`: every toast with that id goes (none, if there is none). */
    method RemoveToast(id: string)
      requires Valid()
      modifies this
      ensures Valid()
      ensures State() == old(State()).(toasts := RemoveToastById(old(toasts), id))
    {
      toasts := RemoveToastById(toasts, id);
    }

    /** `login`: on success the session is the matched user; on failure nothing changes. */
    method Login(username: string, password: string) returns (r: OpResult)
      requires Valid()
      modifies this
      ensures Valid()
      ensures r.Ok? <==> Authenticate(old(users), username, password).Some?
      ensures r.Ok? ==> State() == old(State()).(currentUser := Authenticate(old(users), username, password))
      ensures r.Failed? ==> r.error == "Invalid username or password." && State() == old(State())
    {
      var found := Authenticate(users, username, password);
      if found.None? {
        return Failed("Invalid username or password.");
      }
      currentUser := found;
      saved := Persist(State());
      r := Ok;
    }

    /** `logout`: no session afterwards, whatever there was. */
    method Logout()
      requires Valid()
      modifies this
      ensures Valid()
      ensures State() == old(State()).(currentUser := None)
    {
      currentUser := None;
      saved := Persist(State());
    }

    /** `resetPassword`: an unknown username is reported and changes nothing; otherwise
      only the first case-insensitive match gets the new password. */
    method ResetPassword(username: string, newPassword: string) returns (r: OpResult)
      requires Valid()
      modifies this
      ensures Valid()
      ensures r.Ok? <==> FindUserIgnoringCase(old(users), username).Some?
      ensures r.Failed? ==> r.error == "User not found." && State() == old(State())
      ensures r.Ok? ==> State() == old(State()).(users := WithPassword(old(users), FindUserIgnoringCase(old(users), username).value, newPassword))
    {
      var idx := FindUserIgnoringCase(users, username);
      if idx.None? {
        return Failed("User not found.");
      }
      users := WithPassword(users, idx.value, newPassword);
      saved := Persist(State());
      r := Ok;
    }

    /** `addFlight`: always succeeds and appends the flight under a fresh id. */
    method AddFlight(id: string, f: NewFlight) returns (r: OpResult)
      requires Valid() && id !in FlightIds(flights)
      modifies this
      ensures Valid() && r == Ok
      ensures State() == old(State()).(flights := old(flights) + [Flight(id, f.airlineFlightNo, f.origin, f.destination, f.departureTime, f.gate)])
    {
      flights := flights + [Flight(id, f.airlineFlightNo, f.origin, f.destination, f.departureTime, f.gate)];
      saved := Persist(State());
      r := Ok;
    }

    /** `removeFlight`: drops every flight with that id; passengers are not touched, so
      those on the removed flight are left pointing at a missing flight. */
    method RemoveFlight(id: string)
      requires Valid()
      modifies this
      ensures Valid()
      ensures State() == old(State()).(flights := RemoveFlightById(old(flights), id))
    {
      flights := RemoveFlightById(flights, id);
      saved := Persist(State());
    }

    /** `addPassenger`: always succeeds and appends the passenger under a fresh id,
      neither checked in nor boarded. */
    method AddPassenger(id: string, p: NewPassenger) returns (r: OpResult)
      requires Valid() && id !in PassengerIds(passengers)
      modifies this
      ensures Valid() && r == Ok
      ensures State() == old(State()).(passengers := old(passengers) +
                [Passenger(id, p.fullName, p.email, p.phone, p.ticketNumber, p.flightId, p.luggageId, false, false)])
    {
      passengers := passengers + [Passenger(id, p.fullName, p.email, p.phone, p.ticketNumber, p.flightId, p.luggageId, false, false)];
      saved := Persist(State());
      r := Ok;
    }

    /** `updatePassenger`: merges the patch into the records with that id, keeps the rest. */
    method UpdatePassenger(id: string, patch: PassengerPatch)
      requires Valid()
      modifies this
      ensures Valid()
      ensures State() == old(State()).(passengers := UpdateById(old(passengers), id, patch))
    {
      passengers := UpdateById(passengers, id, patch);
      saved := Persist(State());
    }

    /** `addUser`: always succeeds and appends the user under a fresh id. */
    method AddUser(id: string, u: NewUser) returns (r: OpResult)
      requires Valid() && id !in UserIds(users)
      modifies this
      ensures Valid() && r == Ok
      ensures State() == old(State()).(users := old(users) + [User(id, u.username, u.password, u.role, u.email, u.phone)])
    {
      users := users + [User(id, u.username, u.password, u.role, u.email, u.phone)];
      saved := Persist(State());
      r := Ok;
    }

    /** `addMessage`: the new message goes in front of the log. */
    method AddMessage(id: string, now: string, m: NewMessage)
      requires Valid() && id !in MessageIds(messages)
      modifies this
      ensures Valid()
      ensures State() == old(State()).(messages := [Message(id, m.fromUsername, m.toRole, m.body, now)] + old(messages))
    {
      messages := [Message(id, m.fromUsername, m.toRole, m.body, now)] + messages;
      saved := Persist(State());
    }

    /** `addBagEvent`: the new event goes in front of the log. */
    method AddBagEvent(id: string, now: string, e: NewBagEvent)
      requires Valid() && id !in BagEventIds(bagEvents)
      modifies this
      ensures Valid()
      ensures State() == old(State()).(bagEvents := [BagEvent(id, e.luggageId, now, e.location, e.status, e.gate)] + old(bagEvents))
    {
      bagEvents := [BagEvent(id, e.luggageId, now, e.location, e.status, e.gate)] + bagEvents;
      saved := Persist(State());
    }
  }
}

=== FILE: board_passenger.dfy ===
/**
 * The gate agent's boarding page. The ticket and the selected gate flight are checked
 * first; then the first passenger holding the trimmed ticket must exist, must be checked
 * in, and must be booked on the selected flight. On success the passenger is marked
 * boarded and, when the selected flight exists, an `at_gate` bag event is recorded.
 */
module BoardPassenger {
  import opened Options
  import opened Text
  import opened Validation
  import opened Entities
  import opened AppContext
  import opened Guards

  /** How `onBoard` ends; `k` is the index of the passenger the ticket found. */
  datatype Outcome =
    | FixFields(error: string)
    | NotFound
    | NotCheckedIn(k: nat)
    | FlightMismatch(k: nat)
    | Boarded(k: nat)

  /** The patch `{ boarded: true }`. */
  const BoardPatch := EmptyPatch.(boarded := Some(true))

  /** `flightError`: a gate flight must be selected. */
  function FlightError(flightId: string): (e: string)
    ensures e == "" <==> flightId != ""
  {
    if flightId == "" then "Select the gate flight." else ""
  }

  /** The guard chain of `onBoard`. */
  function Decide(ps: seq<Passenger>, ticket: string, flightId: string): (o: Outcome)
    ensures o.FixFields? <==> !IsTicketValid(Trim(ticket)) || flightId == ""
    ensures o.FixFields? && !IsTicketValid(Trim(ticket)) ==> o.error == TicketError(ticket)
    ensures o.FixFields? && IsTicketValid(Trim(ticket)) ==> o.error == "Select the gate flight."
    ensures o.NotFound? <==> !o.FixFields? && forall j :: 0 <= j < |ps| ==> ps[j].ticketNumber != Trim(ticket)
    ensures o.NotCheckedIn? || o.FlightMismatch? || o.Boarded? ==>
              && o.k < |ps| && ps[o.k].ticketNumber == Trim(ticket)
              && (forall j :: 0 <= j < o.k ==> ps[j].ticketNumber != Trim(ticket))
    ensures o.NotCheckedIn? ==> !ps[o.k].checkedIn
    ensures o.FlightMismatch? ==> ps[o.k].checkedIn && ps[o.k].flightId != flightId
    ensures o.Boarded? ==> ps[o.k].checkedIn && ps[o.k].flightId == flightId && flightId != ""
  {
    if TicketError(ticket) != "" || FlightError(flightId) != "" then
      FixFields(if TicketError(ticket) != "" then TicketError(ticket) else FlightError(flightId))
    else match FindByTicket(ps, Trim(ticket))
      case None => NotFound
      case Some(k) =>
        if !ps[k].checkedIn then NotCheckedIn(k)
        else if ps[k].flightId != flightId then FlightMismatch(k)
        else Boarded(k)
  }

  /** The toast each outcome posts: one error per rejected guard, or a success naming
      the passenger. */
  function NoticeOf(ps: seq<Passenger>, o: Outcome): (n: Notice)
    requires o.Boarded? ==> o.k < |ps|
    ensures n.kind == Success <==> o.Boarded?
    ensures o.FixFields? ==> n.title == "Fix boarding fields" && n.message == Some(o.error)
    ensures o.NotFound? ==> n.title == "Passenger not found" && n.message == Some("No passenger matches that ticket number.")
    ensures o.NotCheckedIn? ==> n.title == "Not checked in" && n.message == Some("Passenger must be checked in before boarding.")
    ensures o.FlightMismatch? ==>
              n.title == "Flight mismatch"
              && n.message == Some("Passenger flight information does not match the selected gate flight.")
    ensures o.Boarded? ==> n.title == "Boarded" && n.message == Some(ps[o.k].fullName + " has boarded.")
  {
    match o
    case FixFields(e) => Notice(Error, "Fix boarding fields", Some(e))
    case NotFound => Notice(Error, "Passenger not found", Some("No passenger matches that ticket number."))
    case NotCheckedIn(_) => Notice(Error, "Not checked in", Some("Passenger must be checked in before boarding."))
    case FlightMismatch(_) =>
      Notice(Error, "Flight mismatch", Some("Passenger flight information does not match the selected gate flight."))
    case Boarded(k) => Notice(Success, "Boarded", Some(ps[k].fullName + " has boarded."))
  }

  /** The bag event boarding records at the selected flight's gate, if that flight exists. */
  function GateEvent(fs: seq<Flight>, flightId: string, luggageId: string, eventId: string, now: string): (e: Option<BagEvent>)
    ensures e.None? <==> flightId !in FlightIds(fs)
    ensures e.Some? ==>
              exists i :: 0 <= i < |fs| && fs[i].id == flightId && (forall j :: 0 <= j < i ==> fs[j].id != flightId)
                          && e.value == BagEvent(eventId, luggageId, now, "Gate " + fs[i].gate, AtGate, Some(fs[i].gate))
  {
    match FindFlight(fs, flightId)
    case Some(f) => Some(BagEvent(eventId, luggageId, now, "Gate " + f.gate, AtGate, Some(f.gate)))
    case None => None
  }

  /** The accepted branch of "Board": every record with the found passenger's id is
      marked boarded, and the gate event is logged when the selected flight exists. */
  function Boarding(s: AppState, k: nat, flightId: string, eventId: string, now: string): (t: AppState)
    requires k < |s.passengers|
    ensures t.currentUser == s.currentUser && t.users == s.users && t.flights == s.flights
    ensures t.messages == s.messages && t.toasts == s.toasts
    ensures |t.passengers| == |s.passengers|
    ensures forall i :: 0 <= i < |s.passengers| ==>
              t.passengers[i] == if s.passengers[i].id == s.passengers[k].id then s.passengers[i].(boarded := true) else s.passengers[i]
    ensures flightId !in FlightIds(s.flights) ==> t.bagEvents == s.bagEvents
    ensures flightId in FlightIds(s.flights) ==>
              && |t.bagEvents| == |s.bagEvents| + 1 && t.bagEvents[1..] == s.bagEvents
              && t.bagEvents[0].luggageId == s.passengers[k].luggageId && t.bagEvents[0].status == AtGate
              && t.bagEvents[0] == GateEvent(s.flights, flightId, s.passengers[k].luggageId, eventId, now).value
  {
    var found := s.passengers[k];
    var events := match GateEvent(s.flights, flightId, found.luggageId, eventId, now)
                  case Some(e) => [e] + s.bagEvents
                  case None => s.bagEvents;
    s.(passengers := UpdateById(s.passengers, found.id, BoardPatch), bagEvents := events)
  }

  /** The whole effect of pressing "Board". */
  function Step(s: AppState, ticket: string, flightId: string, eventId: string, now: string, toastId: string): (t: AppState)
    ensures t.currentUser == s.currentUser && t.users == s.users && t.flights == s.flights && t.messages == s.messages
    ensures |t.toasts| == |s.toasts| + 1 && t.toasts[1..] == s.toasts && t.toasts[0].id == toastId
    ensures t.toasts[0].kind == Success <==> Decide(s.passengers, ticket, flightId).Boarded?
    ensures !Decide(s.passengers, ticket, flightId).Boarded? ==> t.passengers == s.passengers && t.bagEvents == s.bagEvents
    ensures Decide(s.passengers, ticket, flightId).Boarded? ==>
              var k := Decide(s.passengers, ticket, flightId).k;
              && |t.passengers| == |s.passengers|
              && t.passengers[k] == s.passengers[k].(boarded := true)
              && (forall i :: 0 <= i < |s.passengers| ==>
                    t.passengers[i] == if s.passengers[i].id == s.passengers[k].id then s.passengers[i].(boarded := true) else s.passengers[i])
              && (flightId !in FlightIds(s.flights) ==> t.bagEvents == s.bagEvents)
              && (flightId in FlightIds(s.flights) ==>
                    && |t.bagEvents| == |s.bagEvents| + 1 && t.bagEvents[1..] == s.bagEvents
                    && t.bagEvents[0].luggageId == s.passengers[k].luggageId && t.bagEvents[0].status == AtGate
                    && t.bagEvents[0] == GateEvent(s.flights, flightId, s.passengers[k].luggageId, eventId, now).value)
  {
    var o := Decide(s.passengers, ticket, flightId);
    match o
    case Boarded(k) => Boarding(s, k, flightId, eventId, now).(toasts := Post(s.toasts, toastId, NoticeOf(s.passengers, o)))
    case _ => s.(toasts := Post(s.toasts, toastId, NoticeOf(s.passengers, o)))
  }

  /** `onBoard` on the store. */
  method OnBoard(store: AppStore, ticket: string, flightId: string, eventId: string, now: string, toastId: string)
    returns (o: Outcome)
    requires store.Valid()
    requires eventId !in BagEventIds(store.bagEvents) && toastId !in ToastIds(store.toasts)
    modifies store
    ensures store.Valid()
    ensures o == Decide(old(store.passengers), ticket, flightId)
    ensures store.State() == Step(old(store.State()), ticket, flightId, eventId, now, toastId)
  {
    o := Decide(store.passengers, ticket, flightId);
    if !o.Boarded? {
      store.AddToast(toastId, NoticeOf(store.passengers, o));
      return;
    }
    var found := store.passengers[o.k];
    store.UpdatePassenger(found.id, BoardPatch);
    var selected := FindFlight(store.flights, flightId);
    if selected.Some? {
      var gate := selected.value.gate;
      store.AddBagEvent(eventId, now, NewBagEvent(found.luggageId, "Gate " + gate, AtGate, Some(gate)));
    }
    store.AddToast(toastId, Notice(Success, "Boarded", Some(found.fullName + " has boarded.")));
  }

  /** A rejected boarding never sets `boarded`: in particular a flight mismatch leaves
      the passenger exactly as it was and records no bag event. */
  lemma MismatchChangesNothing(s: AppState, ticket: string, flightId: string, eventId: string, now: string, toastId: string)
    requires Decide(s.passengers, ticket, flightId).FlightMismatch?
    ensures var t := Step(s, ticket, flightId, eventId, now, toastId);
            var k := Decide(s.passengers, ticket, flightId).k;
            t.passengers[k].boarded == s.passengers[k].boarded && t.bagEvents == s.bagEvents
  {
  }

  /** An already-boarded passenger is not rejected: boarding again succeeds and, when the
      flight exists, records another `at_gate` event. */
  lemma {:induction false} BoardAgain(s: AppState, ticket: string, flightId: string, eventId: string, now: string, toastId: string,
                                      eventId2: string, now2: string, toastId2: string)
    requires Decide(s.passengers, ticket, flightId).Boarded?
    ensures var t := Step(s, ticket, flightId, eventId, now, toastId);
            && Decide(t.passengers, ticket, flightId) == Decide(s.passengers, ticket, flightId)
            && (flightId in FlightIds(s.flights) ==>
                  |Step(t, ticket, flightId, eventId2, now2, toastId2).bagEvents| == |s.bagEvents| + 2)
  {
    var t := Step(s, ticket, flightId, eventId, now, toastId);
    DecideIgnoresBoarded(s.passengers, t.passengers, ticket, flightId);
  }

  /** The boarding verdict reads only tickets, check-in flags and flights, so two rosters
      that agree on those get the same verdict. */
  lemma DecideIgnoresBoarded(ps: seq<Passenger>, qs: seq<Passenger>, ticket: string, flightId: string)
    requires |ps| == |qs|
    requires forall i :: 0 <= i < |ps| ==>
               && qs[i].ticketNumber == ps[i].ticketNumber && qs[i].checkedIn == ps[i].checkedIn
               && qs[i].flightId == ps[i].flightId
    ensures Decide(qs, ticket, flightId) == Decide(ps, ticket, flightId)
  {
    FindByTicketReadsTickets(ps, qs, Trim(ticket));
  }
}

=== FILE: check_in_passenger.dfy ===
/**
 * The airline agent's check-in page: a ticket check, a lookup of the first passenger
 * holding the trimmed ticket, and on success the check-in flag plus a bag event.
 * The passenger's flight plays no part, so a passenger whose flight was removed can
 * still check in, and checking in again is accepted.
 */
module CheckInPassenger {
  import opened Options
  import opened Text
  import opened Validation
  import opened Entities
  import opened AppContext
  import opened Guards

  /** How `onCheckIn` ends; `k` is the index of the passenger checked in. */
  datatype Outcome = InvalidTicket(error: string) | NotFound | CheckedIn(k: nat)

  /** The patch `{ checkedIn: true }`. */
  const CheckInPatch := EmptyPatch.(checkedIn := Some(true))

  /** The guard chain of `onCheckIn`. */
  function Decide(ps: seq<Passenger>, ticket: string): (o: Outcome)
    ensures o.InvalidTicket? <==> !IsTicketValid(Trim(ticket))
    ensures o.InvalidTicket? ==> o.error == TicketError(ticket) && o.error != ""
    ensures o.NotFound? <==> IsTicketValid(Trim(ticket)) && forall j :: 0 <= j < |ps| ==> ps[j].ticketNumber != Trim(ticket)
    ensures o.CheckedIn? ==> o.k < |ps| && ps[o.k].ticketNumber == Trim(ticket) && IsTicketValid(ps[o.k].ticketNumber)
    ensures o.CheckedIn? ==> forall j :: 0 <= j < o.k ==> ps[j].ticketNumber != Trim(ticket)
  {
    if TicketError(ticket) != "" then InvalidTicket(TicketError(ticket))
    else match FindByTicket(ps, Trim(ticket))
      case None => NotFound
      case Some(k) => CheckedIn(k)
  }

  /** The toast each outcome posts: an error carrying the ticket message, an error for an
      unknown ticket, or a success naming the passenger. */
  function NoticeOf(ps: seq<Passenger>, o: Outcome): (n: Notice)
    requires o.CheckedIn? ==> o.k < |ps|
    ensures n.kind == Success <==> o.CheckedIn?
    ensures o.InvalidTicket? ==> n.title == "Invalid ticket" && n.message == Some(o.error)
    ensures o.NotFound? ==> n.title == "Passenger not found" && n.message == Some("No passenger matches that ticket number.")
    ensures o.CheckedIn? ==> n.title == "Checked in" && n.message == Some(ps[o.k].fullName + " is checked in.")
  {
    match o
    case InvalidTicket(e) => Notice(Error, "Invalid ticket", Some(e))
    case NotFound => Notice(Error, "Passenger not found", Some("No passenger matches that ticket number."))
    case CheckedIn(k) => Notice(Success, "Checked in", Some(ps[k].fullName + " is checked in."))
  }

  /** The whole effect of pressing "Check in". */
  function Step(s: AppState, ticket: string, eventId: string, now: string, toastId: string): (t: AppState)
    ensures t.currentUser == s.currentUser && t.users == s.users && t.flights == s.flights && t.messages == s.messages
    ensures |t.toasts| == |s.toasts| + 1 && t.toasts[1..] == s.toasts && t.toasts[0].id == toastId
    ensures t.toasts[0].kind == Success <==> Decide(s.passengers, ticket).CheckedIn?
    ensures !Decide(s.passengers, ticket).CheckedIn? ==> t.passengers == s.passengers && t.bagEvents == s.bagEvents
    ensures Decide(s.passengers, ticket).CheckedIn? ==>
              var k := Decide(s.passengers, ticket).k;
              && |t.passengers| == |s.passengers|
              && t.passengers[k] == s.passengers[k].(checkedIn := true)
              && (forall i :: 0 <= i < |s.passengers| ==>
                    t.passengers[i] == if s.passengers[i].id == s.passengers[k].id then s.passengers[i].(checkedIn := true) else s.passengers[i])
              && |t.bagEvents| == |s.bagEvents| + 1 && t.bagEvents[1..] == s.bagEvents
              && t.bagEvents[0] == BagEvent(eventId, s.passengers[k].luggageId, now, "Check-in counter", ReceivedSecurity, None)
  {
    var o := Decide(s.passengers, ticket);
    match o
    case CheckedIn(k) =>
      var found := s.passengers[k];
      s.(passengers := UpdateById(s.passengers, found.id, CheckInPatch),
         bagEvents := [BagEvent(eventId, found.luggageId, now, "Check-in counter", ReceivedSecurity, None)] + s.bagEvents,
         toasts := Post(s.toasts, toastId, NoticeOf(s.passengers, o)))
    case _ => s.(toasts := Post(s.toasts, toastId, NoticeOf(s.passengers, o)))
  }

  /** `onCheckIn` on the store. */
  method OnCheckIn(store: AppStore, ticket: string, eventId: string, now: string, toastId: string) returns (o: Outcome)
    requires store.Valid()
    requires eventId !in BagEventIds(store.bagEvents) && toastId !in ToastIds(store.toasts)
    modifies store
    ensures store.Valid()
    ensures o == Decide(old(store.passengers), ticket)
    ensures store.State() == Step(old(store.State()), ticket, eventId, now, toastId)
  {
    o := Decide(store.passengers, ticket);
    if o.CheckedIn? {
      var found := store.passengers[o.k];
      store.UpdatePassenger(found.id, CheckInPatch);
      store.AddBagEvent(eventId, now, NewBagEvent(found.luggageId, "Check-in counter", ReceivedSecurity, None));
      store.AddToast(toastId, Notice(Success, "Checked in", Some(found.fullName + " is checked in.")));
    } else {
      store.AddToast(toastId, NoticeOf(store.passengers, o));
    }
  }

  /** Checking in again is accepted: the same passenger is found again, so another
      bag event is recorded. */
  lemma {:induction false} CheckInAgain(s: AppState, ticket: string, eventId: string, now: string, toastId: string,
                                        eventId2: string, now2: string, toastId2: string)
    requires Decide(s.passengers, ticket).CheckedIn?
    ensures var t := Step(s, ticket, eventId, now, toastId);
            && Decide(t.passengers, ticket) == Decide(s.passengers, ticket)
            && |Step(t, ticket, eventId2, now2, toastId2).bagEvents| == |s.bagEvents| + 2
  {
    var t := Step(s, ticket, eventId, now, toastId);
    DecideReadsTickets(s.passengers, t.passengers, ticket);
  }

  /** The check-in verdict reads only the tickets, so two rosters holding the same
      tickets in the same order get the same verdict. */
  lemma DecideReadsTickets(ps: seq<Passenger>, qs: seq<Passenger>, ticket: string)
    requires |ps| == |qs|
    requires forall i :: 0 <= i < |ps| ==> qs[i].ticketNumber == ps[i].ticketNumber
    ensures Decide(qs, ticket) == Decide(ps, ticket)
  {
    FindByTicketReadsTickets(ps, qs, Trim(ticket));
  }
}

=== FILE: demo_journey.dfy ===
/**
 * The journey of the demo passenger through the seeded store: check in with ticket
 * 1234567890, try to board at the wrong gate flight, board at the right one, and load
 * the bag 654321 onto the plane.
 */
module DemoJourney {
  import opened Options
  import opened Text
  import opened Validation
  import opened Entities
  import opened AppContext
  import CheckInPassenger
  import BoardPassenger
  import LoadBags

  const Ticket := "1234567890"
  const Bag := "654321"

  /** The demo ticket and luggage id are well formed and need no trimming. */
  lemma {:induction false} DemoCodesValid()
    ensures Trim(Ticket) == Ticket && IsTicketValid(Ticket)
    ensures Trim(Bag) == Bag && IsLuggageIdValid(Bag)
  {
    DemoTicketValid();
    DemoBagValid();
  }

  lemma {:induction false} DemoTicketValid()
    ensures Trim(Ticket) == Ticket && IsTicketValid(Ticket)
  {
    TrimKeeps(Ticket);
    TicketValidIff(Ticket);
  }

  lemma {:induction false} DemoBagValid()
    ensures Trim(Bag) == Bag && IsLuggageIdValid(Bag)
  {
    TrimKeeps(Bag);
    LuggageIdValidIff(Bag);
  }

  /** Checking in the seeded passenger sets `checkedIn` and records that the bag reached
      security at the check-in counter. */
  lemma {:induction false} DemoCheckIn(ids: SeedIds, clock: SeedClock, eventId: string, now: string, toastId: string)
    ensures var s := Seed(ids, clock);
            var t := CheckInPassenger.Step(s, Ticket, eventId, now, toastId);
            && t.passengers == [SeedPassenger(ids).(checkedIn := true)]
            && t.bagEvents == [BagEvent(eventId, Bag, now, "Check-in counter", ReceivedSecurity, None)] + s.bagEvents
            && t.toasts[0].kind == Success
  {
    DemoCodesValid();
    var s := Seed(ids, clock);
    assert CheckInPassenger.Decide(s.passengers, Ticket) == CheckInPassenger.CheckedIn(0);
  }

  /** Once checked in, boarding at the other flight's gate is refused and changes
      nothing but the toasts. */
  lemma {:induction false} DemoWrongFlight(ids: SeedIds, s: AppState,
                                            eventId: string, now: string, toastId: string)
    requires ids.flight1 != ids.flight2 && ids.flight2 != ""
    requires s.passengers == [SeedPassenger(ids).(checkedIn := true)]
    ensures var t := BoardPassenger.Step(s, Ticket, ids.flight2, eventId, now, toastId);
            && BoardPassenger.Decide(s.passengers, Ticket, ids.flight2) == BoardPassenger.FlightMismatch(0)
            && t == s.(toasts := t.toasts) && t.toasts[0].title == "Flight mismatch"
  {
    DemoCodesValid();
    assert FindByTicket(s.passengers, Ticket) == Some(0);
  }

  /** Boarding at the passenger's own flight sets `boarded` and records the bag at gate A12. */
  lemma {:induction false} DemoBoard(ids: SeedIds, clock: SeedClock, s: AppState,
                                      eventId: string, now: string, toastId: string)
    requires s.passengers == [SeedPassenger(ids).(checkedIn := true)]
    requires s.flights == SeedFlights(ids, clock) && ids.flight1 != ""
    ensures var t := BoardPassenger.Step(s, Ticket, ids.flight1, eventId, now, toastId);
            && t.passengers == [s.passengers[0].(boarded := true)]
            && t.bagEvents == [BagEvent(eventId, Bag, now, "Gate A12", AtGate, Some("A12"))] + s.bagEvents
            && t.toasts[0].kind == Success
  {
    DemoCodesValid();
    assert FindByTicket(s.passengers, Ticket) == Some(0);
    assert BoardPassenger.Decide(s.passengers, Ticket, ids.flight1) == BoardPassenger.Boarded(0);
    assert FindFlight(s.flights, ids.flight1) == Some(s.flights[0]);
    assert "Gate " + "A12" == "Gate A12";
    assert BoardPassenger.GateEvent(s.flights, ids.flight1, Bag, eventId, now)
        == Some(BagEvent(eventId, Bag, now, "Gate A12", AtGate, Some("A12")));
  }

  /** Loading the bag onto the passenger's flight records it as loaded at the ramp of gate A12. */
  lemma {:induction false} DemoLoad(ids: SeedIds, clock: SeedClock, s: AppState,
                                     eventId: string, now: string, toastId: string)
    requires s.passengers == [SeedPassenger(ids).(checkedIn := true, boarded := true)]
    requires s.flights == SeedFlights(ids, clock) && ids.flight1 != ""
    ensures var t := LoadBags.Step(s, ids.flight1, Bag, eventId, now, toastId);
            && t.bagEvents == [BagEvent(eventId, Bag, now, "Ramp for Gate A12", LoadedPlane, Some("A12"))] + s.bagEvents
            && t.toasts[0].kind == Success
  {
    DemoLoadAccepted(ids, s.passengers);
    DemoRamp(ids, clock);
    DemoBagValid();
  }

  /** The bag belongs to the first flight, so loading it there is accepted. */
  lemma {:induction false} DemoLoadAccepted(ids: SeedIds, ps: seq<Passenger>)
    requires ps == [SeedPassenger(ids).(checkedIn := true, boarded := true)] && ids.flight1 != ""
    ensures LoadBags.LoadError(ps, ids.flight1, Bag) == ""
  {
    DemoBagValid();
    assert FindByLuggage(ps, Bag) == Some(0);
  }

  /** The ramp of the first flight is that of gate A12. */
  lemma {:induction false} DemoRamp(ids: SeedIds, clock: SeedClock)
    ensures LoadBags.RampLocation(SeedFlights(ids, clock), ids.flight1) == "Ramp for Gate A12"
    ensures LoadBags.FlightGate(SeedFlights(ids, clock), ids.flight1) == Some("A12")
  {
    assert FindFlight(SeedFlights(ids, clock), ids.flight1) == Some(SeedFlights(ids, clock)[0]);
    LoadBags.RampWithGate("A12");
    assert "Ramp for Gate " + "A12" == "Ramp for Gate A12";
  }
}

=== FILE: entities.dfy ===
/**
 * The records the store holds, and the lookups and record edits the store and the
 * pages perform on them. Identifiers and timestamps are opaque strings.
 */
module Entities {
  import opened Options
  import opened Text
  import opened Seqs

  datatype Role = AdminRole | AirlineRole | GateRole | GroundRole | PassengerRole

  /** The roles a message can be addressed to. */
  type MessageRole = r: Role | !r.PassengerRole? witness AdminRole

  datatype User = User(id: string, username: string, password: string, role: Role,
                       email: Option<string>, phone: Option<string>)

  datatype Flight = Flight(id: string, airlineFlightNo: string, origin: string,
                           destination: string, departureTime: string, gate: string)

  datatype Passenger = Passenger(id: string, fullName: string, email: string, phone: string,
                                 ticketNumber: string, flightId: string, luggageId: string,
                                 checkedIn: bool, boarded: bool)

  datatype BagStatus = Created | ReceivedSecurity | ClearedSecurity | AtGate | LoadedPlane

  datatype BagEvent = BagEvent(id: string, luggageId: string, timestamp: string,
                               location: string, status: BagStatus, gate: Option<string>)

  datatype Message = Message(id: string, fromUsername: string, toRole: MessageRole,
                             body: string, timestamp: string)

  datatype ToastKind = Success | Error | Info

  datatype Toast = Toast(id: string, kind: ToastKind, title: string, message: Option<string>)

  /** A toast before it gets its id (what a page hands to `addToast`). */
  datatype Notice = Notice(kind: ToastKind, title: string, message: Option<string>)

  /** `addToast`'s edit of the toast list: the new toast goes in front. */
  function Post(ts: seq<Toast>, id: string, n: Notice): seq<Toast> {
    [Toast(id, n.kind, n.title, n.message)] + ts
  }

  /** `Partial<Passenger>`: the fields a patch sets; `None` is a key the patch does not have. */
  datatype PassengerPatch = PassengerPatch(
    id: Option<string>, fullName: Option<string>, email: Option<string>, phone: Option<string>,
    ticketNumber: Option<string>, flightId: Option<string>, luggageId: Option<string>,
    checkedIn: Option<bool>, boarded: Option<bool>)

  const EmptyPatch := PassengerPatch(None, None, None, None, None, None, None, None, None)

  /** `{ ...p, ...patch }`: every field the patch has wins, every other field is kept. */
  function Merge(p: Passenger, patch: PassengerPatch): Passenger {
    Passenger(patch.id.GetOr(p.id), patch.fullName.GetOr(p.fullName), patch.email.GetOr(p.email),
              patch.phone.GetOr(p.phone), patch.ticketNumber.GetOr(p.ticketNumber),
              patch.flightId.GetOr(p.flightId), patch.luggageId.GetOr(p.luggageId),
              patch.checkedIn.GetOr(p.checkedIn), patch.boarded.GetOr(p.boarded))
  }

  // ---- Identifier sets ----

  function UserIds(us: seq<User>): set<string> { set u | u in us :: u.id }
  function FlightIds(fs: seq<Flight>): set<string> { set f | f in fs :: f.id }
  function PassengerIds(ps: seq<Passenger>): set<string> { set p | p in ps :: p.id }
  function BagEventIds(es: seq<BagEvent>): set<string> { set e | e in es :: e.id }
  function MessageIds(ms: seq<Message>): set<string> { set m | m in ms :: m.id }
  function ToastIds(ts: seq<Toast>): set<string> { set t | t in ts :: t.id }

  // ---- Lookups (`find` / `findIndex`) ----

  /** The first user whose lower-cased username equals the lower-cased `name`. */
  function FindUserIgnoringCase(us: seq<User>, name: string): (r: Option<nat>)
    ensures r.Some? ==> r.value < |us| && SameIgnoringCase(us[r.value].username, name)
    ensures r.Some? ==> forall j :: 0 <= j < r.value ==> !SameIgnoringCase(us[j].username, name)
    ensures r.None? ==> forall j :: 0 <= j < |us| ==> !SameIgnoringCase(us[j].username, name)
  {
    FindFirst(us, (u: User) => SameIgnoringCase(u.username, name))
  }

  /** The flight with this id, when there is one (`flights.find((f) => f.id === id)`). */
  function FindFlight(fs: seq<Flight>, id: string): (r: Option<Flight>)
    ensures r.Some? ==> r.value in fs && r.value.id == id
    ensures r.Some? ==> exists i :: 0 <= i < |fs| && fs[i] == r.value && forall j :: 0 <= j < i ==> fs[j].id != id
    ensures r.None? <==> id !in FlightIds(fs)
  {
    match FindFirst(fs, (f: Flight) => f.id == id)
    case Some(i) => assert fs[i] == fs[i]; Some(fs[i])
    case None => None
  }

  /** The first passenger holding this ticket number. */
  function FindByTicket(ps: seq<Passenger>, ticket: string): (r: Option<nat>)
    ensures r.Some? ==> r.value < |ps| && ps[r.value].ticketNumber == ticket
    ensures r.Some? ==> forall j :: 0 <= j < r.value ==> ps[j].ticketNumber != ticket
    ensures r.None? <==> forall j :: 0 <= j < |ps| ==> ps[j].ticketNumber != ticket
  {
    FindFirst(ps, (p: Passenger) => p.ticketNumber == ticket)
  }

  /** The ticket lookup reads only the tickets: rosters holding the same tickets in the
      same order find the same index. */
  lemma FindByTicketReadsTickets(ps: seq<Passenger>, qs: seq<Passenger>, ticket: string)
    requires |ps| == |qs|
    requires forall i :: 0 <= i < |ps| ==> qs[i].ticketNumber == ps[i].ticketNumber
    ensures FindByTicket(qs, ticket) == FindByTicket(ps, ticket)
  {
  }

  /** The first passenger holding this luggage id (the bag's owner). */
  function FindByLuggage(ps: seq<Passenger>, luggageId: string): (r: Option<nat>)
    ensures r.Some? ==> r.value < |ps| && ps[r.value].luggageId == luggageId
    ensures r.Some? ==> forall j :: 0 <= j < r.value ==> ps[j].luggageId != luggageId
    ensures r.None? <==> forall j :: 0 <= j < |ps| ==> ps[j].luggageId != luggageId
  {
    FindFirst(ps, (p: Passenger) => p.luggageId == luggageId)
  }

  /** The flight of the bag's owner (the first holder of the luggage id), when both the
      owner and the flight exist. */
  function OwnerFlight(ps: seq<Passenger>, fs: seq<Flight>, luggageId: string): (r: Option<Flight>)
    ensures r.Some? ==> exists i :: 0 <= i < |ps| && ps[i].luggageId == luggageId && r.value.id == ps[i].flightId
    ensures r.Some? ==> r.value in fs
    ensures r.Some? <==> && FindByLuggage(ps, luggageId).Some?
                         && ps[FindByLuggage(ps, luggageId).value].flightId in FlightIds(fs)
    ensures r.Some? ==> Some(r.value) == FindFlight(fs, ps[FindByLuggage(ps, luggageId).value].flightId)
  {
    match FindByLuggage(ps, luggageId)
    case Some(i) => FindFlight(fs, ps[i].flightId)
    case None => None
  }

  /** What the pages show in a passenger's flight column: the flight number, or
      "Missing flight" when the passenger's flight no longer exists. */
  function FlightLabel(fs: seq<Flight>, flightId: string): (shown: string)
    ensures flightId !in FlightIds(fs) ==> shown == "Missing flight"
    ensures flightId in FlightIds(fs) ==>
              exists i :: 0 <= i < |fs| && fs[i].id == flightId && (forall j :: 0 <= j < i ==> fs[j].id != flightId)
                          && shown == fs[i].airlineFlightNo
  {
    match FindFlight(fs, flightId)
    case Some(f) => f.airlineFlightNo
    case None => "Missing flight"
  }

  // ---- Collection edits ----

  /** `prev.map((x) => (x.id === id ? { ...x, ...patch } : x))` */
  function UpdateById(ps: seq<Passenger>, id: string, patch: PassengerPatch): (r: seq<Passenger>)
    ensures |r| == |ps|
    ensures forall i :: 0 <= i < |ps| && ps[i].id != id ==> r[i] == ps[i]
    ensures forall i :: 0 <= i < |ps| && ps[i].id == id ==> r[i] == Merge(ps[i], patch)
  {
    seq(|ps|, i requires 0 <= i < |ps| => if ps[i].id == id then Merge(ps[i], patch) else ps[i])
  }

  /** `prev.filter((x) => x.id !== id)` on flights. */
  function RemoveFlightById(fs: seq<Flight>, id: string): (r: seq<Flight>)
    ensures forall f :: f in r ==> f.id != id
    ensures forall f :: f in fs && f.id != id ==> f in r
    ensures multiset(r) <= multiset(fs)
  {
    var r := Filter(fs, (f: Flight) => f.id != id);
    assert forall f :: f in fs && f.id != id ==> f in r by {
      forall f | f in fs && f.id != id ensures f in r {
        var i :| 0 <= i < |fs| && fs[i] == f;
        FilterKeeps(fs, (f: Flight) => f.id != id, i);
      }
    }
    r
  }

  /** `prev.filter((x) => x.id !== id)` on toasts. */
  function RemoveToastById(ts: seq<Toast>, id: string): (r: seq<Toast>)
    ensures forall t :: t in r ==> t.id != id
    ensures forall t :: t in ts && t.id != id ==> t in r
    ensures multiset(r) <= multiset(ts)
  {
    var r := Filter(ts, (t: Toast) => t.id != id);
    assert forall t :: t in ts && t.id != id ==> t in r by {
      forall t | t in ts && t.id != id ensures t in r {
        var i :| 0 <= i < |ts| && ts[i] == t;
        FilterKeeps(ts, (t: Toast) => t.id != id, i);
      }
    }
    r
  }

  // ---- Facts about the edits ----

  /** Removing a flight keeps the others in order: a flight in front stays in front
      unless it has the removed id. */
  lemma RemoveFlightPrepend(f: Flight, fs: seq<Flight>, id: string)
    ensures RemoveFlightById([f] + fs, id) == (if f.id != id then [f] else []) + RemoveFlightById(fs, id)
  {
    assert ([f] + fs)[1..] == fs;
  }

  /** Dismissing a toast keeps the others in order. */
  lemma RemoveToastPrepend(t: Toast, ts: seq<Toast>, id: string)
    ensures RemoveToastById([t] + ts, id) == (if t.id != id then [t] else []) + RemoveToastById(ts, id)
  {
    assert ([t] + ts)[1..] == ts;
  }

  /** An id that no passenger has leaves the passengers exactly as they were. */
  lemma UpdateUnknownIdIsNoOp(ps: seq<Passenger>, id: string, patch: PassengerPatch)
    requires id !in PassengerIds(ps)
    ensures UpdateById(ps, id, patch) == ps
  {
    assert forall i :: 0 <= i < |ps| ==> ps[i] in ps;
  }

  /** With distinct passenger ids, updating by the id of the passenger at `k` changes
      that record only. */
  lemma UpdateOneRecord(ps: seq<Passenger>, k: nat, patch: PassengerPatch)
    requires k < |ps|
    requires forall i, j :: 0 <= i < j < |ps| ==> ps[i].id != ps[j].id
    ensures UpdateById(ps, ps[k].id, patch) == ps[k := Merge(ps[k], patch)]
  {
  }

  /** Removing flights never touches a flight with another id, and removing an id no
      flight has leaves the list exactly as it was. */
  lemma {:induction false} RemoveAbsentFlightIsNoOp(fs: seq<Flight>, id: string)
    requires id !in FlightIds(fs)
    ensures RemoveFlightById(fs, id) == fs
  {
    assert forall i :: 0 <= i < |fs| ==> fs[i] in fs;
    FilterAll(fs, (f: Flight) => f.id != id);
  }

  /** Removing a toast id no toast has leaves the list exactly as it was. */
  lemma {:induction false} RemoveAbsentToastIsNoOp(ts: seq<Toast>, id: string)
    requires id !in ToastIds(ts)
    ensures RemoveToastById(ts, id) == ts
  {
    assert forall i :: 0 <= i < |ts| ==> ts[i] in ts;
    FilterAll(ts, (t: Toast) => t.id != id);
  }
}

=== FILE: flight_departure.dfy ===
/**
 * The gate agent's departure page: the selected flight, its passengers, and how many
 * of them have boarded. Reviewing changes no domain data; it only posts a toast.
 */
module FlightDeparture {
  import opened Options
  import opened Seqs
  import opened Entities

  /** `pax`: the passengers booked on the selected flight, in roster order. */
  function Pax(ps: seq<Passenger>, flightId: string): (r: seq<Passenger>)
    ensures forall p :: p in r <==> p in ps && p.flightId == flightId
    ensures multiset(r) <= multiset(ps)
  {
    var r := Filter(ps, (p: Passenger) => p.flightId == flightId);
    assert forall p :: p in r <==> p in ps && p.flightId == flightId by {
      forall p ensures p in r <==> p in ps && p.flightId == flightId {
        FilterMembers(ps, (p: Passenger) => p.flightId == flightId, p);
      }
    }
    r
  }

  /** `pax` keeps the roster's order and multiplicity: a passenger in front of the roster
      is in front of `pax` exactly when booked on the flight. */
  lemma PaxPrepend(p: Passenger, ps: seq<Passenger>, flightId: string)
    ensures Pax([p] + ps, flightId) == (if p.flightId == flightId then [p] else []) + Pax(ps, flightId)
  {
    assert ([p] + ps)[1..] == ps;
  }

  /** Whether a passenger has boarded (the filter of the count). */
  function HasBoarded(p: Passenger): bool { p.boarded }

  /** The "boarded / total" line: never more boarded than booked, and none on an empty
      roster; `BoardedCountPrepend` gives its value passenger by passenger. */
  function BoardedCount(ps: seq<Passenger>, flightId: string): (n: nat)
    ensures n <= |Pax(ps, flightId)|
    ensures ps == [] ==> n == 0
  {
    Count(Pax(ps, flightId), HasBoarded)
  }

  /** The count is the number of boarded passengers on the flight: a passenger in front
      of the roster adds one exactly when booked on the flight and boarded. */
  lemma {:induction false} BoardedCountPrepend(p: Passenger, ps: seq<Passenger>, flightId: string)
    ensures BoardedCount([p] + ps, flightId) ==
            (if p.flightId == flightId && p.boarded then 1 else 0) + BoardedCount(ps, flightId)
  {
    var head := if p.flightId == flightId then [p] else [];
    PaxPrepend(p, ps, flightId);
    FilterAppend(head, Pax(ps, flightId), HasBoarded);
  }

  /** The toast `onAnnounce` posts. */
  function OnAnnounce(flightId: string): (n: Notice)
    ensures n.kind == Error <==> flightId == ""
    ensures flightId == "" ==> n == Notice(Error, "Select a flight", None)
    ensures flightId != "" ==> n.title == "Departure status" && n.message.Some?
  {
    if flightId == "" then Notice(Error, "Select a flight", None)
    else Notice(Info, "Departure status",
                Some("This demo page can be extended to lock boarding and record departure time."))
  }

  /** When every passenger on the flight has boarded, the count is the whole roster. */
  lemma {:induction false} AllBoarded(ps: seq<Passenger>, flightId: string)
    requires forall p :: p in ps && p.flightId == flightId ==> p.boarded
    ensures BoardedCount(ps, flightId) == |Pax(ps, flightId)|
  {
    var pax := Pax(ps, flightId);
    assert forall i :: 0 <= i < |pax| ==> pax[i] in pax;
    FilterAll(pax, HasBoarded);
  }
}

=== FILE: gate_info.dfy ===
/**
 * The passenger's gate-information page: a ticket check, then the first passenger
 * holding the trimmed ticket and that passenger's flight. Details are shown only when
 * both resolve, so a passenger whose flight was removed gets "Not found". Looking up
 * changes no domain data; it only posts a toast.
 */
module GateInfo {
  import opened Options
  import opened Text
  import opened Validation
  import opened Entities
  import opened Guards

  /** What `p && f` resolves to. */
  datatype Lookup = InvalidTicket(error: string) | NotFound | Found(p: Passenger, f: Flight)

  /** The ticket check and the two lookups. */
  function Resolve(ps: seq<Passenger>, fs: seq<Flight>, ticket: string): (r: Lookup)
    ensures r.InvalidTicket? <==> !IsTicketValid(Trim(ticket))
    ensures r.InvalidTicket? ==> r.error == TicketError(ticket)
    ensures r.Found? ==> && r.p in ps && r.p.ticketNumber == Trim(ticket)
                         && r.f in fs && r.f.id == r.p.flightId
    ensures r.Found? ==> && FindByTicket(ps, Trim(ticket)).Some?
                         && r.p == ps[FindByTicket(ps, Trim(ticket)).value]
                         && FindFlight(fs, r.p.flightId) == Some(r.f)
    ensures r.NotFound? <==> && IsTicketValid(Trim(ticket))
                             && (|| FindByTicket(ps, Trim(ticket)).None?
                                 || ps[FindByTicket(ps, Trim(ticket)).value].flightId !in FlightIds(fs))
  {
    if TicketError(ticket) != "" then InvalidTicket(TicketError(ticket))
    else match FindByTicket(ps, Trim(ticket))
      case None => NotFound
      case Some(k) =>
        match FindFlight(fs, ps[k].flightId)
        case None => NotFound
        case Some(f) => Found(ps[k], f)
  }

  /** The toast `onLookup` posts. */
  function OnLookup(ps: seq<Passenger>, fs: seq<Flight>, ticket: string): (n: Notice)
    ensures n.kind == Success <==> Resolve(ps, fs, ticket).Found?
    ensures Resolve(ps, fs, ticket).InvalidTicket? ==> n == Notice(Error, "Invalid ticket", Some(TicketError(ticket)))
    ensures Resolve(ps, fs, ticket).NotFound? ==>
              n == Notice(Error, "Not found", Some("No passenger/flight found for this ticket."))
    ensures Resolve(ps, fs, ticket).Found? ==> n == Notice(Success, "Gate info loaded", None)
  {
    match Resolve(ps, fs, ticket)
    case InvalidTicket(e) => Notice(Error, "Invalid ticket", Some(e))
    case NotFound => Notice(Error, "Not found", Some("No passenger/flight found for this ticket."))
    case Found(_, _) => Notice(Success, "Gate info loaded", None)
  }

  /** A passenger whose flight is missing is reported as not found, not as an error of
      the page: the ticket resolves but the details card stays hidden. */
  lemma OrphanNotFound(ps: seq<Passenger>, fs: seq<Flight>, ticket: string)
    requires IsTicketValid(Trim(ticket))
    requires forall j :: 0 <= j < |ps| && ps[j].ticketNumber == Trim(ticket) ==> ps[j].flightId !in FlightIds(fs)
    ensures Resolve(ps, fs, ticket) == NotFound
    ensures OnLookup(ps, fs, ticket).title == "Not found"
  {
  }
}

=== FILE: guards.dfy ===
/**
 * The field checks that several pages repeat word for word: the ticket check of the
 * check-in, boarding and gate-information pages, the luggage check of the bag pages,
 * and the administrator exemption of the login and staff forms.
 */
module Guards {
  import opened Options
  import opened Text
  import opened Validation

  /** The ticket check: required once trimmed, then ten digits. The empty result means
      the field is fine. */
  function TicketError(ticket: string): (e: string)
    ensures e == "" <==> IsTicketValid(Trim(ticket))
    ensures e == "Ticket number is required." <==> IsBlank(ticket)
  {
    EmptyIsInvalid();
    if IsBlank(ticket) then "Ticket number is required."
    else if !IsTicketValid(Trim(ticket)) then "Ticket number must be 10 digits."
    else ""
  }

  /** The luggage check: required once trimmed, then six digits. */
  function LuggageError(luggageId: string): (e: string)
    ensures e == "" <==> IsLuggageIdValid(Trim(luggageId))
    ensures e == "Luggage ID is required." <==> IsBlank(luggageId)
  {
    EmptyIsInvalid();
    if IsBlank(luggageId) then "Luggage ID is required."
    else if !IsLuggageIdValid(Trim(luggageId)) then "Luggage ID must be 6 digits."
    else ""
  }

  /** The administrator exemption from the username format: the trimmed name lower-cases
      to "admin". */
  predicate IsAdminName(username: string) {
    ToLower(Trim(username)) == "admin"
  }

  /** The email field of the passenger and staff forms: required, then the email format.
      The later check replaces the earlier message, so the format message wins. */
  function EmailMessage(email: string): (m: Option<string>)
    ensures m.Some? <==> !IsEmailValid(Trim(email))
    ensures m.Some? ==> m.value != ""
  {
    EmptyIsInvalid();
    if !IsBlank(email) && !IsEmailValid(Trim(email)) then Some("Email format example: user@aa.com")
    else if IsBlank(email) then Some("Email is required.")
    else None
  }

  /** The phone field of the passenger and staff forms: required, then ten digits. */
  function PhoneMessage(phone: string): (m: Option<string>)
    ensures m.Some? <==> !IsPhoneValid(Trim(phone))
    ensures m.Some? ==> m.value != ""
  {
    EmptyIsInvalid();
    if !IsBlank(phone) && !IsPhoneValid(Trim(phone)) then Some("Phone must be 10 digits.")
    else if IsBlank(phone) then Some("Phone is required.")
    else None
  }

  /** The username field of the login and staff forms: required, then the username
      format unless the name is the administrator's. */
  function UsernameFormatMessage(username: string): (m: Option<string>)
    ensures m.Some? <==> IsBlank(username) || (!IsAdminName(username) && !IsUsernameValid(Trim(username)))
  {
    if !IsBlank(username) && !IsAdminName(username) && !IsUsernameValid(Trim(username)) then
      Some("Username format: lastname + 2 digits (example: smith01).")
    else if IsBlank(username) then Some("Username is required.")
    else None
  }

  /** A password field: required (untrimmed, with the form's own `required` text), then
      the password rule. */
  function PasswordMessage(password: string, required: string): (m: Option<string>)
    ensures m.Some? <==> !IsPasswordValid(password)
    ensures password == "" ==> m == Some(required)
    ensures password != "" && m.Some? ==> m.value == "Password must be at least 6 characters and include letters and digits."
  {
    EmptyIsInvalid();
    if password != "" && !IsPasswordValid(password) then
      Some("Password must be at least 6 characters and include letters and digits.")
    else if password == "" then Some(required)
    else None
  }
}

=== FILE: invariants.dfy ===
/**
 * The store as a whole under every action the pages offer. Each action is the pure
 * effect of one page handler. The lemmas show which facts about the data every
 * action keeps: ids, tickets and luggage ids stay unique, nobody is boarded without
 * being checked in, usernames stay unique ignoring case, status flags are never
 * cleared, and the bag-event log only grows at its head.
 */
module Invariants {
  import opened Options
  import opened Text
  import opened Entities
  import opened AppContext
  import CheckInPassenger
  import BoardPassenger
  import LoadBags
  import UpdateBags
  import ManagePassengers
  import ManageStaff
  import ManageFlights
  import AdminMessages
  import AirlineMessages
  import LoginPage
  import PasswordResetPage

  predicate IdsUnique(ps: seq<Passenger>) {
    forall i, j :: 0 <= i < j < |ps| ==> ps[i].id != ps[j].id
  }

  predicate TicketsUnique(ps: seq<Passenger>) {
    forall i, j :: 0 <= i < j < |ps| ==> ps[i].ticketNumber != ps[j].ticketNumber
  }

  predicate LuggageUnique(ps: seq<Passenger>) {
    forall i, j :: 0 <= i < j < |ps| ==> ps[i].luggageId != ps[j].luggageId
  }

  predicate BoardedOnlyIfCheckedIn(ps: seq<Passenger>) {
    forall i :: 0 <= i < |ps| ==> ps[i].boarded ==> ps[i].checkedIn
  }

  /** The facts the pages rely on without checking them. */
  predicate Consistent(s: AppState) {
    && IdsUnique(s.passengers) && TicketsUnique(s.passengers) && LuggageUnique(s.passengers)
    && BoardedOnlyIfCheckedIn(s.passengers) && ManageStaff.NamesUnique(s.users)
  }

  /** One user action, with the identifiers and clock readings it draws. */
  datatype Action =
    | SignIn(username: string, password: string, toastId: string)
    | SignOut
    | ResetPassword(username: string, newPassword: string, confirm: string, toastId: string)
    | CheckIn(ticket: string, eventId: string, now: string, toastId: string)
    | Board(ticket: string, flightId: string, eventId: string, now: string, toastId: string)
    | LoadBag(flightId: string, luggageId: string, eventId: string, now: string, toastId: string)
    | UpdateBag(luggageId: string, location: string, status: UpdateBags.UpdateStatus, eventId: string, now: string, toastId: string)
    | AddPassenger(passengerForm: ManagePassengers.Form, passengerId: string, toastId: string)
    | AddStaff(staffForm: ManageStaff.Form, userId: string, toastId: string)
    | AddFlight(flightForm: ManageFlights.Form, departureIso: Option<string>, flightId: string, toastId: string)
    | RemoveFlight(flightId: string)
    | AdminSend(toRole: AdminMessages.StaffRole, body: string, messageId: string, now: string, toastId: string)
    | AirlineSend(body: string, messageId: string, now: string, toastId: string)
    | Dismiss(toastId: string)

  /** The effect of one action on the store. */
  function Apply(s: AppState, a: Action): (t: AppState)
    ensures !(a.CheckIn? || a.Board? || a.AddPassenger?) ==> t.passengers == s.passengers
    ensures !(a.CheckIn? || a.Board? || a.LoadBag? || a.UpdateBag?) ==> t.bagEvents == s.bagEvents
    ensures !(a.ResetPassword? || a.AddStaff?) ==> t.users == s.users
  {
    match a
    case SignIn(u, p, tid) => LoginPage.Step(s, u, p, tid)
    case SignOut => s.(currentUser := None)
    case ResetPassword(u, np, c, tid) => PasswordResetPage.Step(s, u, np, c, tid)
    case CheckIn(tk, eid, now, tid) => CheckInPassenger.Step(s, tk, eid, now, tid)
    case Board(tk, fid, eid, now, tid) => BoardPassenger.Step(s, tk, fid, eid, now, tid)
    case LoadBag(fid, l, eid, now, tid) => LoadBags.Step(s, fid, l, eid, now, tid)
    case UpdateBag(l, loc, st, eid, now, tid) => UpdateBags.Step(s, l, loc, st, eid, now, tid)
    case AddPassenger(f, pid, tid) => ManagePassengers.Step(s, f, pid, tid)
    case AddStaff(f, uid, tid) => ManageStaff.Step(s, f, uid, tid)
    case AddFlight(f, iso, fid, tid) => ManageFlights.Step(s, f, iso, fid, tid)
    case RemoveFlight(fid) => s.(flights := RemoveFlightById(s.flights, fid))
    case AdminSend(r, b, mid, now, tid) => AdminMessages.Step(s, r, b, mid, now, tid)
    case AirlineSend(b, mid, now, tid) => AirlineMessages.Step(s, b, mid, now, tid)
    case Dismiss(tid) => s.(toasts := RemoveToastById(s.toasts, tid))
  }

  /** The freshness the random id generator provides, where it matters for the data:
      a new passenger's id is not already in use. */
  predicate FreshFor(s: AppState, a: Action) {
    a.AddPassenger? ==> a.passengerId !in PassengerIds(s.passengers)
  }

  /** The state after a sequence of actions, applied first to last. */
  function Run(s: AppState, actions: seq<Action>): AppState
    decreases |actions|
  {
    if actions == [] then s else Run(Apply(s, actions[0]), actions[1..])
  }

  /** Every action of the sequence draws fresh ids in the state it meets. */
  predicate FreshRun(s: AppState, actions: seq<Action>)
    decreases |actions|
  {
    actions == [] || (FreshFor(s, actions[0]) && FreshRun(Apply(s, actions[0]), actions[1..]))
  }

  // ---- Status flags ----

  /** `qs` is `ps` with status flags at most raised: same length, same ids, tickets and
      luggage ids at every index, no flag cleared. */
  predicate FlagsRaised(ps: seq<Passenger>, qs: seq<Passenger>) {
    && |qs| == |ps|
    && forall i :: 0 <= i < |ps| ==>
         && qs[i].id == ps[i].id && qs[i].ticketNumber == ps[i].ticketNumber && qs[i].luggageId == ps[i].luggageId
         && (ps[i].checkedIn ==> qs[i].checkedIn) && (ps[i].boarded ==> qs[i].boarded)
  }

  lemma FlagsRaisedKeepsUnique(ps: seq<Passenger>, qs: seq<Passenger>)
    requires FlagsRaised(ps, qs) && IdsUnique(ps) && TicketsUnique(ps) && LuggageUnique(ps)
    ensures IdsUnique(qs) && TicketsUnique(qs) && LuggageUnique(qs)
  {
  }

  /** A patch that leaves ids, tickets and luggage ids alone and can only set flags
      to true raises flags and nothing else. */
  lemma {:induction false} PatchRaises(ps: seq<Passenger>, id: string, patch: PassengerPatch)
    requires patch.id.None? && patch.ticketNumber.None? && patch.luggageId.None?
    requires patch.checkedIn != Some(false) && patch.boarded != Some(false)
    ensures FlagsRaised(ps, UpdateById(ps, id, patch))
  {
  }

  /** Checking in raises `checkedIn` and changes no other field of any passenger. */
  lemma {:induction false} CheckInRaises(s: AppState, ticket: string, eventId: string, now: string, toastId: string)
    ensures FlagsRaised(s.passengers, CheckInPassenger.Step(s, ticket, eventId, now, toastId).passengers)
  {
  }

  /** Boarding raises `boarded` and changes no other field of any passenger. */
  lemma {:induction false} BoardRaises(s: AppState, ticket: string, flightId: string, eventId: string, now: string, toastId: string)
    ensures FlagsRaised(s.passengers, BoardPassenger.Step(s, ticket, flightId, eventId, now, toastId).passengers)
  {
    var o := BoardPassenger.Decide(s.passengers, ticket, flightId);
    if o.Boarded? {
      var t := BoardPassenger.Step(s, ticket, flightId, eventId, now, toastId);
      assert t.passengers == UpdateById(s.passengers, s.passengers[o.k].id, BoardPassenger.BoardPatch);
      PatchRaises(s.passengers, s.passengers[o.k].id, BoardPassenger.BoardPatch);
    }
  }

  /** Checking in raises `checkedIn` on the found passenger and keeps everything the
      invariant speaks of. */
  lemma {:induction false} CheckInKeeps(s: AppState, ticket: string, eventId: string, now: string, toastId: string)
    requires Consistent(s)
    ensures var t := CheckInPassenger.Step(s, ticket, eventId, now, toastId);
            FlagsRaised(s.passengers, t.passengers) && Consistent(t)
  {
    var t := CheckInPassenger.Step(s, ticket, eventId, now, toastId);
    CheckInRaises(s, ticket, eventId, now, toastId);
    FlagsRaisedKeepsUnique(s.passengers, t.passengers);
  }

  /** Boarding raises `boarded` only on a passenger already checked in; with unique ids
      that is the found passenger alone. */
  lemma {:induction false} BoardKeeps(s: AppState, ticket: string, flightId: string, eventId: string, now: string, toastId: string)
    requires Consistent(s)
    ensures var t := BoardPassenger.Step(s, ticket, flightId, eventId, now, toastId);
            FlagsRaised(s.passengers, t.passengers) && Consistent(t)
  {
    var t := BoardPassenger.Step(s, ticket, flightId, eventId, now, toastId);
    var o := BoardPassenger.Decide(s.passengers, ticket, flightId);
    if o.Boarded? {
      forall i | 0 <= i < |s.passengers| && t.passengers[i].boarded
        ensures t.passengers[i].checkedIn
      {
        if s.passengers[i].id == s.passengers[o.k].id {
          assert i == o.k;
        }
      }
    }
    BoardRaises(s, ticket, flightId, eventId, now, toastId);
    FlagsRaisedKeepsUnique(s.passengers, t.passengers);
  }

  /** Appending a passenger whose id, ticket and luggage id are all new, and who is not
      boarded, keeps the passenger invariants. */
  lemma {:induction false} AppendKeeps(ps: seq<Passenger>, p: Passenger)
    requires IdsUnique(ps) && TicketsUnique(ps) && LuggageUnique(ps) && BoardedOnlyIfCheckedIn(ps)
    requires p.id !in PassengerIds(ps) && !p.boarded
    requires forall i :: 0 <= i < |ps| ==> ps[i].ticketNumber != p.ticketNumber && ps[i].luggageId != p.luggageId
    ensures var qs := ps + [p];
            IdsUnique(qs) && TicketsUnique(qs) && LuggageUnique(qs) && BoardedOnlyIfCheckedIn(qs)
  {
    var qs := ps + [p];
    forall i | 0 <= i < |ps| ensures qs[i].id != p.id {
      assert qs[i] == ps[i] && ps[i] in ps;
    }
  }

  /** The passenger form appends a passenger whose id is fresh and whose ticket and
      luggage id are unused, with both flags clear. */
  lemma {:induction false} AddPassengerKeeps(s: AppState, f: ManagePassengers.Form, passengerId: string, toastId: string)
    requires Consistent(s) && passengerId !in PassengerIds(s.passengers)
    ensures Consistent(ManagePassengers.Step(s, f, passengerId, toastId))
  {
    var t := ManagePassengers.Step(s, f, passengerId, toastId);
    var n := |s.passengers|;
    if ManagePassengers.Acceptable(s.passengers, f) {
      var p := t.passengers[n];
      assert t.passengers == s.passengers + [p];
      assert !ManagePassengers.TicketTaken(s.passengers, Trim(f.ticketNumber));
      assert !ManagePassengers.LuggageTaken(s.passengers, Trim(f.luggageId));
      AppendKeeps(s.passengers, p);
    }
  }

  /** A password reset keeps every username. */
  lemma {:induction false} ResetKeepsNames(s: AppState, username: string, newPassword: string, confirm: string, toastId: string)
    requires ManageStaff.NamesUnique(s.users)
    ensures ManageStaff.NamesUnique(PasswordResetPage.Step(s, username, newPassword, confirm, toastId).users)
  {
    var t := PasswordResetPage.Step(s, username, newPassword, confirm, toastId);
    if t.users != s.users {
      var k := FindUserIgnoringCase(s.users, Trim(username)).value;
      assert forall i :: 0 <= i < |s.users| ==> t.users[i].username == s.users[i].username;
    }
  }

  /** Every action keeps the store consistent, given a fresh id for a new passenger. */
  lemma {:induction false} ApplyKeepsConsistent(s: AppState, a: Action)
    requires Consistent(s) && FreshFor(s, a)
    ensures Consistent(Apply(s, a))
  {
    if a.ResetPassword? || a.AddStaff? {
      UsersActionKeeps(s, a);
    } else if a.CheckIn? || a.Board? {
      FlagActionKeeps(s, a);
    } else if a.AddPassenger? {
      assert Apply(s, a) == ManagePassengers.Step(s, a.passengerForm, a.passengerId, a.toastId);
      AddPassengerKeeps(s, a.passengerForm, a.passengerId, a.toastId);
    }
  }

  lemma {:induction false} UsersActionKeeps(s: AppState, a: Action)
    requires Consistent(s) && (a.ResetPassword? || a.AddStaff?)
    ensures Consistent(Apply(s, a))
  {
    if a.ResetPassword? {
      assert Apply(s, a) == PasswordResetPage.Step(s, a.username, a.newPassword, a.confirm, a.toastId);
      ResetKeepsNames(s, a.username, a.newPassword, a.confirm, a.toastId);
    } else {
      assert Apply(s, a) == ManageStaff.Step(s, a.staffForm, a.userId, a.toastId);
      ManageStaff.AddKeepsNamesUnique(s, a.staffForm, a.userId, a.toastId);
    }
  }

  lemma {:induction false} FlagActionKeeps(s: AppState, a: Action)
    requires Consistent(s) && (a.CheckIn? || a.Board?)
    ensures Consistent(Apply(s, a))
  {
    if a.CheckIn? {
      assert Apply(s, a) == CheckInPassenger.Step(s, a.ticket, a.eventId, a.now, a.toastId);
      CheckInKeeps(s, a.ticket, a.eventId, a.now, a.toastId);
    } else {
      assert Apply(s, a) == BoardPassenger.Step(s, a.ticket, a.flightId, a.eventId, a.now, a.toastId);
      BoardKeeps(s, a.ticket, a.flightId, a.eventId, a.now, a.toastId);
    }
  }

  /** A consistent store stays consistent through any sequence of actions that draws
      fresh passenger ids. */
  lemma {:induction false} RunKeepsConsistent(s: AppState, actions: seq<Action>)
    requires Consistent(s) && FreshRun(s, actions)
    ensures Consistent(Run(s, actions))
    decreases |actions|
  {
    if actions != [] {
      ApplyKeepsConsistent(s, actions[0]);
      RunKeepsConsistent(Apply(s, actions[0]), actions[1..]);
    }
  }

  /** `qs` extends `ps` with flags at most raised on the existing passengers. */
  predicate Grows(ps: seq<Passenger>, qs: seq<Passenger>) {
    |ps| <= |qs| && FlagsRaised(ps, qs[..|ps|])
  }

  lemma {:induction false} RaisedGrows(ps: seq<Passenger>, qs: seq<Passenger>)
    requires FlagsRaised(ps, qs)
    ensures Grows(ps, qs)
  {
    assert qs[..|ps|] == qs;
  }

  lemma {:induction false} AppendGrows(ps: seq<Passenger>, p: Passenger)
    ensures Grows(ps, ps + [p])
  {
    assert (ps + [p])[..|ps|] == ps;
  }

  lemma {:induction false} AddPassengerGrows(s: AppState, f: ManagePassengers.Form, passengerId: string, toastId: string)
    ensures Grows(s.passengers, ManagePassengers.Step(s, f, passengerId, toastId).passengers)
  {
    var ps := s.passengers;
    var qs := ManagePassengers.Step(s, f, passengerId, toastId).passengers;
    if qs == ps {
      RaisedGrows(ps, ps);
    } else {
      assert qs == ps + [qs[|ps|]];
      AppendGrows(ps, qs[|ps|]);
    }
  }

  lemma {:induction false} CheckInGrows(s: AppState, a: Action)
    requires a.CheckIn?
    ensures Grows(s.passengers, Apply(s, a).passengers)
  {
    var t := CheckInPassenger.Step(s, a.ticket, a.eventId, a.now, a.toastId);
    assert Apply(s, a) == t;
    CheckInRaises(s, a.ticket, a.eventId, a.now, a.toastId);
    RaisedGrows(s.passengers, t.passengers);
  }

  lemma {:induction false} BoardGrows(s: AppState, a: Action)
    requires a.Board?
    ensures Grows(s.passengers, Apply(s, a).passengers)
  {
    var t := BoardPassenger.Step(s, a.ticket, a.flightId, a.eventId, a.now, a.toastId);
    assert Apply(s, a) == t;
    BoardRaises(s, a.ticket, a.flightId, a.eventId, a.now, a.toastId);
    RaisedGrows(s.passengers, t.passengers);
  }

  lemma {:induction false} OtherActionGrows(s: AppState, a: Action)
    requires !(a.CheckIn? || a.Board?)
    ensures Grows(s.passengers, Apply(s, a).passengers)
  {
    if a.AddPassenger? {
      AddPassengerGrows(s, a.passengerForm, a.passengerId, a.toastId);
    } else {
      RaisedGrows(s.passengers, s.passengers);
    }
  }

  /** No action removes a passenger, moves one, or clears `checkedIn` or `boarded`. */
  lemma {:induction false} ApplyNeverClearsFlags(s: AppState, a: Action)
    ensures Grows(s.passengers, Apply(s, a).passengers)
  {
    if a.CheckIn? {
      CheckInGrows(s, a);
    } else if a.Board? {
      BoardGrows(s, a);
    } else {
      OtherActionGrows(s, a);
    }
  }

  lemma {:induction false} GrowsTransitive(ps: seq<Passenger>, qs: seq<Passenger>, rs: seq<Passenger>)
    requires Grows(ps, qs) && Grows(qs, rs)
    ensures Grows(ps, rs)
  {
    forall i | 0 <= i < |ps|
      ensures rs[..|ps|][i] == rs[..|qs|][i]
    {
    }
  }

  /** Over any sequence of actions a passenger, once checked in (or boarded), stays so
      at the same position. */
  lemma {:induction false} RunNeverClearsFlags(s: AppState, actions: seq<Action>)
    ensures Grows(s.passengers, Run(s, actions).passengers)
    decreases |actions|
  {
    if actions == [] {
      assert s.passengers[..|s.passengers|] == s.passengers;
    } else {
      var s1 := Apply(s, actions[0]);
      ApplyNeverClearsFlags(s, actions[0]);
      RunNeverClearsFlags(s1, actions[1..]);
      GrowsTransitive(s.passengers, s1.passengers, Run(s1, actions[1..]).passengers);
    }
  }

  // ---- The bag-event log ----

  /** The log `after` is the log `before` with zero or more events put in front. */
  predicate LogExtends(before: seq<BagEvent>, after: seq<BagEvent>) {
    |before| <= |after| && after[|after| - |before|..] == before
  }

  /** No action edits or drops a bag event; new events go to the head of the log. */
  lemma {:induction false} ApplyOnlyPrependsEvents(s: AppState, a: Action)
    ensures LogExtends(s.bagEvents, Apply(s, a).bagEvents)
  {
    var t := Apply(s, a);
    assert s.bagEvents[0..] == s.bagEvents;
    if t.bagEvents != s.bagEvents {
      match a
      case CheckIn(tk, eid, now, tid) =>
        assert t.bagEvents[1..] == s.bagEvents;
      case Board(tk, fid, eid, now, tid) =>
        assert t.bagEvents[1..] == s.bagEvents;
      case LoadBag(fid, l, eid, now, tid) =>
        assert t.bagEvents[1..] == s.bagEvents;
      case UpdateBag(l, loc, st, eid, now, tid) =>
        assert t.bagEvents[1..] == s.bagEvents;
      case _ =>
    }
  }

  lemma LogExtendsTransitive(a: seq<BagEvent>, b: seq<BagEvent>, c: seq<BagEvent>)
    requires LogExtends(a, b) && LogExtends(b, c)
    ensures LogExtends(a, c)
  {
    assert c[|c| - |a|..] == c[|c| - |b|..][|b| - |a|..];
  }

  /** Over any sequence of actions the log keeps every earlier event, in order, at its tail. */
  lemma {:induction false} RunOnlyPrependsEvents(s: AppState, actions: seq<Action>)
    ensures LogExtends(s.bagEvents, Run(s, actions).bagEvents)
    decreases |actions|
  {
    if actions == [] {
      assert s.bagEvents[0..] == s.bagEvents;
    } else {
      var s1 := Apply(s, actions[0]);
      ApplyOnlyPrependsEvents(s, actions[0]);
      RunOnlyPrependsEvents(s1, actions[1..]);
      LogExtendsTransitive(s.bagEvents, s1.bagEvents, Run(s1, actions[1..]).bagEvents);
    }
  }

  // ---- The seed ----

  /** The demo data satisfies the invariant: its one passenger is trivially unique and its
      usernames differ ignoring case. */
  lemma {:induction false} SeedConsistent(ids: SeedIds, clock: SeedClock)
    ensures Consistent(Seed(ids, clock))
  {
    SeedNamesUnique(ids);
  }

  /** The seeded usernames are already lower case and pairwise different. */
  lemma {:induction false} SeedNamesUnique(ids: SeedIds)
    ensures ManageStaff.NamesUnique(SeedUsers(ids))
  {
    var us := SeedUsers(ids);
    var names := ["admin", "smith01", "johnson02", "brown03", "lee04"];
    assert forall i :: 0 <= i < 5 ==> us[i].username == names[i];
    forall i | 0 <= i < 5 ensures ToLower(names[i]) == names[i] {
      assert forall j :: 0 <= j < |names[i]| ==> LowerChar(names[i][j]) == names[i][j];
    }
  }
}

=== FILE: load_bags.dfy ===
/**
 * The ground crew's loading page: a flight must be selected, the luggage id must be six
 * digits once trimmed, its owner (the first passenger holding it) must exist and must be
 * booked on the selected flight. Only the owner's flight is checked, not whether the
 * owner is checked in or boarded. Loading records one `loaded_plane` event and never
 * changes a passenger or a flight.
 */
module LoadBags {
  import opened Options
  import opened Text
  import opened Validation
  import opened Entities
  import opened AppContext
  import opened Guards

  /** `error`: the first failing check, in the page's order, or "" when all pass. */
  function LoadError(ps: seq<Passenger>, flightId: string, luggageId: string): (e: string)
    ensures e == "" <==> && flightId != "" && IsLuggageIdValid(Trim(luggageId))
                         && FindByLuggage(ps, Trim(luggageId)).Some?
                         && ps[FindByLuggage(ps, Trim(luggageId)).value].flightId == flightId
    ensures flightId == "" <==> e == "Select a flight."
    ensures flightId != "" ==> (IsBlank(luggageId) <==> e == "Luggage ID is required.")
    ensures flightId != "" && !IsBlank(luggageId) ==> (!IsLuggageIdValid(Trim(luggageId)) <==> e == "Luggage ID must be 6 digits.")
    ensures e == "No passenger matches this luggage ID." <==>
              flightId != "" && IsLuggageIdValid(Trim(luggageId))
              && forall j :: 0 <= j < |ps| ==> ps[j].luggageId != Trim(luggageId)
    ensures e == "Luggage does not belong to the selected flight." <==>
              flightId != "" && IsLuggageIdValid(Trim(luggageId))
              && exists j :: 0 <= j < |ps| && ps[j].luggageId == Trim(luggageId)
                             && ps[FindByLuggage(ps, Trim(luggageId)).value].flightId != flightId
  {
    if flightId == "" then "Select a flight."
    else if LuggageError(luggageId) != "" then LuggageError(luggageId)
    else match FindByLuggage(ps, Trim(luggageId))
      case None => "No passenger matches this luggage ID."
      case Some(k) =>
        if ps[k].flightId != flightId then "Luggage does not belong to the selected flight." else ""
  }

  /** The location written on the event: `Ramp for Gate <gate>` trimmed, where the gate
      is that of the selected flight, or empty when the flight is not found. */
  function RampLocation(fs: seq<Flight>, flightId: string): (r: string)
    ensures Trim(r) == r
  {
    var full := "Ramp for Gate " + match FindFlight(fs, flightId) case Some(f) => f.gate case None => "";
    TrimIdempotent(full);
    Trim(full)
  }

  /** The gate written on the event: the selected flight's, absent when it is not found. */
  function FlightGate(fs: seq<Flight>, flightId: string): (g: Option<string>)
    ensures g.None? <==> flightId !in FlightIds(fs)
    ensures g.Some? ==>
              exists i :: 0 <= i < |fs| && fs[i].id == flightId && (forall j :: 0 <= j < i ==> fs[j].id != flightId)
                          && g.value == fs[i].gate
  {
    match FindFlight(fs, flightId)
    case Some(f) => Some(f.gate)
    case None => None
  }

  /** The whole effect of pressing "Load". */
  function Step(s: AppState, flightId: string, luggageId: string, eventId: string, now: string, toastId: string): (t: AppState)
    ensures t.currentUser == s.currentUser && t.users == s.users && t.flights == s.flights
    ensures t.passengers == s.passengers && t.messages == s.messages
    ensures |t.toasts| == |s.toasts| + 1 && t.toasts[1..] == s.toasts && t.toasts[0].id == toastId
    ensures LoadError(s.passengers, flightId, luggageId) != "" ==>
              t.bagEvents == s.bagEvents && t.toasts[0].kind == Error && t.toasts[0].title == "Cannot load bag"
    ensures LoadError(s.passengers, flightId, luggageId) == "" ==>
              && |t.bagEvents| == |s.bagEvents| + 1 && t.bagEvents[1..] == s.bagEvents
              && t.bagEvents[0].luggageId == Trim(luggageId) && IsLuggageIdValid(t.bagEvents[0].luggageId)
              && t.bagEvents[0].status == LoadedPlane
              && t.bagEvents[0].gate == FlightGate(s.flights, flightId)
              && t.bagEvents[0].location == RampLocation(s.flights, flightId)
              && t.bagEvents[0].id == eventId && t.bagEvents[0].timestamp == now
              && t.toasts[0].kind == Success
  {
    var e := LoadError(s.passengers, flightId, luggageId);
    if e != "" then
      s.(toasts := Post(s.toasts, toastId, Notice(Error, "Cannot load bag", Some(e))))
    else
      s.(bagEvents := [BagEvent(eventId, Trim(luggageId), now, RampLocation(s.flights, flightId), LoadedPlane,
                                FlightGate(s.flights, flightId))] + s.bagEvents,
         toasts := Post(s.toasts, toastId, Notice(Success, "Bag loaded", None)))
  }

  /** `onLoad` on the store. */
  method OnLoad(store: AppStore, flightId: string, luggageId: string, eventId: string, now: string, toastId: string)
    returns (error: string)
    requires store.Valid()
    requires eventId !in BagEventIds(store.bagEvents) && toastId !in ToastIds(store.toasts)
    modifies store
    ensures store.Valid()
    ensures error == LoadError(old(store.passengers), flightId, luggageId)
    ensures store.State() == Step(old(store.State()), flightId, luggageId, eventId, now, toastId)
  {
    error := LoadError(store.passengers, flightId, luggageId);
    if error != "" {
      store.AddToast(toastId, Notice(Error, "Cannot load bag", Some(error)));
      return;
    }
    store.AddBagEvent(eventId, now, NewBagEvent(Trim(luggageId), RampLocation(store.flights, flightId), LoadedPlane,
                                                FlightGate(store.flights, flightId)));
    store.AddToast(toastId, Notice(Success, "Bag loaded", None));
  }

  /** With a gate that has no whitespace at its ends, trimming keeps the whole text. */
  lemma RampWithGate(gate: string)
    requires gate != [] && !IsWhitespace(gate[0]) && !IsWhitespace(gate[|gate| - 1])
    ensures Trim("Ramp for Gate " + gate) == "Ramp for Gate " + gate
  {
    var full := "Ramp for Gate " + gate;
    assert full[0] == 'R' && full[|full| - 1] == gate[|gate| - 1];
    TrimKeeps(full);
  }

  /** Without a gate, trimming drops the trailing space. */
  lemma RampWithoutGate()
    ensures Trim("Ramp for Gate " + "") == "Ramp for Gate"
  {
    var full := "Ramp for Gate ";
    assert full + "" == full;
    assert !IsWhitespace(full[0]);
    assert TrimStart(full) == full;
    assert IsWhitespace(full[|full| - 1]);
    assert full[..|full| - 1] == "Ramp for Gate";
    assert !IsWhitespace("Ramp for Gate"[12]);
    assert TrimEnd("Ramp for Gate") == "Ramp for Gate";
  }

  /** The location reads "Ramp for Gate <gate>" for a gate with no whitespace at its
      ends, and "Ramp for Gate" when there is no gate to show. */
  lemma {:induction false} RampLocationShape(fs: seq<Flight>, flightId: string)
    ensures var g := FlightGate(fs, flightId);
            && ((g.Some? && g.value != [] && !IsWhitespace(g.value[0]) && !IsWhitespace(g.value[|g.value| - 1]))
                  ==> RampLocation(fs, flightId) == "Ramp for Gate " + g.value)
            && ((g.None? || g.value == []) ==> RampLocation(fs, flightId) == "Ramp for Gate")
  {
    var g := FlightGate(fs, flightId);
    if g.Some? && g.value != [] && !IsWhitespace(g.value[0]) && !IsWhitespace(g.value[|g.value| - 1]) {
      RampWithGate(g.value);
    } else if g.None? || g.value == [] {
      RampWithoutGate();
    }
  }
}

=== FILE: login_page.dfy ===
/**
 * The sign-in form: the username is required and must have the username format unless
 * it is the administrator's name; the password is required and must satisfy the
 * password rule. Only a clean form reaches `login`, with the trimmed username and the
 * password exactly as typed.
 */
module LoginPage {
  import opened Options
  import opened Text
  import opened Validation
  import opened Entities
  import opened AppContext
  import opened Guards

  /** `errors` (a missing key is `None`). */
  datatype Errors = Errors(username: Option<string>, password: Option<string>) {
    predicate Any() { username.Some? || password.Some? }
  }

  function ErrorsOf(username: string, password: string): (e: Errors)
    ensures !e.Any() <==> && !IsBlank(username) && (IsAdminName(username) || IsUsernameValid(Trim(username)))
                          && IsPasswordValid(password)
  {
    Errors(UsernameFormatMessage(username), PasswordMessage(password, "Password is required."))
  }

  /** The whole effect of submitting the form. */
  function Step(s: AppState, username: string, password: string, toastId: string): (t: AppState)
    ensures t.users == s.users && t.flights == s.flights && t.passengers == s.passengers
    ensures t.bagEvents == s.bagEvents && t.messages == s.messages
    ensures |t.toasts| == |s.toasts| + 1 && t.toasts[1..] == s.toasts && t.toasts[0].id == toastId
    ensures t.toasts[0].kind == Success <==> !ErrorsOf(username, password).Any() && Authenticate(s.users, Trim(username), password).Some?
    ensures ErrorsOf(username, password).Any() ==> t.currentUser == s.currentUser && t.toasts[0].title == "Fix the login fields"
    ensures !ErrorsOf(username, password).Any() ==>
              match Authenticate(s.users, Trim(username), password)
              case None => t.currentUser == s.currentUser && t.toasts[0].title == "Login failed"
              case Some(u) => t.currentUser == Some(u) && SameIgnoringCase(u.username, Trim(username)) && u.password == password
  {
    if ErrorsOf(username, password).Any() then
      s.(toasts := Post(s.toasts, toastId, Notice(Error, "Fix the login fields", Some("Please correct the highlighted validation issues."))))
    else match Authenticate(s.users, Trim(username), password)
      case None => s.(toasts := Post(s.toasts, toastId, Notice(Error, "Login failed", Some("Invalid username or password."))))
      case Some(u) => s.(currentUser := Some(u), toasts := Post(s.toasts, toastId, Notice(Success, "Welcome", Some("You are signed in."))))
  }

  /** `onSubmit` on the store. */
  method OnSubmit(store: AppStore, username: string, password: string, toastId: string) returns (signedIn: bool)
    requires store.Valid() && toastId !in ToastIds(store.toasts)
    modifies store
    ensures store.Valid()
    ensures store.State() == Step(old(store.State()), username, password, toastId)
    ensures signedIn <==> !ErrorsOf(username, password).Any() && Authenticate(old(store.users), Trim(username), password).Some?
  {
    if ErrorsOf(username, password).Any() {
      store.AddToast(toastId, Notice(Error, "Fix the login fields", Some("Please correct the highlighted validation issues.")));
      return false;
    }
    var res := store.Login(Trim(username), password);
    if res.Failed? {
      store.AddToast(toastId, Notice(Error, "Login failed", Some(res.error)));
      return false;
    }
    store.AddToast(toastId, Notice(Success, "Welcome", Some("You are signed in.")));
    signedIn := true;
  }
}

=== FILE: manage_flights.dfy ===
/**
 * The admin's flight form and flight list. Every field is required once trimmed and
 * the flight number must be two letters and four digits; there is no uniqueness check.
 * An accepted form adds a flight whose number, origin, destination and gate are
 * trimmed and upper-cased and whose departure time is the ISO form of the entered
 * local time. Removing a flight leaves its passengers in place.
 */
module ManageFlights {
  import opened Options
  import opened Text
  import opened Validation
  import opened Entities
  import opened AppContext

  datatype Form = Form(airlineFlightNo: string, origin: string, destination: string,
                       departureTime: string, gate: string)

  const EmptyForm := Form("", "", "", "", "")

  /** `errors` (a missing key is `None`). */
  datatype Errors = Errors(airlineFlightNo: Option<string>, origin: Option<string>, destination: Option<string>,
                           departureTime: Option<string>, gate: Option<string>)
  {
    predicate Any() {
      airlineFlightNo.Some? || origin.Some? || destination.Some? || departureTime.Some? || gate.Some?
    }
  }

  /** Everything the form demands, stated field by field. Existing flights play no part. */
  predicate Acceptable(f: Form) {
    && IsAirlineFlightNoValid(Trim(f.airlineFlightNo))
    && !IsBlank(f.origin) && !IsBlank(f.destination) && !IsBlank(f.departureTime) && !IsBlank(f.gate)
  }

  /** The flight-number field: required, then two letters and four digits. */
  function FlightNoMessage(airlineFlightNo: string): (m: Option<string>)
    ensures m.Some? <==> !IsAirlineFlightNoValid(Trim(airlineFlightNo))
    ensures m == Some("Flight number is required.") <==> IsBlank(airlineFlightNo)
  {
    EmptyIsInvalid();
    if !IsBlank(airlineFlightNo) && !IsAirlineFlightNoValid(Trim(airlineFlightNo)) then
      Some("Format: 2 letters + 4 digits (example: AA1234).")
    else if IsBlank(airlineFlightNo) then Some("Flight number is required.")
    else None
  }

  function Required(field: string, message: string): Option<string> {
    if IsBlank(field) then Some(message) else None
  }

  /** The checks of the form; it is accepted exactly when no field carries a message. */
  function ErrorsOf(f: Form): (e: Errors)
    ensures e.origin.Some? <==> IsBlank(f.origin)
    ensures e.destination.Some? <==> IsBlank(f.destination)
    ensures e.departureTime.Some? <==> IsBlank(f.departureTime)
    ensures e.gate.Some? <==> IsBlank(f.gate)
    ensures !e.Any() <==> Acceptable(f)
  {
    Errors(FlightNoMessage(f.airlineFlightNo), Required(f.origin, "Origin is required."),
           Required(f.destination, "Destination is required."),
           Required(f.departureTime, "Departure time is required."), Required(f.gate, "Gate is required."))
  }

  /** The flight handed to `addFlight`. `departureIso` is the ISO string of the entered time. */
  function NewRecord(f: Form, departureIso: string): NewFlight {
    NewFlight(ToUpper(Trim(f.airlineFlightNo)), ToUpper(Trim(f.origin)), ToUpper(Trim(f.destination)),
              departureIso, ToUpper(Trim(f.gate)))
  }

  /**
   * The whole effect of submitting the form. `departureIso` is what converting the
   * entered time to an ISO string yields; `None` stands for a time that does not parse,
   * where the conversion throws and the handler stops with nothing changed.
   */
  function Step(s: AppState, f: Form, departureIso: Option<string>, flightId: string, toastId: string): (t: AppState)
    ensures t.currentUser == s.currentUser && t.users == s.users && t.passengers == s.passengers
    ensures t.bagEvents == s.bagEvents && t.messages == s.messages
    ensures Acceptable(f) && departureIso.None? ==> t == s
    ensures !Acceptable(f) || departureIso.Some? ==>
              |t.toasts| == |s.toasts| + 1 && t.toasts[1..] == s.toasts && t.toasts[0].id == toastId
    ensures !Acceptable(f) ==> t == s.(toasts := t.toasts) && t.toasts[0].kind == Error
    ensures Acceptable(f) && departureIso.Some? ==>
              && t.toasts[0].kind == Success
              && |t.flights| == |s.flights| + 1 && t.flights[..|s.flights|] == s.flights
              && var g := t.flights[|s.flights|];
              && g.id == flightId && g.departureTime == departureIso.value
              && |g.airlineFlightNo| == |Trim(f.airlineFlightNo)| && |g.origin| == |Trim(f.origin)|
              && |g.destination| == |Trim(f.destination)| && |g.gate| == |Trim(f.gate)|
              && SameIgnoringCase(g.airlineFlightNo, Trim(f.airlineFlightNo))
              && SameIgnoringCase(g.origin, Trim(f.origin))
              && SameIgnoringCase(g.destination, Trim(f.destination))
              && SameIgnoringCase(g.gate, Trim(f.gate))
              && g.airlineFlightNo == ToUpper(Trim(f.airlineFlightNo)) && g.origin == ToUpper(Trim(f.origin))
              && g.destination == ToUpper(Trim(f.destination)) && g.gate == ToUpper(Trim(f.gate))
    ensures !Acceptable(f) || departureIso.None? ==> t.flights == s.flights
  {
    if ErrorsOf(f).Any() then
      s.(toasts := Post(s.toasts, toastId, Notice(Error, "Fix flight fields", Some("Missing or invalid flight information."))))
    else match departureIso
      case None => s
      case Some(iso) =>
        var r := NewRecord(f, iso);
        UpperKeepsCase(Trim(f.airlineFlightNo));
        UpperKeepsCase(Trim(f.origin));
        UpperKeepsCase(Trim(f.destination));
        UpperKeepsCase(Trim(f.gate));
        s.(flights := s.flights + [Flight(flightId, r.airlineFlightNo, r.origin, r.destination, r.departureTime, r.gate)],
           toasts := Post(s.toasts, toastId, Notice(Success, "Flight added", None)))
  }

  /** Upper-casing only changes the case of ASCII letters. */
  lemma UpperKeepsCase(s: string)
    ensures SameIgnoringCase(ToUpper(s), s)
  {
    var u := ToUpper(s);
    assert forall i :: 0 <= i < |s| ==> LowerChar(u[i]) == LowerChar(s[i]);
    assert ToLower(u) == ToLower(s);
  }

  /** `onAdd` on the store; `after` is the form as left on the page (cleared once the
      flight is added). */
  method OnAdd(store: AppStore, f: Form, departureIso: Option<string>, flightId: string, toastId: string)
    returns (after: Form)
    requires store.Valid()
    requires flightId !in FlightIds(store.flights) && toastId !in ToastIds(store.toasts)
    modifies store
    ensures store.Valid()
    ensures store.State() == Step(old(store.State()), f, departureIso, flightId, toastId)
    ensures after == if Acceptable(f) && departureIso.Some? then EmptyForm else f
  {
    var errors := ErrorsOf(f);
    if errors.Any() {
      store.AddToast(toastId, Notice(Error, "Fix flight fields", Some("Missing or invalid flight information.")));
      return f;
    }
    if departureIso.None? {
      return f;
    }
    var _ := store.AddFlight(flightId, NewRecord(f, departureIso.value));
    store.AddToast(toastId, Notice(Success, "Flight added", None));
    after := EmptyForm;
  }

  /** The Remove button: the flight goes, its passengers stay. */
  method OnRemove(store: AppStore, flightId: string)
    requires store.Valid()
    modifies store
    ensures store.Valid()
    ensures store.State() == old(store.State()).(flights := RemoveFlightById(old(store.flights), flightId))
    ensures flightId !in FlightIds(store.flights)
  {
    store.RemoveFlight(flightId);
  }

  /** The Details button's toast: number, origin, an arrow and destination. */
  function DetailsNotice(g: Flight): (n: Notice)
    ensures n.kind == Info && n.title == "Flight details"
    ensures n.message.Some? && |n.message.value| == |g.airlineFlightNo| + |g.origin| + |g.destination| + 2
    ensures var m, a, o := n.message.value, |g.airlineFlightNo|, |g.origin|;
            && m[..a] == g.airlineFlightNo && m[a] == ' '
            && m[a + 1..a + 1 + o] == g.origin && m[a + 1 + o] == '→'
            && m[a + 2 + o..] == g.destination
  {
    Notice(Info, "Flight details", Some(g.airlineFlightNo + " " + g.origin + "→" + g.destination))
  }

  /** A stored flight number is in canonical form: it still passes the format check and
      holds no lower-case letter. */
  lemma {:induction false} StoredFlightNoCanonical(f: Form)
    requires Acceptable(f)
    ensures var no := NewRecord(f, "").airlineFlightNo;
            IsAirlineFlightNoValid(no) && forall i :: 0 <= i < |no| ==> !('a' <= no[i] <= 'z')
  {
    var t := Trim(f.airlineFlightNo);
    AirlineFlightNoValidIff(t);
    UpperKeepsShape(t);
    AirlineFlightNoValidIff(ToUpper(t));
  }

  /** A flight the form adds is stored in canonical form: its number passes the format
      check and none of its number, origin, destination or gate holds a lower-case letter. */
  lemma {:induction false} AddedFlightCanonical(s: AppState, f: Form, iso: string, flightId: string, toastId: string)
    requires Acceptable(f)
    ensures var g := Step(s, f, Some(iso), flightId, toastId).flights[|s.flights|];
            && IsAirlineFlightNoValid(g.airlineFlightNo)
            && (forall i :: 0 <= i < |g.airlineFlightNo| ==> !('a' <= g.airlineFlightNo[i] <= 'z'))
            && (forall i :: 0 <= i < |g.origin| ==> !('a' <= g.origin[i] <= 'z'))
            && (forall i :: 0 <= i < |g.destination| ==> !('a' <= g.destination[i] <= 'z'))
            && (forall i :: 0 <= i < |g.gate| ==> !('a' <= g.gate[i] <= 'z'))
  {
    StoredFlightNoCanonical(f);
  }

  /** Upper-casing two letters and four digits yields two letters and four digits. */
  lemma {:induction false} UpperKeepsShape(t: string)
    requires TwoLettersFourDigits(t)
    ensures TwoLettersFourDigits(ToUpper(t))
  {
    var u := ToUpper(t);
    assert u[0] == UpperChar(t[0]) && u[1] == UpperChar(t[1]);
  }

  /** After a flight is removed, each of its passengers is still listed and shows
      "Missing flight". */
  lemma {:induction false} RemovedFlightShowsMissing(fs: seq<Flight>, flightId: string, p: Passenger)
    requires p.flightId == flightId
    ensures FlightLabel(RemoveFlightById(fs, flightId), p.flightId) == "Missing flight"
  {
    var r := RemoveFlightById(fs, flightId);
    assert flightId !in FlightIds(r);
  }
}

=== FILE: manage_passengers.dfy ===
/**
 * The admin's passenger form. Every field is required; email, phone, ticket and luggage
 * id must pass their validators once trimmed; the ticket and the luggage id must not
 * already belong to a passenger. The checks run in the page's order, so a later message
 * for a field replaces an earlier one. An accepted form adds a passenger with the
 * trimmed values and clears the form.
 */
module ManagePassengers {
  import opened Options
  import opened Text
  import opened Validation
  import opened Entities
  import opened AppContext
  import opened Guards

  /** The six inputs of the form; `flightId` comes from a select and is not trimmed. */
  datatype Form = Form(fullName: string, email: string, phone: string, ticketNumber: string,
                       luggageId: string, flightId: string)

  const EmptyForm := Form("", "", "", "", "", "")

  predicate TicketTaken(ps: seq<Passenger>, ticket: string) {
    exists j :: 0 <= j < |ps| && ps[j].ticketNumber == ticket
  }

  predicate LuggageTaken(ps: seq<Passenger>, luggageId: string) {
    exists j :: 0 <= j < |ps| && ps[j].luggageId == luggageId
  }

  /** Everything the form demands, stated field by field. */
  predicate Acceptable(ps: seq<Passenger>, f: Form) {
    && !IsBlank(f.fullName)
    && IsEmailValid(Trim(f.email)) && IsPhoneValid(Trim(f.phone))
    && IsTicketValid(Trim(f.ticketNumber)) && !TicketTaken(ps, Trim(f.ticketNumber))
    && IsLuggageIdValid(Trim(f.luggageId)) && !LuggageTaken(ps, Trim(f.luggageId))
    && f.flightId != ""
  }

  /** The ticket field: required, ten digits, and not already used. Of the checks that
      fail, the page keeps the last one's message. */
  function TicketMessage(ps: seq<Passenger>, ticket: string): (m: Option<string>)
    ensures m.Some? <==> !IsTicketValid(Trim(ticket)) || TicketTaken(ps, Trim(ticket))
    ensures !IsBlank(ticket) && TicketTaken(ps, Trim(ticket)) ==> m == Some("Ticket number already exists.")
  {
    EmptyIsInvalid();
    if !IsBlank(ticket) && TicketTaken(ps, Trim(ticket)) then Some("Ticket number already exists.")
    else if !IsBlank(ticket) && !IsTicketValid(Trim(ticket)) then Some("Ticket number must be 10 digits.")
    else if IsBlank(ticket) then Some("Ticket number is required.")
    else None
  }

  /** The luggage field: required, six digits, and not already used. */
  function LuggageMessage(ps: seq<Passenger>, luggageId: string): (m: Option<string>)
    ensures m.Some? <==> !IsLuggageIdValid(Trim(luggageId)) || LuggageTaken(ps, Trim(luggageId))
    ensures !IsBlank(luggageId) && LuggageTaken(ps, Trim(luggageId)) ==> m == Some("Luggage ID already exists.")
  {
    EmptyIsInvalid();
    if !IsBlank(luggageId) && LuggageTaken(ps, Trim(luggageId)) then Some("Luggage ID already exists.")
    else if !IsBlank(luggageId) && !IsLuggageIdValid(Trim(luggageId)) then Some("Luggage ID must be 6 digits.")
    else if IsBlank(luggageId) then Some("Luggage ID is required.")
    else None
  }

  /** `errors`: the message each field ends up with, if any (a missing key is `None`). */
  datatype Errors = Errors(fullName: Option<string>, email: Option<string>, phone: Option<string>,
                           ticketNumber: Option<string>, luggageId: Option<string>, flightId: Option<string>)
  {
    /** `Object.keys(errors).length > 0` */
    predicate Any() {
      fullName.Some? || email.Some? || phone.Some? || ticketNumber.Some? || luggageId.Some? || flightId.Some?
    }
  }

  /** The checks of the form, field by field; the form is accepted exactly when no field
      carries a message. */
  function ErrorsOf(ps: seq<Passenger>, f: Form): (e: Errors)
    ensures e.fullName.Some? <==> IsBlank(f.fullName)
    ensures e.email.Some? <==> !IsEmailValid(Trim(f.email))
    ensures e.phone.Some? <==> !IsPhoneValid(Trim(f.phone))
    ensures e.ticketNumber.Some? <==> !IsTicketValid(Trim(f.ticketNumber)) || TicketTaken(ps, Trim(f.ticketNumber))
    ensures e.luggageId.Some? <==> !IsLuggageIdValid(Trim(f.luggageId)) || LuggageTaken(ps, Trim(f.luggageId))
    ensures e.flightId.Some? <==> f.flightId == ""
    ensures !e.Any() <==> Acceptable(ps, f)
  {
    Errors(if IsBlank(f.fullName) then Some("Name is required.") else None,
           EmailMessage(f.email), PhoneMessage(f.phone),
           TicketMessage(ps, f.ticketNumber), LuggageMessage(ps, f.luggageId),
           if f.flightId == "" then Some("Flight is required.") else None)
  }

  /** The record handed to `addPassenger`. */
  function NewRecord(f: Form): NewPassenger {
    NewPassenger(Trim(f.fullName), Trim(f.email), Trim(f.phone), Trim(f.ticketNumber), f.flightId, Trim(f.luggageId))
  }

  /** The whole effect of submitting the form. */
  function Step(s: AppState, f: Form, passengerId: string, toastId: string): (t: AppState)
    ensures t.currentUser == s.currentUser && t.users == s.users && t.flights == s.flights
    ensures t.bagEvents == s.bagEvents && t.messages == s.messages
    ensures |t.toasts| == |s.toasts| + 1 && t.toasts[1..] == s.toasts && t.toasts[0].id == toastId
    ensures !Acceptable(s.passengers, f) ==> t.passengers == s.passengers && t.toasts[0].kind == Error
    ensures Acceptable(s.passengers, f) ==>
              && |t.passengers| == |s.passengers| + 1 && t.passengers[..|s.passengers|] == s.passengers
              && var p := t.passengers[|s.passengers|];
              && p.id == passengerId && p.fullName == Trim(f.fullName) && p.email == Trim(f.email)
              && p.phone == Trim(f.phone) && p.ticketNumber == Trim(f.ticketNumber)
              && p.luggageId == Trim(f.luggageId) && p.flightId == f.flightId
              && !p.checkedIn && !p.boarded
              && t.toasts[0].kind == Success
  {
    if ErrorsOf(s.passengers, f).Any() then
      s.(toasts := Post(s.toasts, toastId, Notice(Error, "Fix passenger fields", Some("Missing or invalid passenger information."))))
    else
      var r := NewRecord(f);
      s.(passengers := s.passengers + [Passenger(passengerId, r.fullName, r.email, r.phone, r.ticketNumber, r.flightId, r.luggageId, false, false)],
         toasts := Post(s.toasts, toastId, Notice(Success, "Passenger added", None)))
  }

  /** `onAdd` on the store; `after` is the form as left on the page (cleared on success). */
  method OnAdd(store: AppStore, f: Form, passengerId: string, toastId: string) returns (after: Form)
    requires store.Valid()
    requires passengerId !in PassengerIds(store.passengers) && toastId !in ToastIds(store.toasts)
    modifies store
    ensures store.Valid()
    ensures store.State() == Step(old(store.State()), f, passengerId, toastId)
    ensures after == if Acceptable(old(store.passengers), f) then EmptyForm else f
  {
    var errors := ErrorsOf(store.passengers, f);
    if errors.Any() {
      store.AddToast(toastId, Notice(Error, "Fix passenger fields", Some("Missing or invalid passenger information.")));
      return f;
    }
    var _ := store.AddPassenger(passengerId, NewRecord(f));
    store.AddToast(toastId, Notice(Success, "Passenger added", None));
    after := EmptyForm;
  }

  /** The roster's flight column: the flight number, or "Missing flight" for a passenger
      whose flight was removed. */
  function RosterFlight(fs: seq<Flight>, p: Passenger): (shown: string)
    ensures p.flightId !in FlightIds(fs) ==> shown == "Missing flight"
    ensures p.flightId in FlightIds(fs) ==>
              exists i :: 0 <= i < |fs| && fs[i].id == p.flightId && (forall j :: 0 <= j < i ==> fs[j].id != p.flightId)
                          && shown == fs[i].airlineFlightNo
  {
    FlightLabel(fs, p.flightId)
  }
}

=== FILE: manage_staff.dfy ===
/**
 * The admin's staff form. The username must be present, follow the username format
 * (the name "admin" is exempt), not be an email address and not match an existing
 * username ignoring case; the password must pass the password rule; email and phone
 * must pass their validators once trimmed. An accepted form adds the user and clears
 * every field but the role.
 */
module ManageStaff {
  import opened Options
  import opened Text
  import opened Validation
  import opened Entities
  import opened AppContext
  import opened Guards

  /** The inputs of the form. The airline code and the station are collected but never
      stored. */
  datatype Form = Form(role: Role, username: string, password: string, email: string, phone: string,
                       airlineCode: string, station: string)

  /** The form after a successful add: everything cleared but the role. */
  function Cleared(f: Form): Form {
    Form(f.role, "", "", "", "", "", "")
  }

  predicate UsernameTaken(us: seq<User>, name: string) {
    exists j :: 0 <= j < |us| && SameIgnoringCase(us[j].username, name)
  }

  /** Everything the form demands, stated field by field. */
  predicate Acceptable(us: seq<User>, f: Form) {
    && !IsBlank(f.username)
    && (IsAdminName(f.username) || IsUsernameValid(Trim(f.username)))
    && !IsEmailValid(Trim(f.username))
    && !UsernameTaken(us, Trim(f.username))
    && IsPasswordValid(f.password)
    && IsEmailValid(Trim(f.email)) && IsPhoneValid(Trim(f.phone))
  }

  /** The username field. The page runs four checks and the last failing one supplies the
      message: a taken name, then an email-shaped name, then the format, then presence. */
  function UsernameMessage(us: seq<User>, username: string): (m: Option<string>)
    ensures m.Some? <==> || UsernameFormatMessage(username).Some?
                         || IsEmailValid(Trim(username)) || UsernameTaken(us, Trim(username))
    ensures !IsBlank(username) && UsernameTaken(us, Trim(username)) ==> m == Some("Username must be unique.")
    ensures !IsBlank(username) && !UsernameTaken(us, Trim(username)) && IsEmailValid(Trim(username)) ==>
              m == Some("Do not use an email address as username.")
  {
    if !IsBlank(username) && UsernameTaken(us, Trim(username)) then Some("Username must be unique.")
    else if !IsBlank(username) && IsEmailValid(Trim(username)) then Some("Do not use an email address as username.")
    else UsernameFormatMessage(username)
  }

  /** `errors` (a missing key is `None`). */
  datatype Errors = Errors(username: Option<string>, password: Option<string>, email: Option<string>,
                           phone: Option<string>)
  {
    predicate Any() { username.Some? || password.Some? || email.Some? || phone.Some? }
  }

  /** The checks of the form; it is accepted exactly when no field carries a message. */
  function ErrorsOf(us: seq<User>, f: Form): (e: Errors)
    ensures e.password.Some? <==> !IsPasswordValid(f.password)
    ensures e.email.Some? <==> !IsEmailValid(Trim(f.email))
    ensures e.phone.Some? <==> !IsPhoneValid(Trim(f.phone))
    ensures !e.Any() <==> Acceptable(us, f)
  {
    Errors(UsernameMessage(us, f.username), PasswordMessage(f.password, "Password is required."), EmailMessage(f.email), PhoneMessage(f.phone))
  }

  /** The record handed to `addUser`: trimmed username, email and phone; the password as typed. */
  function NewRecord(f: Form): NewUser {
    NewUser(Trim(f.username), f.password, f.role, Some(Trim(f.email)), Some(Trim(f.phone)))
  }

  /** The whole effect of submitting the form. */
  function Step(s: AppState, f: Form, userId: string, toastId: string): (t: AppState)
    ensures t.currentUser == s.currentUser && t.flights == s.flights && t.passengers == s.passengers
    ensures t.bagEvents == s.bagEvents && t.messages == s.messages
    ensures |t.toasts| == |s.toasts| + 1 && t.toasts[1..] == s.toasts && t.toasts[0].id == toastId
    ensures !Acceptable(s.users, f) ==> t.users == s.users && t.toasts[0].kind == Error
    ensures Acceptable(s.users, f) ==>
              && t.users == s.users + [User(userId, Trim(f.username), f.password, f.role, Some(Trim(f.email)), Some(Trim(f.phone)))]
              && (forall j :: 0 <= j < |s.users| ==> !SameIgnoringCase(s.users[j].username, Trim(f.username)))
              && IsPasswordValid(f.password)
              && t.toasts[0].kind == Success
  {
    if ErrorsOf(s.users, f).Any() then
      s.(toasts := Post(s.toasts, toastId, Notice(Error, "Fix user fields", Some("Missing or invalid staff/user information."))))
    else
      var r := NewRecord(f);
      s.(users := s.users + [User(userId, r.username, r.password, r.role, r.email, r.phone)],
         toasts := Post(s.toasts, toastId, Notice(Success, "User created", Some("Password is hidden and never displayed."))))
  }

  /** `onAdd` on the store; `after` is the form as left on the page. */
  method OnAdd(store: AppStore, f: Form, userId: string, toastId: string) returns (after: Form)
    requires store.Valid()
    requires userId !in UserIds(store.users) && toastId !in ToastIds(store.toasts)
    modifies store
    ensures store.Valid()
    ensures store.State() == Step(old(store.State()), f, userId, toastId)
    ensures after == if Acceptable(old(store.users), f) then Cleared(f) else f
  {
    var errors := ErrorsOf(store.users, f);
    if errors.Any() {
      store.AddToast(toastId, Notice(Error, "Fix user fields", Some("Missing or invalid staff/user information.")));
      return f;
    }
    var _ := store.AddUser(userId, NewRecord(f));
    store.AddToast(toastId, Notice(Success, "User created", Some("Password is hidden and never displayed.")));
    after := Cleared(f);
  }

  /** An email-shaped name already fails the format rule, so the email check only
      changes which message is shown, never whether the form is accepted. */
  lemma {:induction false} EmailRuleOnlyChangesMessage(username: string)
    requires IsEmailValid(Trim(username))
    ensures UsernameFormatMessage(username).Some?
  {
    var t := Trim(username);
    EmailValidIff(t);
    var a :| EmailShapedAt(t, a);
    UsernameValidIff(t);
    assert !IsAsciiLetter(t[a]) && !IsDigit(t[a]);
    assert !IsUsernameValid(t);
    assert ToLower(t)[a] == '@';
    assert ToLower(t) != "admin";
  }

  /** No two usernames equal ignoring case. */
  predicate NamesUnique(us: seq<User>) {
    forall i, j :: 0 <= i < j < |us| ==> !SameIgnoringCase(us[i].username, us[j].username)
  }

  /** The staff form keeps usernames unique ignoring case. */
  lemma {:induction false} AddKeepsNamesUnique(s: AppState, f: Form, userId: string, toastId: string)
    requires NamesUnique(s.users)
    ensures NamesUnique(Step(s, f, userId, toastId).users)
  {
    var t := Step(s, f, userId, toastId);
    if Acceptable(s.users, f) {
      forall i, j | 0 <= i < j < |t.users|
        ensures !SameIgnoringCase(t.users[i].username, t.users[j].username)
      {
        if j == |s.users| {
          assert !SameIgnoringCase(s.users[i].username, Trim(f.username));
        }
      }
    }
  }
}

=== FILE: options.dfy ===
/** The optional value used for JavaScript's `undefined`/`null` and for "not found". */
module Options {

  datatype Option<+T> = None | Some(value: T) {

    /** The wrapped value, or `default` when there is none (JavaScript's `x ?? default`). */
    function GetOr(default: T): T {
      match this
      case Some(v) => v
      case None => default
    }
  }
}

=== FILE: password_reset_page.dfy ===
/**
 * The password-reset form: the username is required (no format check), the new
 * password must satisfy the password rule, and the confirmation must equal it exactly.
 * Only a clean form reaches `resetPassword`, with the trimmed username.
 */
module PasswordResetPage {
  import opened Options
  import opened Text
  import opened Validation
  import opened Entities
  import opened AppContext
  import opened Guards

  /** `errors` (a missing key is `None`). */
  datatype Errors = Errors(username: Option<string>, newPassword: Option<string>, confirm: Option<string>) {
    predicate Any() { username.Some? || newPassword.Some? || confirm.Some? }
  }

  function ConfirmMessage(newPassword: string, confirm: string): (m: Option<string>)
    ensures m.Some? <==> confirm == "" || (newPassword != "" && confirm != newPassword)
  {
    if confirm != "" && newPassword != "" && confirm != newPassword then Some("Passwords do not match.")
    else if confirm == "" then Some("Please confirm the new password.")
    else None
  }

  function ErrorsOf(username: string, newPassword: string, confirm: string): (e: Errors)
    ensures e.username.Some? <==> IsBlank(username)
    ensures !e.Any() <==> !IsBlank(username) && IsPasswordValid(newPassword) && confirm == newPassword
  {
    EmptyIsInvalid();
    Errors(if IsBlank(username) then Some("Username is required.") else None,
           PasswordMessage(newPassword, "New password is required."), ConfirmMessage(newPassword, confirm))
  }

  /** The whole effect of submitting the form. */
  function Step(s: AppState, username: string, newPassword: string, confirm: string, toastId: string): (t: AppState)
    ensures t.currentUser == s.currentUser && t.flights == s.flights && t.passengers == s.passengers
    ensures t.bagEvents == s.bagEvents && t.messages == s.messages
    ensures |t.toasts| == |s.toasts| + 1 && t.toasts[1..] == s.toasts && t.toasts[0].id == toastId
    ensures t.toasts[0].kind == Success <==>
              !ErrorsOf(username, newPassword, confirm).Any() && FindUserIgnoringCase(s.users, Trim(username)).Some?
    ensures t.toasts[0].kind != Success ==> t.users == s.users
    ensures t.toasts[0].kind == Success ==>
              var k := FindUserIgnoringCase(s.users, Trim(username)).value;
              && |t.users| == |s.users| && t.users[k].password == newPassword && IsPasswordValid(t.users[k].password)
              && t.users[k] == s.users[k].(password := newPassword)
              && forall i :: 0 <= i < |s.users| && i != k ==> t.users[i] == s.users[i]
  {
    if ErrorsOf(username, newPassword, confirm).Any() then
      s.(toasts := Post(s.toasts, toastId, Notice(Error, "Fix the reset fields", Some("Please correct the validation issues."))))
    else match FindUserIgnoringCase(s.users, Trim(username))
      case None => s.(toasts := Post(s.toasts, toastId, Notice(Error, "Reset failed", Some("User not found."))))
      case Some(k) =>
        s.(users := WithPassword(s.users, k, newPassword),
           toasts := Post(s.toasts, toastId, Notice(Success, "Password updated", Some("You can now sign in with the new password."))))
  }

  /** `onSubmit` on the store. */
  method OnSubmit(store: AppStore, username: string, newPassword: string, confirm: string, toastId: string)
    returns (updated: bool)
    requires store.Valid() && toastId !in ToastIds(store.toasts)
    modifies store
    ensures store.Valid()
    ensures store.State() == Step(old(store.State()), username, newPassword, confirm, toastId)
    ensures updated <==> store.toasts[0].kind == Success
  {
    if ErrorsOf(username, newPassword, confirm).Any() {
      store.AddToast(toastId, Notice(Error, "Fix the reset fields", Some("Please correct the validation issues.")));
      return false;
    }
    var res := store.ResetPassword(Trim(username), newPassword);
    if res.Failed? {
      store.AddToast(toastId, Notice(Error, "Reset failed", Some(res.error)));
      return false;
    }
    store.AddToast(toastId, Notice(Success, "Password updated", Some("You can now sign in with the new password.")));
    updated := true;
  }

  /** After a successful reset, signing in with the new password finds the same user. */
  lemma {:induction false} ResetThenLogin(s: AppState, username: string, newPassword: string, confirm: string, toastId: string)
    requires !ErrorsOf(username, newPassword, confirm).Any() && FindUserIgnoringCase(s.users, Trim(username)).Some?
    ensures var t := Step(s, username, newPassword, confirm, toastId);
            var k := FindUserIgnoringCase(s.users, Trim(username)).value;
            Authenticate(t.users, Trim(username), newPassword) == Some(t.users[k])
  {
    var t := Step(s, username, newPassword, confirm, toastId);
    var k := FindUserIgnoringCase(s.users, Trim(username)).value;
    assert forall i :: 0 <= i < |s.users| ==> t.users[i].username == s.users[i].username;
    assert FindUserIgnoringCase(t.users, Trim(username)) == Some(k);
  }
}

=== FILE: regex.dfy ===
/**
 * The fragment of JavaScript regular expressions that the validators use: a whole-string
 * match (`^...$`) of a concatenation of character-class runs `[class]{min,max}`.
 * `FullMatch` is the language such a pattern denotes: some way of cutting the input
 * into consecutive pieces, one per run, each of an allowed length and made only of
 * characters of its class (which is also what a backtracking matcher searches for).
 */
module Regex {
  import opened Options
  import opened Text

  datatype CharClass =
    | Letter                 // [A-Za-z]
    | Digit                  // \d
    | NotAtNorSpace          // [^@\s]
    | Exactly(c: char)       // a literal character, e.g. @ or \.
    | NotLineTerminator      // .

  predicate InClass(c: char, k: CharClass) {
    match k
    case Letter => IsAsciiLetter(c)
    case Digit => IsDigit(c)
    case NotAtNorSpace => c != '@' && !IsWhitespace(c)
    case Exactly(d) => c == d
    case NotLineTerminator => !IsLineTerminator(c)
  }

  predicate AllIn(s: string, k: CharClass) {
    forall i :: 0 <= i < |s| ==> InClass(s[i], k)
  }

  /** `cls{min,max}`; `max == None` is an open upper bound (`+` is `{1,}`). */
  datatype Run = Run(cls: CharClass, min: nat, max: Option<nat>)

  predicate FitsCount(r: Run, k: nat) {
    r.min <= k && (r.max.None? || k <= r.max.value)
  }

  /** `^p$` matches `s`. */
  predicate FullMatch(p: seq<Run>, s: string)
    decreases |p|, s
  {
    if p == [] then s == []
    else exists k :: 0 <= k <= |s| && FitsCount(p[0], k) && AllIn(s[..k], p[0].cls) && FullMatch(p[1..], s[k..])
  }

  /** A one-run pattern matches exactly the strings of an allowed length made of its class. */
  lemma {:induction false} FullMatchSingle(r: Run, s: string)
    ensures FullMatch([r], s) <==> FitsCount(r, |s|) && AllIn(s, r.cls)
  {
    assert [r][1..] == [];
    if FullMatch([r], s) {
      var k :| 0 <= k <= |s| && FitsCount(r, k) && AllIn(s[..k], r.cls) && FullMatch([], s[k..]);
      assert k == |s| && s[..k] == s;
    }
    if FitsCount(r, |s|) && AllIn(s, r.cls) {
      assert s[..|s|] == s && s[|s|..] == [];
    }
  }

  /** Matching a pattern that starts with `r`: cut off a prefix that `r` accepts. */
  lemma {:induction false} FullMatchCons(r: Run, p: seq<Run>, s: string)
    ensures FullMatch([r] + p, s) <==>
            exists k :: 0 <= k <= |s| && FitsCount(r, k) && AllIn(s[..k], r.cls) && FullMatch(p, s[k..])
  {
    assert ([r] + p)[0] == r;
    assert ([r] + p)[1..] == p;
  }

  /** A single literal character followed by `p`. */
  lemma {:induction false} LiteralThen(c: char, p: seq<Run>, s: string)
    ensures FullMatch([Run(Exactly(c), 1, Some(1))] + p, s) <==> |s| >= 1 && s[0] == c && FullMatch(p, s[1..])
  {
    var r := Run(Exactly(c), 1, Some(1));
    FullMatchCons(r, p, s);
    if |s| >= 1 && s[0] == c && FullMatch(p, s[1..]) {
      assert AllIn(s[..1], r.cls);
    }
  }

  /** Where a two-run pattern cuts the input. */
  predicate CutsInTwo(r1: Run, r2: Run, s: string, k: int) {
    0 <= k <= |s| && FitsCount(r1, k) && FitsCount(r2, |s| - k) && AllIn(s[..k], r1.cls) && AllIn(s[k..], r2.cls)
  }

  /** A two-run pattern matches when the input can be cut once into a piece for each run. */
  lemma {:induction false} TwoRuns(r1: Run, r2: Run, s: string)
    ensures FullMatch([r1, r2], s) <==> exists k :: CutsInTwo(r1, r2, s, k)
  {
    assert [r1, r2] == [r1] + [r2];
    FullMatchCons(r1, [r2], s);
    forall k | 0 <= k <= |s|
      ensures (FitsCount(r1, k) && AllIn(s[..k], r1.cls) && FullMatch([r2], s[k..])) <==> CutsInTwo(r1, r2, s, k)
    {
      FullMatchSingle(r2, s[k..]);
    }
    if FullMatch([r1, r2], s) {
      var k :| 0 <= k <= |s| && FitsCount(r1, k) && AllIn(s[..k], r1.cls) && FullMatch([r2], s[k..]);
      assert CutsInTwo(r1, r2, s, k);
    }
  }
}

=== FILE: seqs.dfy ===
/**
 * The array methods the application builds its state changes and views from:
 * `filter`, `find`/`findIndex`, and counting through `filter(...).length`.
 */
module Seqs {
  import opened Options

  /** `s.filter(keep)`: the elements that pass, in their original order. */
  function Filter<T>(s: seq<T>, keep: T -> bool): (r: seq<T>)
    ensures |r| <= |s|
    ensures forall i :: 0 <= i < |r| ==> keep(r[i])
    ensures multiset(r) <= multiset(s)
  {
    if s == [] then []
    else
      assert s == [s[0]] + s[1..];
      (if keep(s[0]) then [s[0]] else []) + Filter(s[1..], keep)
  }

  /** Every element that passes is kept (none is lost). */
  lemma {:induction false} FilterKeeps<T>(s: seq<T>, keep: T -> bool, i: int)
    requires 0 <= i < |s| && keep(s[i])
    ensures s[i] in Filter(s, keep)
  {
    if i > 0 {
      FilterKeeps(s[1..], keep, i - 1);
    }
  }

  /** Filtering distributes over concatenation, so it keeps the relative order. */
  lemma {:induction false} FilterAppend<T>(a: seq<T>, b: seq<T>, keep: T -> bool)
    ensures Filter(a + b, keep) == Filter(a, keep) + Filter(b, keep)
  {
    if a == [] {
      assert a + b == b;
    } else {
      assert (a + b)[0] == a[0];
      assert (a + b)[1..] == a[1..] + b;
      FilterAppend(a[1..], b, keep);
    }
  }

  /** When every element passes, filtering changes nothing. */
  lemma {:induction false} FilterAll<T>(s: seq<T>, keep: T -> bool)
    requires forall i :: 0 <= i < |s| ==> keep(s[i])
    ensures Filter(s, keep) == s
  {
    if s != [] {
      FilterAll(s[1..], keep);
    }
  }

  /** An element is in the filtered list exactly when it is in the list and passes. */
  lemma {:induction false} FilterMembers<T>(s: seq<T>, keep: T -> bool, x: T)
    ensures x in Filter(s, keep) <==> x in s && keep(x)
  {
    if s != [] {
      assert s == [s[0]] + s[1..];
      FilterMembers(s[1..], keep, x);
    }
  }

  /** `s.findIndex(p)` (with -1 as None): the first index whose element satisfies `p`. */
  function FindFirst<T>(s: seq<T>, p: T -> bool): (r: Option<nat>)
    ensures r.Some? ==> r.value < |s| && p(s[r.value]) && forall j :: 0 <= j < r.value ==> !p(s[j])
    ensures r.None? ==> forall j :: 0 <= j < |s| ==> !p(s[j])
  {
    if s == [] then None
    else if p(s[0]) then Some(0)
    else match FindFirst(s[1..], p)
      case None => None
      case Some(i) => Some(i + 1)
  }

  /** `s.filter(p).length` */
  function Count<T>(s: seq<T>, p: T -> bool): (n: nat)
    ensures n <= |s|
  {
    |Filter(s, p)|
  }
}

=== FILE: text.dfy ===
/**
 * The string primitives the application relies on: the character classes of
 * JavaScript regular expressions, `String.prototype.trim`, and ASCII case mapping.
 *
 * Whitespace is the explicit set of ECMAScript WhiteSpace and LineTerminator code
 * points, which is what both `\s` and `trim()` use. Case mapping is ASCII only.
 */
module Text {

  /** `[A-Za-z]` */
  predicate IsAsciiLetter(c: char) {
    ('A' <= c <= 'Z') || ('a' <= c <= 'z')
  }

  /** `\d`, which in JavaScript is exactly `[0-9]` */
  predicate IsDigit(c: char) {
    '0' <= c <= '9'
  }

  /** The characters that the regular-expression `.` does not match. */
  predicate IsLineTerminator(c: char) {
    c == '\n' || c == '\r' || c == '\U{2028}' || c == '\U{2029}'
  }

  /** `\s`: ECMAScript WhiteSpace (tab, vertical tab, form feed, space, no-break space,
      zero width no-break space, the Zs separators) together with LineTerminator. */
  predicate IsWhitespace(c: char) {
    || IsLineTerminator(c)
    || c == '\t' || c == '\U{000B}' || c == '\U{000C}' || c == ' '
    || c == '\U{00A0}' || c == '\U{1680}' || ('\U{2000}' <= c <= '\U{200A}')
    || c == '\U{202F}' || c == '\U{205F}' || c == '\U{3000}' || c == '\U{FEFF}'
  }

  /** Drops the leading whitespace: what remains is a suffix of `s` that does not
      start with whitespace, and everything dropped was whitespace. */
  function TrimStart(s: string): (r: string)
    ensures |r| <= |s| && r == s[|s| - |r|..]
    ensures forall i :: 0 <= i < |s| - |r| ==> IsWhitespace(s[i])
    ensures r == [] || !IsWhitespace(r[0])
  {
    if s != [] && IsWhitespace(s[0]) then TrimStart(s[1..]) else s
  }

  /** Drops the trailing whitespace: what remains is a prefix of `s` that does not
      end with whitespace, and everything dropped was whitespace. */
  function TrimEnd(s: string): (r: string)
    ensures |r| <= |s| && r == s[..|r|]
    ensures forall i :: |r| <= i < |s| ==> IsWhitespace(s[i])
    ensures r == [] || !IsWhitespace(r[|r| - 1])
  {
    if s != [] && IsWhitespace(s[|s| - 1]) then TrimEnd(s[..|s| - 1]) else s
  }

  /** How many leading characters `trim()` drops. */
  function TrimOffset(s: string): (n: nat)
    ensures n <= |s|
  {
    |s| - |TrimStart(s)|
  }

  /** `s.trim()`: a slice of `s` starting at `TrimOffset(s)`, with only whitespace
      outside it and no whitespace at either of its ends. */
  function Trim(s: string): (r: string)
    ensures TrimOffset(s) + |r| <= |s| && r == s[TrimOffset(s)..TrimOffset(s) + |r|]
    ensures forall i :: 0 <= i < TrimOffset(s) ==> IsWhitespace(s[i])
    ensures forall i :: TrimOffset(s) + |r| <= i < |s| ==> IsWhitespace(s[i])
    ensures r == [] || (!IsWhitespace(r[0]) && !IsWhitespace(r[|r| - 1]))
  {
    TrimEnd(TrimStart(s))
  }

  /** `!s.trim()`: the field is empty once trimmed. */
  predicate IsBlank(s: string) {
    Trim(s) == []
  }

  /** A string is blank exactly when every character of it is whitespace. */
  lemma {:induction false} BlankIffAllWhitespace(s: string)
    ensures IsBlank(s) <==> forall i :: 0 <= i < |s| ==> IsWhitespace(s[i])
  {
    var r := Trim(s);
    if r != [] {
      assert s[TrimOffset(s)] == r[0];
    }
  }

  /** Trimming twice is trimming once. */
  lemma {:induction false} TrimIdempotent(s: string)
    ensures Trim(Trim(s)) == Trim(s)
  {
    var r := Trim(s);
    if r != [] {
      assert !IsWhitespace(r[0]);
      assert TrimStart(r) == r;
      assert !IsWhitespace(r[|r| - 1]);
      assert TrimEnd(r) == r;
    }
  }

  /** A string that neither starts nor ends with whitespace is its own trim. */
  lemma TrimKeeps(s: string)
    requires s != [] && !IsWhitespace(s[0]) && !IsWhitespace(s[|s| - 1])
    ensures Trim(s) == s
  {
    assert TrimStart(s) == s;
  }

  /** ASCII `toLowerCase` of one character. */
  function LowerChar(c: char): char {
    if 'A' <= c <= 'Z' then (c as int + 32) as char else c
  }

  /** ASCII `toUpperCase` of one character. */
  function UpperChar(c: char): char {
    if 'a' <= c <= 'z' then (c as int - 32) as char else c
  }

  /** `s.toLowerCase()`, restricted to ASCII: the same length, each upper-case ASCII
      letter replaced by its lower-case partner, every other character kept. */
  function ToLower(s: string): (r: string)
    ensures |r| == |s|
    ensures forall i :: 0 <= i < |s| ==> !('A' <= r[i] <= 'Z')
    ensures forall i :: 0 <= i < |s| && !('A' <= s[i] <= 'Z') ==> r[i] == s[i]
    ensures forall i :: 0 <= i < |s| && 'A' <= s[i] <= 'Z' ==> r[i] == (s[i] as int + 32) as char
  {
    seq(|s|, i requires 0 <= i < |s| => LowerChar(s[i]))
  }

  /** `s.toUpperCase()`, restricted to ASCII: the same length, each lower-case ASCII
      letter replaced by its upper-case partner, every other character kept. */
  function ToUpper(s: string): (r: string)
    ensures |r| == |s|
    ensures forall i :: 0 <= i < |s| ==> !('a' <= r[i] <= 'z')
    ensures forall i :: 0 <= i < |s| && !('a' <= s[i] <= 'z') ==> r[i] == s[i]
    ensures forall i :: 0 <= i < |s| && 'a' <= s[i] <= 'z' ==> r[i] == (s[i] as int - 32) as char
  {
    seq(|s|, i requires 0 <= i < |s| => UpperChar(s[i]))
  }

  /** Case-insensitive equality as the application tests it: `a.toLowerCase() === b.toLowerCase()`. */
  predicate SameIgnoringCase(a: string, b: string) {
    ToLower(a) == ToLower(b)
  }
}

=== FILE: track_bags.dfy ===
/**
 * The passenger's bag-tracking page: the events of one luggage id, newest first, and
 * the owner's flight (or "Missing flight"). Searching changes no domain data; it posts
 * an error toast for a bad id and an information toast when there is nothing to show.
 */
module TrackBags {
  import opened Options
  import opened Text
  import opened Validation
  import opened Seqs
  import opened Entities
  import opened Guards
  import UpdateBags

  /** JavaScript's `a < b` on strings: lexicographic order on characters. */
  predicate Before(a: string, b: string) {
    if a == [] then b != []
    else if b == [] then false
    else if a[0] != b[0] then a[0] < b[0]
    else Before(a[1..], b[1..])
  }

  lemma {:induction false} BeforeAsymmetric(a: string, b: string)
    ensures Before(a, b) ==> !Before(b, a)
  {
    if a != [] && b != [] && a[0] == b[0] {
      BeforeAsymmetric(a[1..], b[1..]);
    }
  }

  lemma {:induction false} BeforeTotal(a: string, b: string)
    ensures a == b || Before(a, b) || Before(b, a)
  {
    if a != [] && b != [] && a[0] == b[0] {
      BeforeTotal(a[1..], b[1..]);
      if a[1..] == b[1..] {
        assert a == [a[0]] + a[1..] && b == [b[0]] + b[1..];
      }
    }
  }

  lemma {:induction false} BeforeTransitive(a: string, b: string, c: string)
    requires Before(a, b) && Before(b, c)
    ensures Before(a, c)
  {
    if a != [] && a[0] == b[0] && b[0] == c[0] {
      BeforeTransitive(a[1..], b[1..], c[1..]);
    }
  }

  /** "Not earlier than" is transitive too. */
  lemma NotBeforeTransitive(a: string, b: string, c: string)
    requires !Before(a, b) && !Before(b, c)
    ensures !Before(a, c)
  {
    BeforeTotal(b, c);
    if Before(a, c) && b != c {
      BeforeTransitive(a, c, b);
    }
  }

  /** Timestamps never increase along the list. */
  predicate NewestFirst(r: seq<BagEvent>) {
    forall i, j :: 0 <= i < j < |r| ==> !Before(r[i].timestamp, r[j].timestamp)
  }

  /** Puts `e` in front of the first event whose timestamp is not after `e`'s. */
  function Insert(e: BagEvent, r: seq<BagEvent>): (q: seq<BagEvent>)
    ensures multiset(q) == multiset(r) + multiset{e}
  {
    if r == [] then [e]
    else if !Before(e.timestamp, r[0].timestamp) then [e] + r
    else
      assert r == [r[0]] + r[1..];
      [r[0]] + Insert(e, r[1..])
  }

  lemma {:induction false} InsertKeepsOrder(e: BagEvent, r: seq<BagEvent>)
    requires NewestFirst(r)
    ensures NewestFirst(Insert(e, r))
  {
    if r == [] {
    } else if !Before(e.timestamp, r[0].timestamp) {
      forall j | 0 <= j < |r| ensures !Before(e.timestamp, r[j].timestamp) {
        if j > 0 {
          NotBeforeTransitive(e.timestamp, r[0].timestamp, r[j].timestamp);
        }
      }
    } else {
      var rest := r[1..];
      assert NewestFirst(rest);
      InsertKeepsOrder(e, rest);
      var q := Insert(e, rest);
      BeforeAsymmetric(e.timestamp, r[0].timestamp);
      forall j | 0 <= j < |q| ensures !Before(r[0].timestamp, q[j].timestamp) {
        assert q[j] in multiset(q);
        if q[j] != e {
          assert q[j] in multiset(rest);
          var m :| 0 <= m < |rest| && rest[m] == q[j];
          assert r[m + 1] == q[j];
        }
      }
    }
  }

  /** The sort the page applies: newest first, nothing lost or added. */
  function SortNewestFirst(es: seq<BagEvent>): (r: seq<BagEvent>)
    ensures multiset(r) == multiset(es)
    ensures NewestFirst(r)
  {
    if es == [] then []
    else
      assert es == [es[0]] + es[1..];
      var rest := SortNewestFirst(es[1..]);
      InsertKeepsOrder(es[0], rest);
      Insert(es[0], rest)
  }

  /** `events`: exactly the events of the trimmed luggage id, newest first. */
  function Events(es: seq<BagEvent>, luggageId: string): (r: seq<BagEvent>)
    ensures multiset(r) == multiset(Filter(es, UpdateBags.ForLuggage(Trim(luggageId))))
    ensures NewestFirst(r)
    ensures forall e :: e in r <==> e in es && e.luggageId == Trim(luggageId)
  {
    var mine := Filter(es, UpdateBags.ForLuggage(Trim(luggageId)));
    var r := SortNewestFirst(mine);
    assert forall e :: e in r <==> e in mine by {
      forall e ensures e in r <==> e in mine {
        assert e in r <==> e in multiset(r);
        assert e in mine <==> e in multiset(mine);
      }
    }
    assert forall e :: e in mine <==> e in es && e.luggageId == Trim(luggageId) by {
      forall e ensures e in mine <==> e in es && e.luggageId == Trim(luggageId) {
        FilterMembers(es, UpdateBags.ForLuggage(Trim(luggageId)), e);
      }
    }
    r
  }

  /** The toast `onSearch` posts, if any. */
  function OnSearch(es: seq<BagEvent>, luggageId: string): (n: Option<Notice>)
    ensures !IsLuggageIdValid(Trim(luggageId)) ==> n == Some(Notice(Error, "Invalid luggage ID", Some(LuggageError(luggageId))))
    ensures n.None? <==> IsLuggageIdValid(Trim(luggageId)) && exists e :: e in es && e.luggageId == Trim(luggageId)
    ensures n.Some? && IsLuggageIdValid(Trim(luggageId)) ==> n.value.kind == Info
    ensures n.Some? && IsLuggageIdValid(Trim(luggageId)) ==>
              n.value == Notice(Info, "No events", Some("No tracking events found for this luggage ID."))
  {
    var e := LuggageError(luggageId);
    if e != "" then Some(Notice(Error, "Invalid luggage ID", Some(e)))
    else if |Events(es, luggageId)| == 0 then
      Some(Notice(Info, "No events", Some("No tracking events found for this luggage ID.")))
    else
      assert Events(es, luggageId)[0] in Events(es, luggageId);
      None
  }

  /** The owner card: the owner's name and ticket with the flight number, or "Missing
      flight" when the owner's flight no longer exists; absent when nobody owns the bag. */
  function OwnerCard(ps: seq<Passenger>, fs: seq<Flight>, luggageId: string): (c: Option<(Passenger, string)>)
    ensures c.None? <==> forall j :: 0 <= j < |ps| ==> ps[j].luggageId != Trim(luggageId)
    ensures c.Some? ==> c.value.0 in ps && c.value.0.luggageId == Trim(luggageId)
                        && (c.value.0.flightId !in FlightIds(fs) ==> c.value.1 == "Missing flight")
    ensures c.Some? ==> && FindByLuggage(ps, Trim(luggageId)).Some?
                        && c.value.0 == ps[FindByLuggage(ps, Trim(luggageId)).value]
                        && (c.value.0.flightId in FlightIds(fs) ==>
                              exists i :: 0 <= i < |fs| && fs[i].id == c.value.0.flightId
                                          && (forall j :: 0 <= j < i ==> fs[j].id != c.value.0.flightId)
                                          && c.value.1 == fs[i].airlineFlightNo)
  {
    match FindByLuggage(ps, Trim(luggageId))
    case Some(k) => Some((ps[k], FlightLabel(fs, ps[k].flightId)))
    case None => None
  }
}

=== FILE: update_bags.dfy ===
/**
 * The ground crew's free-form update page: a six-digit luggage id is the only check
 * (there is no ownership check); the event takes the trimmed location or "Unknown",
 * one of three statuses, and the gate of the owner's flight when owner and flight
 * exist. The page also shows the ten most recent events for the luggage id.
 */
module UpdateBags {
  import opened Options
  import opened Text
  import opened Validation
  import opened Seqs
  import opened Entities
  import opened AppContext
  import opened Guards

  /** The statuses the page offers. */
  type UpdateStatus = s: BagStatus | s.ReceivedSecurity? || s.ClearedSecurity? || s.AtGate? witness ReceivedSecurity

  /** `location.trim() || 'Unknown'`: never blank, never padded. */
  function EventLocation(location: string): (r: string)
    ensures !IsBlank(r) && Trim(r) == r
    ensures !IsBlank(location) ==> r == Trim(location)
    ensures IsBlank(location) ==> r == "Unknown"
  {
    TrimIdempotent(location);
    UnknownIsTrimmed();
    if IsBlank(location) then "Unknown" else Trim(location)
  }

  lemma UnknownIsTrimmed()
    ensures Trim("Unknown") == "Unknown"
  {
    var u := "Unknown";
    assert !IsWhitespace(u[0]) && !IsWhitespace(u[|u| - 1]);
    TrimKeeps(u);
  }

  /** `flight?.gate` for the owner's flight. */
  function OwnerGate(ps: seq<Passenger>, fs: seq<Flight>, luggageId: string): (g: Option<string>)
    ensures g.Some? <==> OwnerFlight(ps, fs, luggageId).Some?
    ensures g.Some? ==> exists f :: f in fs && f.gate == g.value
                                    && exists i :: 0 <= i < |ps| && ps[i].luggageId == luggageId && ps[i].flightId == f.id
    ensures g.Some? <==> && FindByLuggage(ps, luggageId).Some?
                         && ps[FindByLuggage(ps, luggageId).value].flightId in FlightIds(fs)
    ensures g.Some? ==> g.value == OwnerFlight(ps, fs, luggageId).value.gate
  {
    match OwnerFlight(ps, fs, luggageId)
    case Some(f) => Some(f.gate)
    case None => None
  }

  /** Whether an event belongs to the (trimmed) luggage id. */
  function ForLuggage(luggageId: string): BagEvent -> bool {
    (e: BagEvent) => e.luggageId == luggageId
  }

  /** `history`: the first ten events of the log for this luggage id, newest first. */
  function History(es: seq<BagEvent>, luggageId: string): (h: seq<BagEvent>)
    ensures |h| <= 10
    ensures forall i :: 0 <= i < |h| ==> h[i].luggageId == Trim(luggageId)
    ensures var all := Filter(es, ForLuggage(Trim(luggageId)));
            |h| == (if |all| < 10 then |all| else 10) && h == all[..|h|]
  {
    var all := Filter(es, ForLuggage(Trim(luggageId)));
    if |all| < 10 then all else all[..10]
  }

  /** The whole effect of pressing "Add event". */
  function Step(s: AppState, luggageId: string, location: string, status: UpdateStatus,
                eventId: string, now: string, toastId: string): (t: AppState)
    ensures t.currentUser == s.currentUser && t.users == s.users && t.flights == s.flights
    ensures t.passengers == s.passengers && t.messages == s.messages
    ensures |t.toasts| == |s.toasts| + 1 && t.toasts[1..] == s.toasts && t.toasts[0].id == toastId
    ensures !IsLuggageIdValid(Trim(luggageId)) ==> t.bagEvents == s.bagEvents && t.toasts[0].kind == Error
    ensures IsLuggageIdValid(Trim(luggageId)) ==>
              && |t.bagEvents| == |s.bagEvents| + 1 && t.bagEvents[1..] == s.bagEvents
              && t.bagEvents[0] == BagEvent(eventId, Trim(luggageId), now, EventLocation(location), status,
                                            OwnerGate(s.passengers, s.flights, Trim(luggageId)))
              && t.toasts[0].kind == Success
  {
    var e := LuggageError(luggageId);
    if e != "" then
      s.(toasts := Post(s.toasts, toastId, Notice(Error, "Invalid luggage ID", Some(e))))
    else
      var l := Trim(luggageId);
      s.(bagEvents := [BagEvent(eventId, l, now, EventLocation(location), status, OwnerGate(s.passengers, s.flights, l))] + s.bagEvents,
         toasts := Post(s.toasts, toastId, Notice(Success, "Bag updated", None)))
  }

  /** `onUpdate` on the store. */
  method OnUpdate(store: AppStore, luggageId: string, location: string, status: UpdateStatus,
                  eventId: string, now: string, toastId: string) returns (error: string)
    requires store.Valid()
    requires eventId !in BagEventIds(store.bagEvents) && toastId !in ToastIds(store.toasts)
    modifies store
    ensures store.Valid()
    ensures error == LuggageError(luggageId)
    ensures store.State() == Step(old(store.State()), luggageId, location, status, eventId, now, toastId)
  {
    error := LuggageError(luggageId);
    if error != "" {
      store.AddToast(toastId, Notice(Error, "Invalid luggage ID", Some(error)));
      return;
    }
    var l := Trim(luggageId);
    store.AddBagEvent(eventId, now, NewBagEvent(l, EventLocation(location), status, OwnerGate(store.passengers, store.flights, l)));
    store.AddToast(toastId, Notice(Success, "Bag updated", None));
  }

  /** Prepending one event adds it to the events of its own luggage id only. */
  lemma PrependFilter(e: BagEvent, es: seq<BagEvent>, luggageId: string)
    ensures Filter([e] + es, ForLuggage(luggageId))
            == (if e.luggageId == luggageId then [e] else []) + Filter(es, ForLuggage(luggageId))
  {
    assert ([e] + es)[0] == e && ([e] + es)[1..] == es;
  }

  /** The bag log is append-only per luggage id: after an accepted update the events for
      that id are the new one followed by all the earlier ones, unchanged; the events of
      every other luggage id are exactly as before, and the new event heads the history. */
  lemma {:induction false} UpdateKeepsHistory(s: AppState, luggageId: string, location: string, status: UpdateStatus,
                                              eventId: string, now: string, toastId: string, other: string)
    requires IsLuggageIdValid(Trim(luggageId))
    ensures var t := Step(s, luggageId, location, status, eventId, now, toastId);
            && Filter(t.bagEvents, ForLuggage(Trim(luggageId))) == [t.bagEvents[0]] + Filter(s.bagEvents, ForLuggage(Trim(luggageId)))
            && (other != Trim(luggageId) ==> Filter(t.bagEvents, ForLuggage(other)) == Filter(s.bagEvents, ForLuggage(other)))
            && |History(t.bagEvents, luggageId)| > 0 && History(t.bagEvents, luggageId)[0] == t.bagEvents[0]
  {
    var t := Step(s, luggageId, location, status, eventId, now, toastId);
    var e := t.bagEvents[0];
    assert t.bagEvents == [e] + s.bagEvents;
    PrependFilter(e, s.bagEvents, Trim(luggageId));
    PrependFilter(e, s.bagEvents, other);
  }
}

=== FILE: validation.dfy ===
/**
 * The seven field-format validators. Each is the whole-string match of the regular
 * expression the application uses, written out as a `Regex` pattern; the lemmas give
 * each one in plain terms. All of them are total: they hold or fail for every string.
 */
module Validation {
  import opened Options
  import opened Text
  import opened Regex

  /** `^[A-Za-z]+\d{2}$` */
  const UsernamePattern: seq<Run> := [Run(Letter, 1, None), Run(Digit, 2, Some(2))]
  /** `^[^@\s]+@[^@\s]+\.[^@\s]+$` */
  const EmailPattern: seq<Run> :=
    [Run(NotAtNorSpace, 1, None), Run(Exactly('@'), 1, Some(1)), Run(NotAtNorSpace, 1, None),
     Run(Exactly('.'), 1, Some(1)), Run(NotAtNorSpace, 1, None)]
  /** `^\d{10}$` */
  const TenDigitsPattern: seq<Run> := [Run(Digit, 10, Some(10))]
  /** `^[A-Za-z]{2}\d{4}$` */
  const FlightNoPattern: seq<Run> := [Run(Letter, 2, Some(2)), Run(Digit, 4, Some(4))]
  /** `^\d{6}$` */
  const LuggageIdPattern: seq<Run> := [Run(Digit, 6, Some(6))]
  /** `^.{6,}$` */
  const SixOrMorePattern: seq<Run> := [Run(NotLineTerminator, 6, None)]

  /** The lookahead `(?=.*X)` at the start of the string: some character of class `X`
      is preceded only by characters that `.` matches. */
  predicate LookaheadFinds(s: string, k: CharClass) {
    exists i :: 0 <= i < |s| && AllIn(s[..i], NotLineTerminator) && InClass(s[i], k)
  }

  predicate IsUsernameValid(s: string) { FullMatch(UsernamePattern, s) }

  /** `^(?=.*[A-Za-z])(?=.*\d).{6,}$` */
  predicate IsPasswordValid(s: string) {
    LookaheadFinds(s, Letter) && LookaheadFinds(s, Digit) && FullMatch(SixOrMorePattern, s)
  }

  predicate IsEmailValid(s: string) { FullMatch(EmailPattern, s) }

  predicate IsPhoneValid(s: string) { FullMatch(TenDigitsPattern, s) }

  predicate IsAirlineFlightNoValid(s: string) { FullMatch(FlightNoPattern, s) }

  predicate IsTicketValid(s: string) { FullMatch(TenDigitsPattern, s) }

  predicate IsLuggageIdValid(s: string) { FullMatch(LuggageIdPattern, s) }

  // ---- The same languages in plain terms ----

  /** One or more ASCII letters followed by exactly two ASCII digits. */
  predicate LettersThenTwoDigits(s: string) {
    && |s| >= 3
    && (forall i :: 0 <= i < |s| - 2 ==> IsAsciiLetter(s[i]))
    && IsDigit(s[|s| - 2]) && IsDigit(s[|s| - 1])
  }

  /** At least six characters, no line terminator, some ASCII letter and some digit. */
  predicate SixWithLetterAndDigit(s: string) {
    && |s| >= 6
    && (forall i :: 0 <= i < |s| ==> !IsLineTerminator(s[i]))
    && (exists i :: 0 <= i < |s| && IsAsciiLetter(s[i]))
    && (exists i :: 0 <= i < |s| && IsDigit(s[i]))
  }

  /** The only '@' of `s` is at index `a`, there is no whitespace, the part before `a`
      is not empty, and after it there is a '.' with a character on each side. */
  predicate EmailShapedAt(s: string, a: int) {
    && 0 < a < |s| && s[a] == '@'
    && (forall i :: 0 <= i < |s| && i != a ==> s[i] != '@')
    && (forall i :: 0 <= i < |s| ==> !IsWhitespace(s[i]))
    && (exists d :: a + 1 < d < |s| - 1 && s[d] == '.')
  }

  /** Exactly `n` ASCII digits. */
  predicate DigitsOnly(s: string, n: nat) {
    |s| == n && forall i :: 0 <= i < |s| ==> IsDigit(s[i])
  }

  /** Two ASCII letters followed by four ASCII digits. */
  predicate TwoLettersFourDigits(s: string) {
    && |s| == 6
    && IsAsciiLetter(s[0]) && IsAsciiLetter(s[1])
    && (forall i :: 2 <= i < 6 ==> IsDigit(s[i]))
  }

  // ---- Each validator against its plain description ----

  /** `\d{n}` as a whole string: exactly `n` ASCII digits. */
  lemma {:induction false} DigitsOnlyIff(n: nat, s: string)
    ensures FullMatch([Run(Digit, n, Some(n))], s) <==> DigitsOnly(s, n)
  {
    FullMatchSingle(Run(Digit, n, Some(n)), s);
  }

  lemma {:induction false} UsernameCut(s: string, k: int)
    requires CutsInTwo(Run(Letter, 1, None), Run(Digit, 2, Some(2)), s, k)
    ensures LettersThenTwoDigits(s)
  {
    assert k == |s| - 2;
    assert forall i :: 0 <= i < k ==> s[..k][i] == s[i];
    assert s[k..][0] == s[|s| - 2] && s[k..][1] == s[|s| - 1];
  }

  lemma {:induction false} UsernameUncut(s: string)
    requires LettersThenTwoDigits(s)
    ensures CutsInTwo(Run(Letter, 1, None), Run(Digit, 2, Some(2)), s, |s| - 2)
  {
    var k := |s| - 2;
    assert AllIn(s[..k], Letter);
    assert AllIn(s[k..], Digit);
  }

  /** A username is one or more ASCII letters followed by exactly two ASCII digits. */
  lemma {:induction false} UsernameValidIff(s: string)
    ensures IsUsernameValid(s) <==> LettersThenTwoDigits(s)
  {
    var letters, digits := Run(Letter, 1, None), Run(Digit, 2, Some(2));
    TwoRuns(letters, digits, s);
    if IsUsernameValid(s) {
      var k :| CutsInTwo(letters, digits, s, k);
      UsernameCut(s, k);
    }
    if LettersThenTwoDigits(s) {
      UsernameUncut(s);
    }
  }

  /** A password has at least six characters, none of them a line terminator, and
      contains at least one ASCII letter and at least one digit. */
  lemma {:induction false} PasswordValidIff(s: string)
    ensures IsPasswordValid(s) <==> SixWithLetterAndDigit(s)
  {
    FullMatchSingle(Run(NotLineTerminator, 6, None), s);
    if (forall i :: 0 <= i < |s| ==> !IsLineTerminator(s[i])) {
      if i :| 0 <= i < |s| && IsAsciiLetter(s[i]) {
        assert AllIn(s[..i], NotLineTerminator) && InClass(s[i], Letter);
      }
      if i :| 0 <= i < |s| && IsDigit(s[i]) {
        assert AllIn(s[..i], NotLineTerminator) && InClass(s[i], Digit);
      }
    }
  }

  /** `\.[^@\s]+`: a '.' and then one or more characters that are neither '@' nor whitespace. */
  lemma {:induction false} DotThenName(v: string)
    ensures FullMatch(EmailPattern[3..], v) <==>
            |v| >= 2 && v[0] == '.' && forall i :: 1 <= i < |v| ==> InClass(v[i], NotAtNorSpace)
  {
    var name := Run(NotAtNorSpace, 1, None);
    assert EmailPattern[3..] == [Run(Exactly('.'), 1, Some(1))] + [name];
    LiteralThen('.', [name], v);
    if |v| >= 1 {
      FullMatchSingle(name, v[1..]);
      assert forall i :: 1 <= i < |v| ==> v[1..][i - 1] == v[i];
    }
  }

  lemma {:induction false} DomainCut(t: string, k: int)
    requires 0 <= k <= |t| && FitsCount(Run(NotAtNorSpace, 1, None), k) && AllIn(t[..k], NotAtNorSpace)
    requires FullMatch(EmailPattern[3..], t[k..])
    ensures forall i :: 0 <= i < |t| ==> InClass(t[i], NotAtNorSpace) || i == k
    ensures 0 < k < |t| - 1 && t[k] == '.'
  {
    var v := t[k..];
    DotThenName(v);
    forall i | 0 <= i < |t| && i != k ensures InClass(t[i], NotAtNorSpace) {
      if i < k { assert t[..k][i] == t[i]; } else { assert v[i - k] == t[i]; }
    }
  }

  /** The domain part `[^@\s]+\.[^@\s]+`: no '@' and no whitespace, and a '.' with at
      least one character on each side. */
  lemma {:induction false} DomainPartIff(t: string)
    ensures FullMatch(EmailPattern[2..], t) <==>
            && (forall i :: 0 <= i < |t| ==> InClass(t[i], NotAtNorSpace))
            && (exists d :: 0 < d < |t| - 1 && t[d] == '.')
  {
    var name := Run(NotAtNorSpace, 1, None);
    assert EmailPattern[2..] == [name] + EmailPattern[3..];
    FullMatchCons(name, EmailPattern[3..], t);
    if FullMatch(EmailPattern[2..], t) {
      var k :| 0 <= k <= |t| && FitsCount(name, k) && AllIn(t[..k], NotAtNorSpace) && FullMatch(EmailPattern[3..], t[k..]);
      DomainCut(t, k);
      assert InClass('.', NotAtNorSpace);
    }
    if && (forall i :: 0 <= i < |t| ==> InClass(t[i], NotAtNorSpace))
       && (exists d :: 0 < d < |t| - 1 && t[d] == '.')
    {
      var d :| 0 < d < |t| - 1 && t[d] == '.';
      DotThenName(t[d..]);
      assert forall i :: 1 <= i < |t| - d ==> t[d..][i] == t[d + i];
      assert AllIn(t[..d], NotAtNorSpace);
    }
  }

  lemma {:induction false} EmailCut(s: string, k: int)
    requires 0 <= k <= |s| && FitsCount(Run(NotAtNorSpace, 1, None), k) && AllIn(s[..k], NotAtNorSpace)
    requires FullMatch(EmailPattern[1..], s[k..])
    ensures EmailShapedAt(s, k)
  {
    var u := s[k..];
    assert EmailPattern[1..] == [Run(Exactly('@'), 1, Some(1))] + EmailPattern[2..];
    LiteralThen('@', EmailPattern[2..], u);
    var t := u[1..];
    DomainPartIff(t);
    var d :| 0 < d < |t| - 1 && t[d] == '.';
    assert s[k + 1 + d] == '.';
    forall i | 0 <= i < |s| && i != k ensures s[i] != '@' && !IsWhitespace(s[i]) {
      if i < k { assert s[..k][i] == s[i]; } else { assert t[i - k - 1] == s[i]; }
    }
  }

  lemma {:induction false} EmailUncut(s: string, a: int)
    requires EmailShapedAt(s, a)
    ensures AllIn(s[..a], NotAtNorSpace) && FullMatch(EmailPattern[1..], s[a..])
  {
    var u := s[a..];
    var t := u[1..];
    var d :| a + 1 < d < |s| - 1 && s[d] == '.';
    assert t[d - a - 1] == '.';
    forall i | 0 <= i < |t| ensures InClass(t[i], NotAtNorSpace) {
      assert t[i] == s[a + 1 + i];
    }
    DomainPartIff(t);
    assert EmailPattern[1..] == [Run(Exactly('@'), 1, Some(1))] + EmailPattern[2..];
    LiteralThen('@', EmailPattern[2..], u);
    forall i | 0 <= i < a ensures InClass(s[..a][i], NotAtNorSpace) {
      assert s[..a][i] == s[i];
    }
  }

  /** An email holds exactly one '@', preceded by at least one character; it holds no
      whitespace; and after the '@' there is a '.' with at least one character on each side. */
  lemma {:induction false} EmailValidIff(s: string)
    ensures IsEmailValid(s) <==> exists a :: EmailShapedAt(s, a)
  {
    var local := Run(NotAtNorSpace, 1, None);
    assert EmailPattern == [local] + EmailPattern[1..];
    FullMatchCons(local, EmailPattern[1..], s);
    if IsEmailValid(s) {
      var k :| 0 <= k <= |s| && FitsCount(local, k) && AllIn(s[..k], NotAtNorSpace) && FullMatch(EmailPattern[1..], s[k..]);
      EmailCut(s, k);
    }
    if a :| EmailShapedAt(s, a) {
      EmailUncut(s, a);
    }
  }

  /** `isPhoneValid` accepts exactly the strings of ten ASCII digits. */
  lemma PhoneValidIff(s: string)
    ensures IsPhoneValid(s) <==> DigitsOnly(s, 10)
  {
    DigitsOnlyIff(10, s);
  }

  /** `isTicketValid` accepts exactly the strings of ten ASCII digits, so it agrees with
      `isPhoneValid` on every input. */
  lemma TicketValidIff(s: string)
    ensures IsTicketValid(s) <==> DigitsOnly(s, 10)
    ensures IsTicketValid(s) == IsPhoneValid(s)
  {
    DigitsOnlyIff(10, s);
  }

  /** `isLuggageIdValid` accepts exactly the strings of six ASCII digits. */
  lemma LuggageIdValidIff(s: string)
    ensures IsLuggageIdValid(s) <==> DigitsOnly(s, 6)
  {
    DigitsOnlyIff(6, s);
  }

  lemma {:induction false} FlightNoCut(s: string, k: int)
    requires CutsInTwo(Run(Letter, 2, Some(2)), Run(Digit, 4, Some(4)), s, k)
    ensures TwoLettersFourDigits(s)
  {
    assert k == 2 && s[..k][0] == s[0] && s[..k][1] == s[1];
    assert forall i :: 2 <= i < 6 ==> s[k..][i - 2] == s[i];
  }

  lemma {:induction false} FlightNoUncut(s: string)
    requires TwoLettersFourDigits(s)
    ensures CutsInTwo(Run(Letter, 2, Some(2)), Run(Digit, 4, Some(4)), s, 2)
  {
    assert AllIn(s[..2], Letter);
    assert forall i :: 0 <= i < 4 ==> s[2..][i] == s[i + 2];
    assert AllIn(s[2..], Digit);
  }

  /** A flight number is six characters: two ASCII letters, then four digits. */
  lemma {:induction false} AirlineFlightNoValidIff(s: string)
    ensures IsAirlineFlightNoValid(s) <==> TwoLettersFourDigits(s)
  {
    var letters, digits := Run(Letter, 2, Some(2)), Run(Digit, 4, Some(4));
    TwoRuns(letters, digits, s);
    if IsAirlineFlightNoValid(s) {
      var k :| CutsInTwo(letters, digits, s, k);
      FlightNoCut(s, k);
    }
    if TwoLettersFourDigits(s) {
      FlightNoUncut(s);
    }
  }

  /** No validator accepts the empty string, so a blank field never passes a format check. */
  lemma EmptyIsInvalid()
    ensures !IsUsernameValid("") && !IsPasswordValid("") && !IsEmailValid("")
    ensures !IsPhoneValid("") && !IsAirlineFlightNoValid("") && !IsTicketValid("") && !IsLuggageIdValid("")
  {
    UsernameValidIff("");
    PasswordValidIff("");
    EmailValidIff("");
    PhoneValidIff("");
    AirlineFlightNoValidIff("");
    TicketValidIff("");
    LuggageIdValidIff("");
  }
}
